=== FILE: README.md ===
# Eternal Solstice file explorer, modelled in Dafny

This project models the logic at the core of the Eternal Solstice file
explorer, an Electron application for Windows. It has two halves.

The main process (`main.js`) has these parts:

- the `read-directory` listing rule;
- the `getFileType` classifier;
- the `search-files` queue-driven search, with its junk-name skip and its
  500-result cap;
- the depth-bounded `advanced-search`;
- the `get-folder-stats` and `getFolderSizeRecursive` folds;
- the tag-store handlers over a path-to-tags map.

The renderer (`app.js` and `js/`) has these parts:

- the browser-style history, the navigation buttons and navigating up;
- the breadcrumb;
- `sortItems`, `filterItems` and `getFileIcon`;
- keyboard focus and range selection, and column sorting;
- the tab strip (`TabManager`) and the command palette (`Commander`);
- the sidebar favourites, expansion and indentation (`SideTree`);
- the renderer's tag cache (`TagSystem`);
- the preview pane's classification (`QuickLook`);
- `escapeHTML`.

The disk is an immutable tree of `FsTree.Node` values. Each node says
whether `fs.stat` succeeds on it, and a directory says whether `fs.readdir`
succeeds. A file holds what `fs.readFile` returns, or None when the read
fails. Every handler becomes a pure function of that tree and its
arguments. The search handler is a method: it walks the queue
sequentially, and its result is proved to be the sub-multiset of a
recursive reference definition. Renderer state such as history, tabs, the
palette and the tag cache is an immutable record, and each event handler
is a transition on it.

One module per concern:

| module | source |
|---|---|
| `FsTree` | the tree, `path.extname`, `getFileType`, `read-directory` |
| `Search` | `search-files` |
| `AdvancedSearch` | `advanced-search` |
| `FolderStats` | `get-folder-stats` and `getFolderSizeRecursive` |
| `TagStore` | the tag-store handlers |
| `Navigation` | history, buttons, up and breadcrumb in `app.js` |
| `ListView` | icons, sorting, filtering, keys and selection in `app.js` |
| `Tabs` | `js/TabManager.js` |
| `Commander` | `js/Commander.js` |
| `SideTree` | `js/SideTree.js` |
| `TagCache` | `js/TagSystem.js` |
| `QuickLook` | `js/QuickLook.js` |
| `Html` | `js/Utils.js` |

`Text`, `Seqs`, `Tables` and `Wrappers` hold shared string, sequence,
table and option helpers.

Behaviour of the program that the model makes explicit:

- **search-files**
  - When the 500th result arrives while directories are still queued, the
    handler's promise settles only through its 30-second timer. The
    search method reports this as its `viaTimeout` flag.
  - Results carry `path.extname` even for directories. The listing sets
    the extension to null for directories.
- **advanced-search**
  - It checks the 500-result cap only when it enters a directory, so a
    single listing can push the result count past 500.
  - A directory that fails the type filter is still searched below.
- **get-folder-stats**
  - A directory deeper than ten levels is counted as a folder, but is not
    listed.
  - `getFolderSizeRecursive` descends into directories without a stat.
    So the stats can undercount, and never overcount, the folder size.
- **Up button**
  - The button is enabled whenever the current path contains a
    separator.
  - For a path such as `\x`, whose parent is the empty string, pressing
    it does nothing.
- **Extension tables**
  - The tables of `getFileType` (main process), `getFileIcon` and
    `filterItems` (renderer) differ. For example, `.json` is `code` to
    the main process but gets the plain file icon.
- **sortItems**
  - `sortItems` never reads `sortDirection`, so the direction toggled by
    a column header does not change the order.

## Model

| member | source | states |
|---|---|---|
| FsTree.ExtName | playground/eternal-solstice/main.js:134 | `path.extname`: empty for names without a dot or with only a leading dot; otherwise a dot-led suffix with no further dot, shorter than the name |
| FsTree.GetFileType | playground/eternal-solstice/main.js:775-793 | a directory is classified "folder" regardless of its extension, and nothing else is |
| FsTree.GetFileTypeIsFirstHit | playground/eternal-solstice/main.js:775-793 | a file's class is the first of image, video, audio, code, archive, document whose extension list holds it, else "file" |
| FsTree.ReadDirectory | playground/eternal-solstice/main.js:112-146 | a missing path, a file or an unreadable directory lists as []; otherwise exactly the children whose stat fails are dropped; extension is null exactly for directories; each path is the directory joined with the name |
| FsTree.ListEntries | playground/eternal-solstice/main.js:121-141 | one record per child whose stat succeeds, so the count plus the unreadable children is the number of children |
| FsTree.ListEntriesMembers | playground/eternal-solstice/main.js:121-141 | every child whose stat succeeds is listed, and every listed record comes from such a child |
| Search.HitsMatch | playground/eternal-solstice/main.js:349-356 | every record a listing contributes matches the query and the type filter |
| Search.ReportedMatches | playground/eternal-solstice/main.js:349-356 | a reported child's record satisfies the name and type predicates |
| Search.HitsMembers | playground/eternal-solstice/main.js:343-371 | a listing contributes a record for a child if and only if that child is reported |
| Search.SubDirs | playground/eternal-solstice/main.js:374-376 | the queued jobs are directories, and their total size is bounded by the listing's |
| Search.FoundMatches | playground/eternal-solstice/main.js:343-376 | every record of the uncapped recursive reference matches the filters |
| Search.Descends | playground/eternal-solstice/main.js:374-376 | a non-junk subdirectory's reference results are all included in its parent's, matched or not |
| Search.ScanListing | playground/eternal-solstice/main.js:342-377 | processing a listing stops at the cap; what it appended is the listing's reference contribution up to where it stopped |
| Search.ProcessJob | playground/eternal-solstice/main.js:335-378 | one dequeue keeps results plus the reference of the remaining queue equal to the whole reference while under the cap, and never exceeds 500 |
| Search.SearchFiles | playground/eternal-solstice/main.js:319-405 | at most 500 results, all drawn from the reference; all of it when it has fewer than 500; exactly min(reference size, 500) results; every result matches; the timer-only exit happens only when the cap is reached |
| Search.ResultCount | playground/eternal-solstice/main.js:335 | the number of results is the reference's size capped at 500 |
| AdvancedSearch.AdvancedSearch | playground/eternal-solstice/main.js:554-668 | a missing root gives []; results are a sub-multiset of the uncapped depth-bounded reference, equal to it when it holds fewer than 500, and at least 500 of them when it holds 500 or more |
| AdvancedSearch.AdvancedSearchSound | playground/eternal-solstice/main.js:594-652 | every result passes the type filter, (name or content) match, the inclusive date window and, for files, the inclusive size window |
| AdvancedSearch.WalkLemma | playground/eternal-solstice/main.js:578-660 | the shared-list walk of a directory appends a sub-multiset of its reference contribution, all of it below the cap, and at least as much as fits under the cap |
| AdvancedSearch.WalkEntriesLemma | playground/eternal-solstice/main.js:585-660 | the same for a listing |
| AdvancedSearch.VisitLemma | playground/eternal-solstice/main.js:586-659 | the same for one entry: a failed stat skips it, a directory is descended even when it fails the type filter |
| AdvancedSearch.CollectSound | playground/eternal-solstice/main.js:628-652 | every record of a directory's reference satisfies the filters |
| AdvancedSearch.CollectEntriesHas | playground/eternal-solstice/main.js:585-660 | each entry's contribution is part of its listing's |
| AdvancedSearch.Descends | playground/eternal-solstice/main.js:579-580 | a subdirectory within the depth bound is searched, whatever its own type |
| FolderStats.StatsBelowSize | playground/eternal-solstice/main.js:676-701 | the stats never report more bytes than `getFolderSizeRecursive` |
| FolderStats.StatsExact | playground/eternal-solstice/main.js:676-701 | on a readable tree within the depth limit, the stats' byte total is the folder size |
| FolderStats.CountExact | playground/eternal-solstice/main.js:676-701 | on a readable tree within the depth limit, files plus folders count every node below the root |
| FolderStats.HandlersAgree | playground/eternal-solstice/main.js:670-714 | for the two handlers, stats never exceed size, and on a healthy tree of at most eleven levels they agree |
| TagStore.GetAllTags | playground/eternal-solstice/main.js:822-848 | a missing file that cannot be created rejects and stays missing; otherwise the reply is the contents, `{}` for an unparsable file, and a missing file is created empty |
| TagStore.EnsuredKeepsContents | playground/eternal-solstice/main.js:822-827 | creating a missing file does not change what it reads as, and the file stays missing exactly when it cannot be created |
| TagStore.UpdateFileTags | playground/eternal-solstice/main.js:822-866 | it succeeds exactly when writing succeeds, leaving the file unchanged otherwise; an empty list deletes the path, any other list replaces it, and every other path keeps its tags |
| TagStore.AddFileTag | playground/eternal-solstice/main.js:822-886 | a missing file that cannot be created fails; a tag already present changes nothing; on success the path has the tag, other paths are untouched, and the reply carries the stored map |
| TagStore.ReadAfterSuccess | playground/eternal-solstice/main.js:822-911 | after any successful handler, reading the tags returns exactly the map that handler replied with |
| TagStore.RemoveFileTag | playground/eternal-solstice/main.js:822-911 | a missing file fails when it cannot be created and otherwise becomes `{}` with reply `{}`; an absent tag changes nothing; on success other paths are untouched, and the path keeps its list minus the first occurrence of the tag, or loses its key when nothing is left |
| TagStore.RemoveFirst | playground/eternal-solstice/main.js:894-896 | `splice(indexOf(tag), 1)` removes exactly one occurrence |
| TagStore.AddKeepsWellFormed | playground/eternal-solstice/main.js:872-879 | adding never duplicates a tag and never stores an empty list |
| TagStore.RemoveKeepsWellFormed | playground/eternal-solstice/main.js:892-906 | removing keeps the lists duplicate-free and deletes a key whose list empties |
| TagStore.RemoveRemoves | playground/eternal-solstice/main.js:892-906 | after a successful remove on a well-formed store the path no longer has the tag |
| TagStore.AddIdempotent | playground/eternal-solstice/main.js:872-879 | adding the same tag twice is adding it once |
| TagStore.AddThenRemove | playground/eternal-solstice/main.js:869-911 | removing a freshly added tag restores the well-formed store exactly |
| TagStore.NoDupRemoveFirst | playground/eternal-solstice/main.js:894-896 | on a duplicate-free list, removing the first occurrence removes the tag entirely |
| Navigation.NavigateTo | playground/eternal-solstice/app.js:318-363 | a failed read changes nothing; otherwise the entries after the cursor are dropped, the path is appended and shown, and the cursor is at the end |
| Navigation.Back | playground/eternal-solstice/app.js:365-371 | the cursor moves back by one while it can, the history never changes, and the folder changes only when the load succeeds |
| Navigation.Forward | playground/eternal-solstice/app.js:373-379 | the cursor moves forward by one while it can, the history never changes |
| Navigation.ParentPath | playground/eternal-solstice/app.js:384 | the parent is the text before the last separator, or "" without one |
| Navigation.ParentIsBeforeLastSep | playground/eternal-solstice/app.js:384 | splitting on the separator, dropping the last piece and joining is the text before the last separator |
| Navigation.NavigateUp | playground/eternal-solstice/app.js:381-388 | nothing happens when the last separator is missing or at index 0; otherwise it navigates to the text before the last separator |
| Navigation.UpThenBack | playground/eternal-solstice/app.js:365-388 | going up and then back returns to the folder and cursor one started from, and the parent is never empty |
| Navigation.UpDropsLastPiece | playground/eternal-solstice/app.js:384 | going up lands on the path with its last separator-delimited piece dropped |
| Navigation.ButtonsMeanMoves | playground/eternal-solstice/app.js:1076-1080 | back and forward are enabled exactly when pressing them moves the cursor; up is disabled exactly for an empty or separator-free path, where it is inert |
| Navigation.UpEnabledButInert | playground/eternal-solstice/app.js:1079 | for `\x` the up button is enabled but navigating up does nothing |
| Navigation.NavigateToEndsHistory | playground/eternal-solstice/app.js:338-342 | after a successful navigation the forward button is disabled |
| Navigation.BackThenForward | playground/eternal-solstice/app.js:365-379 | back then forward returns to the same state |
| Navigation.NavigateThenBack | playground/eternal-solstice/app.js:338-342 | going back after navigating shows the previous folder at the previous cursor |
| Navigation.Breadcrumb | playground/eternal-solstice/app.js:1048-1074 | one segment per non-empty piece, labelled with it; only the last is active |
| Navigation.CrumbsChain | playground/eternal-solstice/app.js:1069 | each segment's target is the previous target, a separator and its own label |
| Navigation.CrumbTargetParts | playground/eternal-solstice/app.js:1069 | the breadcrumb of segment i's target is the first i+1 segments |
| Navigation.LastCrumbIsPath | playground/eternal-solstice/app.js:1064-1069 | for a path without empty pieces the active segment leads back to the path itself |
| ListView.GetFileIcon | playground/eternal-solstice/app.js:908-929 | a directory gets the folder icon, a file without extension the plain file icon |
| ListView.IconKindAgreesWithFileType | playground/eternal-solstice/app.js:914-926 | outside the extensions the icon lists lack, the icon class equals the main process's `getFileType` |
| ListView.JsonIconDiffers | playground/eternal-solstice/app.js:917 | `.json` is code to the main process but gets the plain file icon |
| ListView.CompareAntisymmetric | playground/eternal-solstice/app.js:935-953 | the comparator is consistent: swapping its arguments flips the sign |
| ListView.CompareTransitive | playground/eternal-solstice/app.js:935-953 | the comparator's "not after" relation is transitive |
| ListView.SortItemsCorrect | playground/eternal-solstice/app.js:931-956 | the result is a permutation of the input, in comparator order, with every directory before every file |
| ListView.FilterItems | playground/eternal-solstice/app.js:958-982 | 'all' returns the input; otherwise a sub-multiset whose items all pass the test |
| ListView.FilterItemsKeepsAll | playground/eternal-solstice/app.js:978-979 | an unknown filter type returns the input unchanged |
| ListView.FilterItemsExact | playground/eternal-solstice/app.js:961-981 | the result is an order-preserving sub-list holding exactly the items passing the extension table |
| ListView.FilterFolders | playground/eternal-solstice/app.js:962 | 'folder' keeps exactly the directories |
| ListView.ArrowTarget | playground/eternal-solstice/app.js:1595-1644 | a focus move lands inside the list and differs from the current position; Home gives 0, End gives the last index, an empty list gives nothing |
| ListView.PageKeysMoveTen | playground/eternal-solstice/app.js:1629-1636 | the page keys move ten places, clamped to the list |
| ListView.SelectRange | playground/eternal-solstice/app.js:1425-1440 | the selection is exactly the paths of existing items between the two indices inclusive |
| ListView.FocusItem | playground/eternal-solstice/app.js:1646-1679 | an index outside the list is ignored; otherwise it is focused; without shift only it is selected and becomes the anchor; with shift and an anchor the selection is the whole range between them; with shift and no anchor the selection and anchor stay as they were |
| ListView.HandleColumnSort | playground/eternal-solstice/app.js:1401-1408 | a new column sorts ascending; the same column flips the direction |
| ListView.ColumnSortTwice | playground/eternal-solstice/app.js:1401-1408 | clicking the current column twice restores the sort state |
| Tabs.TabIdInjective | playground/eternal-solstice/js/TabManager.js:15 | different counter values give different tab ids |
| Tabs.GetNameFromPath | playground/eternal-solstice/js/TabManager.js:128-132 | 'New Tab' for no path; the first two characters of a drive root |
| Tabs.NameIsLastSegment | playground/eternal-solstice/js/TabManager.js:131 | below a drive root the name is the text after the last separator, or the whole path when that is empty |
| Tabs.TabNameHasNoSeparator | playground/eternal-solstice/js/TabManager.js:131 | such a name holds no separator |
| Tabs.CreateTab | playground/eternal-solstice/js/TabManager.js:14-41 | a tab with a fresh id, history [path] and cursor 0 is appended and made active; a missing path falls back to documents, then `C:\` |
| Tabs.CreateKeepsValid | playground/eternal-solstice/js/TabManager.js:14-41 | creating keeps ids distinct and unissued ids unused |
| Tabs.CloseTab | playground/eternal-solstice/js/TabManager.js:43-62 | no-op for the last tab or an unknown id; otherwise the tab is removed, and closing the active tab activates its left neighbour (or the new first tab) |
| Tabs.CloseKeepsValid | playground/eternal-solstice/js/TabManager.js:43-62 | closing keeps the invariant, some tab stays active, and the id is gone |
| Tabs.SwitchTab | playground/eternal-solstice/js/TabManager.js:64-90 | the id becomes active and nothing else changes |
| Tabs.Visit | playground/eternal-solstice/js/TabManager.js:96-117 | the entries after the cursor are dropped, the path is appended unless already last, and the cursor ends on the path |
| Tabs.VisitKeepsTabOk | playground/eternal-solstice/js/TabManager.js:110-117 | a tab's history never gains the same folder twice in a row |
| Tabs.UpdateCurrentTab | playground/eternal-solstice/js/TabManager.js:92-118 | with no active tab nothing changes; otherwise only the active tab visits the path |
| Tabs.UpdateKeepsValid | playground/eternal-solstice/js/TabManager.js:92-118 | updating keeps the tab strip invariant |
| Tabs.VisitSameIsNoop | playground/eternal-solstice/js/TabManager.js:114 | visiting the folder already shown at the end leaves the history alone |
| Commander.FilterList | playground/eternal-solstice/js/Commander.js:100-110 | an empty query lists all commands; otherwise a sub-multiset of matching commands |
| Commander.FilterListExact | playground/eternal-solstice/js/Commander.js:106-109 | a non-empty query lists, in original order, exactly the commands whose lower-cased title or description contains it |
| Commander.FilterCommands | playground/eternal-solstice/js/Commander.js:100-114 | the selection is reset to 0 and visibility and input are kept |
| Commander.Open | playground/eternal-solstice/js/Commander.js:87-93 | opening shows the palette with an empty input |
| Commander.OpenListsAll | playground/eternal-solstice/js/Commander.js:87-93 | opening lists all fourteen commands with the first selected |
| Commander.Close | playground/eternal-solstice/js/Commander.js:95-98 | closing hides the palette and keeps everything else |
| Commander.Toggle | playground/eternal-solstice/js/Commander.js:79-85 | toggling flips visibility |
| Commander.ToggleTwice | playground/eternal-solstice/js/Commander.js:79-93 | toggling twice from hidden leaves it hidden, with everything listed |
| Commander.MoveSelection | playground/eternal-solstice/js/Commander.js:147-154 | the selection is clamped into a non-empty list and is -1 for an empty one |
| Commander.MoveSteps | playground/eternal-solstice/js/Commander.js:147-151 | inside the list a move goes exactly one step; at either end it stays |
| Commander.DownThenUp | playground/eternal-solstice/js/Commander.js:147-151 | down then up returns to the same selection below the last command |
| Commander.ExecuteSelected | playground/eternal-solstice/js/Commander.js:164-170 | an action runs, and the palette closes, exactly when the selection names a listed command |
| Commander.ExecuteAfterFilter | playground/eternal-solstice/js/Commander.js:100-114 | after filtering, Enter runs the first listed command, or nothing when none matched |
| Commander.OnKeyDown | playground/eternal-solstice/js/Commander.js:56-68 | while hidden only Ctrl/Meta+P has an effect, and it opens the palette; while shown, Escape closes it, and Enter runs the selected command and closes exactly when the selection names a listed one; no other key runs an action |
| Commander.CtrlPThenEnter | playground/eternal-solstice/js/Commander.js:56-68 | Ctrl+P then Enter on a hidden palette runs Go Home and hides it again |
| Commander.CtrlPCloses | playground/eternal-solstice/js/Commander.js:56-60 | Ctrl+P on a shown palette hides it and runs nothing |
| Commander.OnInput | playground/eternal-solstice/js/Commander.js:71 | typing refilters and resets the selection |
| Commander.ArrowsStayInList | playground/eternal-solstice/js/Commander.js:62-65 | the arrow keys keep the selection inside a non-empty list |
| SideTree.FindPath | playground/eternal-solstice/js/SideTree.js:577 | the first favourite with the path, or -1 when none has it |
| SideTree.SaveFavorites | playground/eternal-solstice/js/SideTree.js:571-595 | an edit keeps the length; an add is refused exactly when the path is present, and otherwise appends |
| SideTree.EditReplacesFirstMatch | playground/eternal-solstice/js/SideTree.js:575-578 | an edit replaces exactly the first favourite with the old path, and nothing when none has it |
| SideTree.AddTwiceRefused | playground/eternal-solstice/js/SideTree.js:580-589 | adding the same favourite twice stores it once |
| SideTree.RemoveFavorite | playground/eternal-solstice/js/SideTree.js:597-604 | an unconfirmed removal keeps all; a confirmed one keeps only favourites differing in path or name |
| SideTree.RemoveFavoriteExact | playground/eternal-solstice/js/SideTree.js:601 | a confirmed removal keeps, in order, exactly the favourites differing in path or name |
| SideTree.AddThenRemove | playground/eternal-solstice/js/SideTree.js:580-604 | removing a just-added new favourite gives back the old list |
| SideTree.DialogFavorite | playground/eternal-solstice/js/SideTree.js:536-541 | the path is kept; an empty name or icon takes its default |
| SideTree.ToggleExpand | playground/eternal-solstice/js/SideTree.js:315-326 | collapsing removes the path, expanding adds it, and no other path changes |
| SideTree.ToggleTwiceRestores | playground/eternal-solstice/js/SideTree.js:315-326 | collapsing and expanding again restores the set |
| SideTree.LevelOfEmpty | playground/eternal-solstice/js/SideTree.js:337-338 | a row without padding reads as level 0 |
| SideTree.LevelOfPadding | playground/eternal-solstice/js/SideTree.js:228 | the level read back from a row's padding is the level it was drawn at |
| SideTree.Rows | playground/eternal-solstice/js/SideTree.js:374-381 | one row per folder at the given level, auto-expanded exactly when its path is in the set |
| SideTree.LoadChildren | playground/eternal-solstice/js/SideTree.js:349-386 | only directories are shown, at the child level |
| SideTree.LoadChildrenCorrect | playground/eternal-solstice/js/SideTree.js:354-360 | the rows are exactly the listing's directories, each once, in name order |
| TagCache.AvailableIdsDistinct | playground/eternal-solstice/js/TagSystem.js:7-15 | the seven tag ids are distinct |
| TagCache.GetTagInfo | playground/eternal-solstice/js/TagSystem.js:66-68 | a found tag has the id and is available; nothing is found exactly when no tag has the id |
| TagCache.GetTagInfoFindsEach | playground/eternal-solstice/js/TagSystem.js:66-68 | looking up an available tag's id finds that very tag |
| TagCache.GetTagsForFile | playground/eternal-solstice/js/TagSystem.js:34-36 | the stored list, or [] for a path without one |
| TagCache.LoadTags | playground/eternal-solstice/js/TagSystem.js:25-32 | a resolved load replaces the cache and notifies; a rejected one changes nothing |
| TagCache.ApplyReply | playground/eternal-solstice/js/TagSystem.js:41-49 | true exactly on a successful reply, which replaces the cache; otherwise the cache is unchanged |
| TagCache.AddTag | playground/eternal-solstice/js/TagSystem.js:38-50 | on success the cache is the store's new map; on failure it is unchanged |
| TagCache.RemoveTag | playground/eternal-solstice/js/TagSystem.js:52-64 | on success the cache is the store's new map; on failure it is unchanged |
| TagCache.AddTagShowsTag | playground/eternal-solstice/js/TagSystem.js:38-50 | after a successful add the file shows the tag and other files keep the stored tags |
| TagCache.AddTagSucceeds | playground/eternal-solstice/js/TagSystem.js:38-50 | adding succeeds exactly when delivered and either the write succeeds or the file exists and already has the tag |
| QuickLook.PreviewExt | playground/eternal-solstice/js/QuickLook.js:153 | the preview extension holds no dot |
| QuickLook.PreviewExtIsAfterLastDot | playground/eternal-solstice/js/QuickLook.js:153 | it is the lower-cased text after the last dot |
| QuickLook.PreviewExtNoDot | playground/eternal-solstice/js/QuickLook.js:153 | a name without a dot yields the whole lower-cased name |
| QuickLook.PreviewExtAgreesWithExtName | playground/eternal-solstice/js/QuickLook.js:153 | for a dotted name it is `path.extname` without its dot |
| QuickLook.PreviewType | playground/eternal-solstice/js/QuickLook.js:215-223 | the class is one of the listed classes or 'unknown' |
| QuickLook.PreviewTypeUnknownIff | playground/eternal-solstice/js/QuickLook.js:216-222 | the table has 24 distinct keys, and an extension is 'unknown' exactly when it is not one of them |
| QuickLook.IconOf | playground/eternal-solstice/js/QuickLook.js:231-244 | the table never yields the folder icon |
| QuickLook.GetFileIcon | playground/eternal-solstice/js/QuickLook.js:225-247 | the page icon for an empty name, the folder for a name without a dot, the table icon of the last extension otherwise |
| QuickLook.FolderIconIffNoDot | playground/eternal-solstice/js/QuickLook.js:228-246 | the folder icon appears exactly for non-empty names without a dot |
| QuickLook.Slashes | playground/eternal-solstice/js/QuickLook.js:159 | every backslash becomes a slash and nothing else changes |
| QuickLook.RenderContent | playground/eternal-solstice/js/QuickLook.js:140-213 | the folder notice appears exactly for directories; text shows the read content; an error only on a failed read; media use the file URL |
| QuickLook.RenderContentByType | playground/eternal-solstice/js/QuickLook.js:153-212 | only text and code are read, and an unlisted extension is never previewed |
| QuickLook.OnKeyDown | playground/eternal-solstice/js/QuickLook.js:75-101 | ignored while typing or when the key comes from inside an open dialog; Space closes a shown preview, or opens the selected item when nothing is shown and no dialog is open; Escape closes a shown preview |
| QuickLook.SpaceTwice | playground/eternal-solstice/js/QuickLook.js:75-101 | Space opens the selected item and a second Space closes it |
| QuickLook.DialogElsewhere | playground/eternal-solstice/js/QuickLook.js:77-100 | while a dialog is open and the key comes from outside it, Space and Escape leave the preview hidden: Space never opens one, and both close one already shown |
| Html.Escape | playground/eternal-solstice/js/Utils.js:11-22 | the output is at least as long as the input, and empty input gives "" |
| Html.EntityOf | playground/eternal-solstice/js/Utils.js:14-20 | a special character becomes an entity, any other is copied |
| Html.EscapeConcat | playground/eternal-solstice/js/Utils.js:13 | escaping works character by character, in order |
| Html.EscapeIsSafe | playground/eternal-solstice/js/Utils.js:13-21 | the output holds no `<`, `>`, `"` or `'` |
| Html.EscapePlain | playground/eternal-solstice/js/Utils.js:13-21 | a string without special characters is returned unchanged |
| Html.UnescapeEscape | playground/eternal-solstice/js/Utils.js:13-21 | decoding the five entities gives back the original text |
| Html.EscapeInjective | playground/eternal-solstice/js/Utils.js:13-21 | different texts never escape alike |
| Html.EscapeNotIdempotent | playground/eternal-solstice/js/Utils.js:15 | escaping twice re-escapes the ampersand of an entity |

## Left out

- Electron windows, IPC plumbing and the preload bridge are outside the model. Each handler is a function of its arguments and of the tree standing for the disk.
- The 30-second timer and the in-flight counter of `search-files` are not modelled. The walk is sequential, and the `viaTimeout` flag marks the runs the real handler settles only through its timer.
- Search.SearchFiles: the bound of 500 results holds for the sequential walk only. The real handler has up to 20 listings in flight, and its cap check (main.js line 342) runs before the awaited `fs.stat` (main.js line 360), so concurrent listings can push the count past 500.
- The regular-expression mode of `advanced-search` is an abstract predicate on the name or content text, since there is no regex engine here. A query that fails to compile falls back to substring search, as the handler does.
- A falsy `dateFrom` or `dateTo` skips that bound. The options carry Option bounds for this, and a zero timestamp is not singled out.
- File mutation (copy, move, rename, create, trash), thumbnails, drives, special folders and cloud-folder detection are left out. They are I/O with no logic beyond the calls they make.
- The tags file is one of missing, unparsable or an object. JSON text and the file system calls are left out, and one `writeOk` flag says whether writing succeeds, for creating a missing file and for writing the edited object back alike.
- `path.join` is modelled as joining with one backslash. Node's normalisation of `..` and doubled separators is left out.
- `toLowerCase` is ASCII-only, because Unicode case mapping has no counterpart here.
- `localeCompare` is code-point order, and `Date` subtraction is integer subtraction of timestamps. Both stand in for the total orders the source uses.
- ListView.SortItems: the sort is an insertion sort that keeps equal items in input order, as JavaScript's stable `Array.prototype.sort` does. The comparator is proved antisymmetric and transitive. That the result is the unique stable order, and so equals what the engine produces, is not proved.
- FsTree.Node: symbolic links and junctions are not modelled; a node is a file or a directory for every handler. `read-directory` decides through `fs.stat`, which follows links, so a junction to a folder lists as a folder. The search, folder-size and folder-stats handlers decide through the directory entry, which is false for a link, so they report a linked folder as a non-directory and never descend into it.
- FsTree.Entry: the `created` birth time that `read-directory` returns is dropped. It is only displayed in the details pane, and no logic reads it.
- `formatFileSize`, `formatDate` and QuickLook's `formatSize` are left out because they use floating point and the clock.
- `debounce` and the tooltip timing are left out because they are timers.
- DOM rendering, context menus, dialogs and drag-and-drop are left out. So are the theme, zen mode, dual pane, sidebar resizing and the unmounted `FileTree` component.
- SideTree's and ThemeManager's localStorage persistence is left out. Favourites are the in-memory list read from it.
- QuickLook.GetFileIcon and QuickLook.PreviewType: these are looked up in an object literal. A key such as `constructor`, inherited from `Object.prototype`, would return that object's member. The model treats such keys as absent. The same holds for `allTags[filePath] || []` in the tag handlers and `fileTags[filePath] || []` in the renderer's tag cache: a path such as `constructor` would read an inherited member, and the model reads it as having no tags.
- TagStore.UpdateFileTags: the tag list is a sequence, so the `!tags` branch for a null list is not modelled; only the empty list deletes the key.
- SideTree.LevelOf: `parseInt` is modelled for styles that start with digits. Leading whitespace and signs are not modelled, since the program only writes `<n>px`.

=== FILE: advsearch.dfy ===
/** The `advanced-search` handler (main.js): a depth-first walk, six levels
    deep at most, that filters by type, name (substring or regular
    expression), optionally file content, modification time and size. The
    500-result limit is checked only on entering a directory, so one listing
    may carry the total past it. */
module AdvancedSearch {
  import opened Wrappers
  import opened Text
  import opened FsTree

  const MaxResults: nat := 500
  /** Directories below this depth are not listed. */
  const MaxDepth: nat := 5
  /** Files of this many bytes or more are never read for content. */
  const ContentLimit: nat := 1024 * 100

  const TextExts: seq<string> :=
    [".txt", ".js", ".ts", ".py", ".java", ".cpp", ".c", ".cs", ".html", ".css", ".json", ".xml", ".md"]

  /** The search options. `pattern` is the compiled case-insensitive
      regular expression's test: None when regular expressions are off or
      the query does not compile. Dates are timestamps; a None bound is an
      absent one. */
  datatype Options = Options(
    query: string,
    fileType: string,
    searchContent: bool,
    dateFrom: Option<int>,
    dateTo: Option<int>,
    sizeMin: Option<int>,
    sizeMax: Option<int>,
    pattern: Option<string -> bool>)

  datatype MatchType = ByName | ByContent

  /** One result: the entry record plus how it matched. */
  datatype Hit = Hit(entry: Entry, matchType: MatchType)

  predicate TypeOk(o: Options, c: Node) {
    o.fileType == "all" || o.fileType == GetFileType(c.Dir?, Lower(ExtName(c.name)))
  }

  /** The query test, by the expression when one compiled and by
      case-insensitive substring otherwise. */
  predicate QueryMatch(o: Options, text: string) {
    if o.pattern.Some? then o.pattern.value(text) else Contains(Lower(text), Lower(o.query))
  }

  /** The conditions under which a file is read for content at all. */
  predicate ContentEligible(o: Options, c: Node) {
    && o.searchContent
    && c.File?
    && !QueryMatch(o, c.name)
    && Lower(ExtName(c.name)) in TextExts
    && c.size < ContentLimit
  }

  predicate ContentMatch(o: Options, c: Node) {
    ContentEligible(o, c) && c.content.Some? && QueryMatch(o, c.content.value)
  }

  /** Inclusive modification-time window. */
  predicate DateMatch(o: Options, mtime: int) {
    (o.dateFrom.None? || o.dateFrom.value <= mtime) && (o.dateTo.None? || mtime <= o.dateTo.value)
  }

  /** Inclusive size window; directories always pass. */
  predicate SizeMatch(o: Options, isDirectory: bool, size: nat) {
    isDirectory || ((o.sizeMin.None? || o.sizeMin.value <= size) && (o.sizeMax.None? || size <= o.sizeMax.value))
  }

  /** Whether a statted entry that passed the type filter is reported. */
  predicate Matches(o: Options, c: Node) {
    (QueryMatch(o, c.name) || ContentMatch(o, c)) && DateMatch(o, c.mtime) && SizeMatch(o, c.Dir?, c.size)
  }

  function HitOf(o: Options, dirPath: string, c: Node): Hit {
    Hit(ListingEntry(dirPath, c), if ContentMatch(o, c) then ByContent else ByName)
  }

  /** What a result record itself guarantees about the options. */
  predicate HitSound(o: Options, h: Hit) {
    var e := h.entry;
    && (e.isDirectory <==> e.extension.None?)
    && (o.fileType == "all" || o.fileType == GetFileType(e.isDirectory, e.extension.GetOr("")))
    && DateMatch(o, e.modified)
    && SizeMatch(o, e.isDirectory, e.size)
    && (h.matchType == ByName ==> QueryMatch(o, e.name))
    && (h.matchType == ByContent ==>
          && o.searchContent && !e.isDirectory && !QueryMatch(o, e.name)
          && e.extension.GetOr("") in TextExts && e.size < ContentLimit)
  }

  // ----- the walk as the program runs it -----

  /** `searchRecursive(path, depth)` with the shared result list `acc`. */
  function Walk(o: Options, path: string, n: Node, depth: nat, acc: seq<Hit>): seq<Hit>
    decreases Size(n), 1
  {
    if depth > MaxDepth || |acc| >= MaxResults || !Listable(n) then acc
    else WalkEntries(o, path, n.children, depth, acc)
  }

  function WalkEntries(o: Options, path: string, cs: seq<Node>, depth: nat, acc: seq<Hit>): seq<Hit>
    decreases SizeSeq(cs), 3
  {
    if cs == [] then acc
    else WalkEntries(o, path, cs[1..], depth, Visit(o, path, cs[0], depth, acc))
  }

  /** One entry of a listing: a failed stat skips it, descent included; a
      directory failing the type filter is still descended into. */
  function Visit(o: Options, path: string, c: Node, depth: nat, acc: seq<Hit>): seq<Hit>
    decreases Size(c), 2
  {
    var full := JoinPath(path, c.name);
    if !c.statOk then acc
    else if !TypeOk(o, c) then (if c.Dir? then Walk(o, full, c, depth + 1, acc) else acc)
    else
      var acc' := if Matches(o, c) then acc + [HitOf(o, path, c)] else acc;
      if c.Dir? then Walk(o, full, c, depth + 1, acc') else acc'
  }

  /** The handler: the walk from the search root at depth 0; a root that
      does not exist cannot be listed and yields []. */
  function AdvancedSearch(o: Options, searchPath: string, root: Option<Node>): (r: seq<Hit>)
    ensures root.None? ==> r == []
    ensures multiset(r) <= multiset(Reference(o, searchPath, root))
    ensures |Reference(o, searchPath, root)| < MaxResults ==> r == Reference(o, searchPath, root)
    ensures |Reference(o, searchPath, root)| >= MaxResults ==> |r| >= MaxResults
  {
    if root.Some? then
      WalkLemma(o, searchPath, root.value, 0, []);
      Walk(o, searchPath, root.value, 0, [])
    else []
  }

  // ----- the uncapped reference -----

  function Collect(o: Options, path: string, n: Node, depth: nat): seq<Hit>
    decreases Size(n), 1
  {
    if depth > MaxDepth || !Listable(n) then []
    else CollectEntries(o, path, n.children, depth)
  }

  function CollectEntries(o: Options, path: string, cs: seq<Node>, depth: nat): seq<Hit>
    decreases SizeSeq(cs), 3
  {
    if cs == [] then [] else CollectVisit(o, path, cs[0], depth) + CollectEntries(o, path, cs[1..], depth)
  }

  function CollectVisit(o: Options, path: string, c: Node, depth: nat): seq<Hit>
    decreases Size(c), 2
  {
    var full := JoinPath(path, c.name);
    if !c.statOk then []
    else if !TypeOk(o, c) then (if c.Dir? then Collect(o, full, c, depth + 1) else [])
    else
      (if Matches(o, c) then [HitOf(o, path, c)] else []) + (if c.Dir? then Collect(o, full, c, depth + 1) else [])
  }

  function Reference(o: Options, searchPath: string, root: Option<Node>): seq<Hit> {
    if root.Some? then Collect(o, searchPath, root.value, 0) else []
  }

  // ----- the walk against the reference -----

  /** `r` is what a step left in the shared list that held `acc`, when the
      uncapped step would have appended `c`: the step only appended, what it
      appended comes from `c`, and below the limit it appended exactly `c`. */
  predicate Extends(acc: seq<Hit>, r: seq<Hit>, c: seq<Hit>) {
    && |acc| <= |r| && r[..|acc|] == acc
    && multiset(r) <= multiset(acc) + multiset(c)
    && (|acc| + |c| < MaxResults ==> r == acc + c)
    && |r| >= (if |acc| + |c| < MaxResults then |acc| + |c| else MaxResults)
  }

  lemma ExtendsRefl(acc: seq<Hit>)
    ensures Extends(acc, acc, [])
  {
    assert acc + [] == acc;
  }

  lemma ExtendsAppend(acc: seq<Hit>, m: seq<Hit>)
    ensures Extends(acc, acc + m, m)
  {
    assert (acc + m)[..|acc|] == acc;
  }

  /** Two steps in a row extend by the concatenation of their parts. */
  lemma ExtendsCompose(acc: seq<Hit>, mid: seq<Hit>, r: seq<Hit>, c1: seq<Hit>, c2: seq<Hit>)
    requires Extends(acc, mid, c1) && Extends(mid, r, c2)
    ensures Extends(acc, r, c1 + c2)
  {
    assert r[..|acc|] == r[..|mid|][..|acc|];
    assert multiset(c1 + c2) == multiset(c1) + multiset(c2);
    if |acc| + |c1 + c2| < MaxResults {
      assert mid == acc + c1;
      assert acc + c1 + c2 == acc + (c1 + c2);
    }
  }

  /** The walk against the uncapped reference, for a directory, a listing
      and one entry. */
  lemma {:induction false} WalkLemma(o: Options, path: string, n: Node, depth: nat, acc: seq<Hit>)
    ensures Extends(acc, Walk(o, path, n, depth, acc), Collect(o, path, n, depth))
    decreases Size(n), 1
  {
    if depth > MaxDepth || !Listable(n) {
      ExtendsRefl(acc);
    } else if |acc| >= MaxResults {
      assert acc[..|acc|] == acc;
    } else {
      WalkEntriesLemma(o, path, n.children, depth, acc);
    }
  }

  lemma {:induction false} WalkEntriesLemma(o: Options, path: string, cs: seq<Node>, depth: nat, acc: seq<Hit>)
    ensures Extends(acc, WalkEntries(o, path, cs, depth, acc), CollectEntries(o, path, cs, depth))
    decreases SizeSeq(cs), 3
  {
    if cs == [] {
      ExtendsRefl(acc);
    } else {
      var acc1 := Visit(o, path, cs[0], depth, acc);
      VisitLemma(o, path, cs[0], depth, acc);
      WalkEntriesLemma(o, path, cs[1..], depth, acc1);
      ExtendsCompose(acc, acc1, WalkEntries(o, path, cs[1..], depth, acc1),
                     CollectVisit(o, path, cs[0], depth), CollectEntries(o, path, cs[1..], depth));
    }
  }

  lemma {:induction false} VisitLemma(o: Options, path: string, c: Node, depth: nat, acc: seq<Hit>)
    ensures Extends(acc, Visit(o, path, c, depth, acc), CollectVisit(o, path, c, depth))
    decreases Size(c), 2
  {
    var full := JoinPath(path, c.name);
    if !c.statOk {
      ExtendsRefl(acc);
    } else if !TypeOk(o, c) {
      if c.Dir? { WalkLemma(o, full, c, depth + 1, acc); } else { ExtendsRefl(acc); }
    } else {
      var m := if Matches(o, c) then [HitOf(o, path, c)] else [];
      ExtendsAppend(acc, m);
      if c.Dir? {
        WalkLemma(o, full, c, depth + 1, acc + m);
        ExtendsCompose(acc, acc + m, Walk(o, full, c, depth + 1, acc + m), m, Collect(o, full, c, depth + 1));
      } else {
        assert m + [] == m;
        assert acc + m == (if Matches(o, c) then acc + [HitOf(o, path, c)] else acc);
      }
    }
  }

  // ----- soundness and descent -----

  lemma {:induction false} CollectSound(o: Options, path: string, n: Node, depth: nat)
    ensures forall i :: 0 <= i < |Collect(o, path, n, depth)| ==> HitSound(o, Collect(o, path, n, depth)[i])
    decreases Size(n), 1
  {
    if !(depth > MaxDepth || !Listable(n)) {
      CollectEntriesSound(o, path, n.children, depth);
    }
  }

  lemma {:induction false} CollectEntriesSound(o: Options, path: string, cs: seq<Node>, depth: nat)
    ensures forall i :: 0 <= i < |CollectEntries(o, path, cs, depth)| ==> HitSound(o, CollectEntries(o, path, cs, depth)[i])
    decreases SizeSeq(cs), 3
  {
    if cs != [] {
      CollectVisitSound(o, path, cs[0], depth);
      CollectEntriesSound(o, path, cs[1..], depth);
      AllSoundConcat(o, CollectVisit(o, path, cs[0], depth), CollectEntries(o, path, cs[1..], depth));
    }
  }

  lemma {:induction false} CollectVisitSound(o: Options, path: string, c: Node, depth: nat)
    ensures forall i :: 0 <= i < |CollectVisit(o, path, c, depth)| ==> HitSound(o, CollectVisit(o, path, c, depth)[i])
    decreases Size(c), 2
  {
    var full := JoinPath(path, c.name);
    if c.statOk {
      if c.Dir? { CollectSound(o, full, c, depth + 1); }
      if TypeOk(o, c) {
        var m := if Matches(o, c) then [HitOf(o, path, c)] else [];
        var sub := if c.Dir? then Collect(o, full, c, depth + 1) else [];
        if Matches(o, c) {
          assert HitSound(o, HitOf(o, path, c));
        }
        AllSoundConcat(o, m, sub);
      }
    }
  }

  lemma AllSoundConcat(o: Options, a: seq<Hit>, b: seq<Hit>)
    requires forall i :: 0 <= i < |a| ==> HitSound(o, a[i])
    requires forall i :: 0 <= i < |b| ==> HitSound(o, b[i])
    ensures forall i :: 0 <= i < |a + b| ==> HitSound(o, (a + b)[i])
  {
    forall i | 0 <= i < |a + b| ensures HitSound(o, (a + b)[i]) {
      if i >= |a| { assert (a + b)[i] == b[i - |a|]; }
    }
  }

  /** Every result of the handler satisfies the filters it was given. */
  lemma AdvancedSearchSound(o: Options, searchPath: string, root: Option<Node>)
    ensures forall i :: 0 <= i < |AdvancedSearch(o, searchPath, root)| ==>
      HitSound(o, AdvancedSearch(o, searchPath, root)[i])
  {
    if root.Some? {
      var r := AdvancedSearch(o, searchPath, root);
      var c := Collect(o, searchPath, root.value, 0);
      CollectSound(o, searchPath, root.value, 0);
      WalkLemma(o, searchPath, root.value, 0, []);
      forall i | 0 <= i < |r| ensures HitSound(o, r[i]) {
        assert r[i] in multiset(r);
        assert r[i] in c;
      }
    }
  }

  lemma {:induction false} CollectEntriesHas(o: Options, path: string, cs: seq<Node>, depth: nat, k: nat)
    requires k < |cs|
    ensures multiset(CollectVisit(o, path, cs[k], depth)) <= multiset(CollectEntries(o, path, cs, depth))
    decreases |cs|
  {
    var head := CollectVisit(o, path, cs[0], depth);
    var tail := CollectEntries(o, path, cs[1..], depth);
    assert CollectEntries(o, path, cs, depth) == head + tail;
    assert multiset(head + tail) == multiset(head) + multiset(tail);
    if k > 0 {
      assert cs[k] == cs[1..][k - 1];
      CollectEntriesHas(o, path, cs[1..], depth, k - 1);
    }
  }

  /** A directory within depth is searched whatever its own type: every
      result below a statted subdirectory is a result of its parent, even
      when the subdirectory fails the type filter. */
  lemma Descends(o: Options, path: string, n: Node, depth: nat, k: nat)
    requires depth <= MaxDepth && Listable(n) && k < |n.children|
    requires n.children[k].statOk && n.children[k].Dir?
    ensures multiset(Collect(o, JoinPath(path, n.children[k].name), n.children[k], depth + 1))
         <= multiset(Collect(o, path, n, depth))
  {
    var c := n.children[k];
    CollectEntriesHas(o, path, n.children, depth, k);
    var m := if TypeOk(o, c) && Matches(o, c) then [HitOf(o, path, c)] else [];
    assert CollectVisit(o, path, c, depth) == m + Collect(o, JoinPath(path, c.name), c, depth + 1);
    assert multiset(CollectVisit(o, path, c, depth)) ==
      multiset(m) + multiset(Collect(o, JoinPath(path, c.name), c, depth + 1));
  }
}

=== FILE: commander.dfy ===
/** The command palette (js/Commander.js): a fixed list of commands, a
    case-insensitive filter over their titles and descriptions, a clamped
    selection moved by the arrow keys, and execution of the selected
    command. What a command does is named by an `Action` value; carrying it
    out belongs to the rest of the renderer. */
module Commander {
  import opened Wrappers
  import opened Text
  import opened Seqs

  /** The effect a command's `action` callback has. */
  datatype Action =
    | GoHome
    | GoDocuments
    | GoDownloads
    | ToggleZen
    | ShowSettings
    | ToggleDualPane
    | NewFolder
    | Refresh
    | ToggleHiddenFiles
    | ChangeSort(key: string)
    | ChangeView(mode: string)
    | OpenExternal(url: string)

  datatype Command = Command(
    id: string,
    title: string,
    icon: string,
    desc: string,
    shortcut: Option<string>,
    action: Action)

  /** `getCommands()`. */
  const Commands: seq<Command> := [
    Command("home", "Go Home", "🏠", "Navigate to user home directory", None, GoHome),
    Command("docs", "Go to Documents", "📄", "Navigate to Documents", None, GoDocuments),
    Command("downloads", "Go to Downloads", "⬇️", "Navigate to Downloads", None, GoDownloads),
    Command("zen", "Toggle Zen Mode", "🧘", "Toggle distraction-free Zen Mode", None, ToggleZen),
    Command("settings", "Open Settings", "⚙️", "Configure themes and preferences", None, ShowSettings),
    Command("dualpane", "Toggle Split View", "🌗", "Enable or disable dual pane mode", None, ToggleDualPane),
    Command("newfolder", "New Folder", "📁", "Create a new folder in current directory", None, NewFolder),
    Command("refresh", "Refresh", "🔄", "Reload current directory", None, Refresh),
    Command("hidden", "Toggle Hidden Files", "👁️", "Show or hide hidden files", Some("Ctrl+H"), ToggleHiddenFiles),
    Command("sort_name", "Sort by Name", "🔤", "Sort files alphabetically", None, ChangeSort("name")),
    Command("sort_date", "Sort by Date", "📅", "Sort files by modification date", None, ChangeSort("date")),
    Command("view_grid", "Grid View", "⏹️", "Switch to grid layout", None, ChangeView("grid")),
    Command("view_list", "List View", "list", "Switch to list/details layout", None, ChangeView("details")),
    Command("github", "Open GitHub", "🐙", "Open GitHub in browser", None, OpenExternal("https://github.com"))]

  /** The palette's state: whether it is shown, the text of its input, the
      commands currently listed and the selected position in that list. */
  datatype Palette = Palette(visible: bool, input: string, filtered: seq<Command>, selected: int)

  /** The constructor's state: hidden, nothing listed, position 0. */
  const Init: Palette := Palette(false, "", [], 0)

  /** A command is listed for a (lower-cased, non-empty) query when its
      lower-cased title or description contains it. */
  predicate Matches(query: string, c: Command) {
    Contains(Lower(c.title), query) || Contains(Lower(c.desc), query)
  }

  /** The list `filterCommands` computes for the input text. */
  function FilterList(commands: seq<Command>, input: string): (r: seq<Command>)
    ensures Lower(input) == "" ==> r == commands
    ensures multiset(r) <= multiset(commands)
    ensures Lower(input) != "" ==> forall i :: 0 <= i < |r| ==> Matches(Lower(input), r[i])
  {
    var query := Lower(input);
    if query == "" then commands
    else Filter(commands, c => Matches(query, c))
  }

  /** For a non-empty query, a command is listed exactly when it matches,
      and the listed commands keep their original order. */
  lemma FilterListExact(commands: seq<Command>, input: string)
    requires input != ""
    ensures forall i :: 0 <= i < |commands| ==>
      (commands[i] in FilterList(commands, input) <==> Matches(Lower(input), commands[i]))
    ensures IsSubsequence(FilterList(commands, input), commands)
  {
    var query := Lower(input);
    assert query != "" by { assert |query| == |input| > 0; }
    FilterMembersIff(commands, c => Matches(query, c));
    FilterIsSubsequence(commands, c => Matches(query, c));
  }

  /** `filterCommands()`: recompute the list and reset the selection to 0. */
  function FilterCommands(p: Palette): (r: Palette)
    ensures r.selected == 0
    ensures r.visible == p.visible && r.input == p.input
    ensures multiset(r.filtered) <= multiset(Commands)
  {
    p.(filtered := FilterList(Commands, p.input), selected := 0)
  }

  /** `open()`: show the palette with an empty input. */
  function Open(p: Palette): (r: Palette)
    ensures r.visible && r.input == ""
  {
    FilterCommands(p.(visible := true, input := ""))
  }

  /** Opening lists every command, with the first one selected. */
  lemma OpenListsAll(p: Palette)
    ensures Open(p).filtered == Commands && |Open(p).filtered| == 14
    ensures Open(p).selected == 0
  {
  }

  /** `close()`: hide the palette; the list and selection are kept. */
  function Close(p: Palette): (r: Palette)
    ensures !r.visible
    ensures r.input == p.input && r.filtered == p.filtered && r.selected == p.selected
  {
    p.(visible := false)
  }

  function Toggle(p: Palette): (r: Palette)
    ensures r.visible == !p.visible
  {
    if p.visible then Close(p) else Open(p)
  }

  /** Toggling twice leaves the palette hidden again when it was hidden. */
  lemma ToggleTwice(p: Palette)
    requires !p.visible
    ensures !Toggle(Toggle(p)).visible
    ensures Toggle(Toggle(p)).filtered == Commands && Toggle(Toggle(p)).input == ""
  {
  }

  /** `moveSelection(direction)`: step, then clamp into the list. An empty
      list leaves the position at -1. */
  function MoveSelection(p: Palette, direction: int): (r: Palette)
    ensures |p.filtered| > 0 ==> 0 <= r.selected < |p.filtered|
    ensures |p.filtered| == 0 ==> r.selected == -1
    ensures r.visible == p.visible && r.input == p.input && r.filtered == p.filtered
  {
    var i := p.selected + direction;
    var i := if i < 0 then 0 else i;
    var i := if i >= |p.filtered| then |p.filtered| - 1 else i;
    p.(selected := i)
  }

  /** Within the list, a move lands exactly one step away; at either end it
      stays put. */
  lemma MoveSteps(p: Palette)
    requires 0 <= p.selected < |p.filtered|
    ensures MoveSelection(p, 1).selected == if p.selected + 1 < |p.filtered| then p.selected + 1 else p.selected
    ensures MoveSelection(p, -1).selected == if p.selected > 0 then p.selected - 1 else 0
  {
  }

  /** Moving down and back up returns to the same command unless the
      selection was already on the last one. */
  lemma DownThenUp(p: Palette)
    requires 0 <= p.selected < |p.filtered| - 1
    ensures MoveSelection(MoveSelection(p, 1), -1) == p
  {
  }

  /** `executeSelected()`: when the position names a listed command, close
      the palette and run that command's action; otherwise do nothing. */
  function ExecuteSelected(p: Palette): (r: (Palette, Option<Action>))
    ensures r.1.Some? <==> 0 <= p.selected < |p.filtered|
    ensures r.1.Some? ==> r.0 == Close(p) && r.1.value == p.filtered[p.selected].action
    ensures r.1.None? ==> r.0 == p
  {
    if 0 <= p.selected < |p.filtered| then (Close(p), Some(p.filtered[p.selected].action))
    else (p, None)
  }

  /** After any filter, Enter runs the first listed command if there is one,
      and nothing when the query matched no command. */
  lemma ExecuteAfterFilter(p: Palette)
    ensures var q := FilterCommands(p);
      (ExecuteSelected(q).1.Some? <==> |q.filtered| > 0) &&
      (|q.filtered| > 0 ==> ExecuteSelected(q).1.value == q.filtered[0].action)
  {
  }

  /** A keyboard event of the document-level handler. */
  datatype KeyEvent = KeyEvent(key: string, ctrlOrMeta: bool)

  /** The `keydown` listener: Ctrl/Meta+P toggles; then, if the palette is
      shown, Escape closes, the arrows move and Enter executes. The second
      component is the action run, if any. */
  function OnKeyDown(p: Palette, e: KeyEvent): (r: (Palette, Option<Action>))
    ensures !p.visible && !(e.ctrlOrMeta && e.key == "p") ==> r == (p, None)
    ensures r.1.Some? ==> e.key == "Enter"
    ensures !p.visible && e.ctrlOrMeta && e.key == "p" ==> r.0 == Open(p) && r.1.None?
    ensures p.visible && e.key == "Escape" ==> !r.0.visible && r.1.None?
    ensures p.visible && e.key == "Enter" ==>
      && (r.1.Some? <==> 0 <= p.selected < |p.filtered|)
      && (r.1.Some? ==> r.1.value == p.filtered[p.selected].action && !r.0.visible)
  {
    var p := if e.ctrlOrMeta && e.key == "p" then Toggle(p) else p;
    if !p.visible then (p, None) else OnShownKey(p, e.key)
  }

  /** The part of the listener that runs while the palette is shown. */
  function OnShownKey(p: Palette, key: string): (r: (Palette, Option<Action>))
    ensures r.1.Some? ==> key == "Enter"
    ensures key == "Escape" ==> r == (Close(p), None)
    ensures key == "Enter" ==> r == ExecuteSelected(p)
    ensures key == "p" ==> r == (p, None)
  {
    if key == "Escape" then (Close(p), None)
    else if key == "ArrowDown" then (MoveSelection(p, 1), None)
    else if key == "ArrowUp" then (MoveSelection(p, -1), None)
    else if key == "Enter" then ExecuteSelected(p)
    else (p, None)
  }

  /** The `input` listener: the typed text replaces the input and the list
      is filtered again. */
  function OnInput(p: Palette, text: string): (r: Palette)
    ensures r.input == text && r.selected == 0
  {
    FilterCommands(p.(input := text))
  }

  /** Ctrl+P, Enter on a hidden palette runs the first command, Go Home,
      and hides the palette again. */
  lemma CtrlPThenEnter(p: Palette)
    requires !p.visible
    ensures var q := OnKeyDown(p, KeyEvent("p", true)).0;
      q.visible && OnKeyDown(q, KeyEvent("Enter", false)) == (Close(q), Some(GoHome))
  {
    var q := OnKeyDown(p, KeyEvent("p", true)).0;
    assert q == Open(p);
    OpenListsAll(p);
    assert Commands[0].action == GoHome;
    assert ExecuteSelected(q) == (Close(q), Some(GoHome));
    assert OnKeyDown(q, KeyEvent("Enter", false)) == OnShownKey(q, "Enter");
  }

  /** Ctrl+P on a shown palette hides it and runs nothing. */
  lemma CtrlPCloses(p: Palette)
    requires p.visible
    ensures OnKeyDown(p, KeyEvent("p", true)) == (Close(p), None)
  {
  }

  /** Keyboard use keeps the selection inside a non-empty list: starting
      from any filtered state, arrow keys never leave it. */
  lemma ArrowsStayInList(p: Palette, e: KeyEvent)
    requires p.visible && !(e.ctrlOrMeta && e.key == "p")
    requires e.key == "ArrowDown" || e.key == "ArrowUp"
    requires |p.filtered| > 0
    ensures 0 <= OnKeyDown(p, e).0.selected < |p.filtered|
    ensures OnKeyDown(p, e).0.filtered == p.filtered
  {
  }
}

=== FILE: folderstats.dfy ===
/** Folder measurement in main.js: `get-folder-stats`, which counts files
    and folders and sums file sizes down to depth 10, and `get-folder-size`
    (`getFolderSizeRecursive`), which sums file sizes at every depth. */
module FolderStats {
  import opened Wrappers
  import opened FsTree

  /** Directories deeper than this are counted but not listed. */
  const MaxStatsDepth: nat := 10

  datatype Stats = Stats(totalSize: nat, fileCount: nat, folderCount: nat)
  {
    function Plus(other: Stats): Stats {
      Stats(totalSize + other.totalSize, fileCount + other.fileCount, folderCount + other.folderCount)
    }
  }

  const Zero: Stats := Stats(0, 0, 0)

  // ----- get-folder-stats -----

  /** `calculateStats(path, depth)` for the node at that path. */
  function DirStats(n: Node, depth: nat): Stats
    decreases Size(n), 1
  {
    if depth > MaxStatsDepth || !Listable(n) then Zero
    else ChildStats(n.children, depth)
  }

  function ChildStats(cs: seq<Node>, depth: nat): Stats
    decreases SizeSeq(cs), 3
  {
    if cs == [] then Zero else EntryStats(cs[0], depth).Plus(ChildStats(cs[1..], depth))
  }

  /** One listing entry: skipped when its stat fails; a directory counts as
      one folder (even when too deep to be listed) plus what is below it. */
  function EntryStats(c: Node, depth: nat): Stats
    decreases Size(c), 2
  {
    if !c.statOk then Zero
    else if c.Dir? then Stats(0, 0, 1).Plus(DirStats(c, depth + 1))
    else Stats(c.size, 1, 0)
  }

  /** The handler; a path that does not exist yields all zeros. */
  function GetFolderStats(root: Option<Node>): Stats {
    if root.Some? then DirStats(root.value, 0) else Zero
  }

  // ----- get-folder-size -----

  /** `getFolderSizeRecursive`: every file whose stat succeeds, at any
      depth; directories are descended into without a stat. */
  function FolderSize(n: Node): nat
    decreases Size(n), 1
  {
    if !Listable(n) then 0 else ChildSize(n.children)
  }

  function ChildSize(cs: seq<Node>): nat
    decreases SizeSeq(cs), 3
  {
    if cs == [] then 0 else EntrySize(cs[0]) + ChildSize(cs[1..])
  }

  function EntrySize(c: Node): nat
    decreases Size(c), 2
  {
    if c.Dir? then FolderSize(c) else if c.statOk then c.size else 0
  }

  function GetFolderSize(root: Option<Node>): nat {
    if root.Some? then FolderSize(root.value) else 0
  }

  // ----- the two measurements compared -----

  /** The number of directory levels a node spans: 0 for a file. */
  function Height(n: Node): nat
    decreases Size(n), 1
  {
    if n.File? then 0 else 1 + MaxHeight(n.children)
  }

  function MaxHeight(cs: seq<Node>): nat
    decreases SizeSeq(cs), 2
  {
    if cs == [] then 0
    else
      var h := Height(cs[0]);
      var rest := MaxHeight(cs[1..]);
      if h < rest then rest else h
  }

  /** Every node below can be statted and every directory listed. */
  predicate Healthy(n: Node)
    decreases Size(n), 1
  {
    n.statOk && (n.Dir? ==> n.listOk && AllHealthy(n.children))
  }

  predicate AllHealthy(cs: seq<Node>)
    decreases SizeSeq(cs), 2
  {
    cs == [] || (Healthy(cs[0]) && AllHealthy(cs[1..]))
  }

  /** The stats never report more bytes than the folder size. */
  lemma {:induction false} StatsBelowSize(n: Node, depth: nat)
    ensures DirStats(n, depth).totalSize <= FolderSize(n)
    decreases Size(n), 1
  {
    if !(depth > MaxStatsDepth || !Listable(n)) {
      ChildStatsBelowSize(n.children, depth);
    }
  }

  lemma {:induction false} ChildStatsBelowSize(cs: seq<Node>, depth: nat)
    ensures ChildStats(cs, depth).totalSize <= ChildSize(cs)
    decreases SizeSeq(cs), 3
  {
    if cs != [] {
      EntryStatsBelowSize(cs[0], depth);
      ChildStatsBelowSize(cs[1..], depth);
    }
  }

  lemma {:induction false} EntryStatsBelowSize(c: Node, depth: nat)
    ensures EntryStats(c, depth).totalSize <= EntrySize(c)
    decreases Size(c), 2
  {
    if c.statOk && c.Dir? {
      StatsBelowSize(c, depth + 1);
    }
  }

  /** One level of every measure of a listable directory within depth. */
  lemma UnfoldDir(n: Node, depth: nat)
    requires Listable(n) && depth + Height(n) <= MaxStatsDepth + 1
    ensures DirStats(n, depth) == ChildStats(n.children, depth)
    ensures FolderSize(n) == ChildSize(n.children)
    ensures Size(n) == 1 + SizeSeq(n.children)
    ensures depth + 1 + MaxHeight(n.children) <= MaxStatsDepth + 1
  {
  }

  /** On a healthy tree shallow enough for the depth limit, the stats sum
      exactly the folder size. */
  lemma {:induction false} StatsExact(n: Node, depth: nat)
    requires Listable(n) && AllHealthy(n.children)
    requires depth + Height(n) <= MaxStatsDepth + 1
    ensures DirStats(n, depth).totalSize == FolderSize(n)
    decreases Size(n), 1
  {
    UnfoldDir(n, depth);
    ChildStatsExact(n.children, depth);
  }

  lemma {:induction false} ChildStatsExact(cs: seq<Node>, depth: nat)
    requires AllHealthy(cs)
    requires depth + 1 + MaxHeight(cs) <= MaxStatsDepth + 1
    ensures ChildStats(cs, depth).totalSize == ChildSize(cs)
    decreases SizeSeq(cs), 3
  {
    if cs != [] {
      EntryStatsExact(cs[0], depth);
      ChildStatsExact(cs[1..], depth);
    }
  }

  lemma {:induction false} EntryStatsExact(c: Node, depth: nat)
    requires Healthy(c)
    requires depth + 1 + Height(c) <= MaxStatsDepth + 1
    ensures EntryStats(c, depth).totalSize == EntrySize(c)
    decreases Size(c), 2
  {
    if c.Dir? {
      StatsExact(c, depth + 1);
    } else {
      assert EntryStats(c, depth) == Stats(c.size, 1, 0);
    }
  }

  /** On a healthy tree shallow enough for the depth limit, every node below
      the root is counted, as a file or as a folder. */
  lemma {:induction false} CountExact(n: Node, depth: nat)
    requires Listable(n) && AllHealthy(n.children)
    requires depth + Height(n) <= MaxStatsDepth + 1
    ensures DirStats(n, depth).fileCount + DirStats(n, depth).folderCount + 1 == Size(n)
    decreases Size(n), 1
  {
    UnfoldDir(n, depth);
    ChildCountExact(n.children, depth);
  }

  lemma {:induction false} ChildCountExact(cs: seq<Node>, depth: nat)
    requires AllHealthy(cs)
    requires depth + 1 + MaxHeight(cs) <= MaxStatsDepth + 1
    ensures ChildStats(cs, depth).fileCount + ChildStats(cs, depth).folderCount == SizeSeq(cs)
    decreases SizeSeq(cs), 3
  {
    if cs != [] {
      EntryCountExact(cs[0], depth);
      ChildCountExact(cs[1..], depth);
    }
  }

  lemma {:induction false} EntryCountExact(c: Node, depth: nat)
    requires Healthy(c)
    requires depth + 1 + Height(c) <= MaxStatsDepth + 1
    ensures EntryStats(c, depth).fileCount + EntryStats(c, depth).folderCount == Size(c)
    decreases Size(c), 2
  {
    if c.Dir? {
      CountExact(c, depth + 1);
    }
  }

  /** For the handlers: whatever the tree, stats <= size; on a healthy
      tree of at most eleven directory levels they agree. */
  lemma HandlersAgree(root: Option<Node>)
    ensures GetFolderStats(root).totalSize <= GetFolderSize(root)
    ensures root.Some? && Listable(root.value) && AllHealthy(root.value.children) &&
            Height(root.value) <= MaxStatsDepth + 1 ==>
      GetFolderStats(root).totalSize == GetFolderSize(root) &&
      GetFolderStats(root).fileCount + GetFolderStats(root).folderCount + 1 == Size(root.value)
  {
    if root.Some? {
      StatsBelowSize(root.value, 0);
      if Listable(root.value) && AllHealthy(root.value.children) && Height(root.value) <= MaxStatsDepth + 1 {
        StatsExact(root.value, 0);
        CountExact(root.value, 0);
      }
    }
  }
}

=== FILE: fstree.dfy ===
/** The main process's view of the disk: an immutable directory tree, the
    entry records the IPC handlers return, Node's `path.extname`, the
    `getFileType` classifier and the `read-directory` listing rule
    (main.js). A failing `fs.stat`, `fs.readdir` or `fs.readFile` is a flag
    on the node instead of an exception. */
module FsTree {
  import opened Wrappers
  import opened Text
  import opened Tables

  /** One filesystem object. `statOk` says whether `fs.stat` succeeds on it;
      for a directory `listOk` says whether `fs.readdir` succeeds; for a
      file `content` is what `fs.readFile(path, 'utf8')` yields, None when
      the read fails. */
  datatype Node =
    | File(name: string, size: nat, mtime: int, statOk: bool, content: Option<string>)
    | Dir(name: string, size: nat, mtime: int, statOk: bool, listOk: bool, children: seq<Node>)

  /** `fs.readdir` succeeds on the node. */
  predicate Listable(n: Node) {
    n.Dir? && n.listOk
  }

  /** Number of nodes in a tree; the termination measure of every walk. */
  function Size(n: Node): nat {
    match n
    case File(_, _, _, _, _) => 1
    case Dir(_, _, _, _, _, cs) => 1 + SizeSeq(cs)
  }

  function SizeSeq(cs: seq<Node>): nat {
    if cs == [] then 0 else Size(cs[0]) + SizeSeq(cs[1..])
  }

  lemma {:induction false} SizeSeqConcat(a: seq<Node>, b: seq<Node>)
    ensures SizeSeq(a + b) == SizeSeq(a) + SizeSeq(b)
    decreases |a|
  {
    if a != [] {
      assert (a + b)[1..] == a[1..] + b;
      SizeSeqConcat(a[1..], b);
    } else {
      assert a + b == b;
    }
  }

  /** The record an IPC handler returns for one directory entry. */
  datatype Entry = Entry(
    name: string,
    path: string,
    isDirectory: bool,
    size: nat,
    modified: int,
    extension: Option<string>)

  /** The Windows path separator. */
  const Sep: char := '\\'

  /** `path.join(dir, name)` for a plain entry name. */
  function JoinPath(dir: string, name: string): string {
    if dir == "" then name
    else if dir[|dir| - 1] == Sep then dir + name
    else dir + [Sep] + name
  }

  /** `path.extname(name)`: the text from the last dot to the end, or "" when
      there is no dot, the only dot leads the name, or the name is "..". */
  function ExtName(name: string): (ext: string)
    ensures '.' !in name ==> ext == ""
    ensures |name| > 0 && name[0] == '.' && '.' !in name[1..] ==> ext == ""
    ensures ext != "" ==> ext[0] == '.' && '.' !in ext[1..] && EndsWith(name, ext) && |ext| < |name|
  {
    var d := LastIndexOf(name, '.');
    if d <= 0 || name == ".." then "" else name[d..]
  }

  // ----- getFileType (main.js) -----

  const ImageExts: seq<string> := [".jpg", ".jpeg", ".png", ".gif", ".bmp", ".svg", ".webp", ".ico"]
  const VideoExts: seq<string> := [".mp4", ".avi", ".mkv", ".mov", ".wmv", ".flv", ".webm"]
  const AudioExts: seq<string> := [".mp3", ".wav", ".flac", ".aac", ".ogg", ".wma", ".m4a"]
  const CodeExts: seq<string> := [".js", ".ts", ".py", ".java", ".cpp", ".c", ".cs", ".html", ".css", ".json", ".xml"]
  const ArchiveExts: seq<string> := [".zip", ".rar", ".7z", ".tar", ".gz", ".bz2"]
  const DocExts: seq<string> := [".txt", ".doc", ".docx", ".pdf", ".rtf", ".odt"]

  /** The classification order of `getFileType`, as a table. */
  const TypeTable: ClassTable := [
    ("image", ImageExts), ("video", VideoExts), ("audio", AudioExts),
    ("code", CodeExts), ("archive", ArchiveExts), ("document", DocExts)]

  /** `getFileType(isDirectory, extension)`; `ext` is the lower-cased
      extension with its dot, "" where the program passes null. */
  function GetFileType(isDirectory: bool, ext: string): (t: string)
    ensures t == "folder" <==> isDirectory
  {
    if isDirectory then "folder"
    else if ext in ImageExts then "image"
    else if ext in VideoExts then "video"
    else if ext in AudioExts then "audio"
    else if ext in CodeExts then "code"
    else if ext in ArchiveExts then "archive"
    else if ext in DocExts then "document"
    else "file"
  }

  /** A file is classified by the first table row listing its extension, and
      is a plain "file" when no row does. */
  lemma GetFileTypeIsFirstHit(ext: string)
    ensures GetFileType(false, ext) == FirstHit(TypeTable, ext, "file")
  {
    var t := TypeTable;
    assert t[0] == ("image", ImageExts) && t[1] == ("video", VideoExts) && t[2] == ("audio", AudioExts);
    assert t[3] == ("code", CodeExts) && t[4] == ("archive", ArchiveExts) && t[5] == ("document", DocExts);
    if ext in ImageExts {
      FirstHitAt(t, ext, "file", 0);
    } else if ext in VideoExts {
      FirstHitAt(t, ext, "file", 1);
    } else if ext in AudioExts {
      FirstHitAt(t, ext, "file", 2);
    } else if ext in CodeExts {
      FirstHitAt(t, ext, "file", 3);
    } else if ext in ArchiveExts {
      FirstHitAt(t, ext, "file", 4);
    } else if ext in DocExts {
      FirstHitAt(t, ext, "file", 5);
    }
  }

  // ----- read-directory (main.js) -----

  /** The record `read-directory` builds for a child whose stat succeeded:
      extension null for a directory, lower-cased `extname` for a file. */
  function ListingEntry(dirPath: string, c: Node): Entry {
    Entry(c.name, JoinPath(dirPath, c.name), c.Dir?, c.size, c.mtime,
          if c.Dir? then None else Some(Lower(ExtName(c.name))))
  }

  /** Number of children whose `fs.stat` fails. */
  function Unreadable(cs: seq<Node>): nat {
    if cs == [] then 0 else (if cs[0].statOk then 0 else 1) + Unreadable(cs[1..])
  }

  function ListEntries(dirPath: string, cs: seq<Node>): (r: seq<Entry>)
    ensures |r| + Unreadable(cs) == |cs|
    ensures forall i :: 0 <= i < |r| ==> (r[i].isDirectory <==> r[i].extension.None?)
    ensures forall i :: 0 <= i < |r| ==> r[i].path == JoinPath(dirPath, r[i].name)
    decreases |cs|
  {
    if cs == [] then []
    else (if cs[0].statOk then [ListingEntry(dirPath, cs[0])] else []) + ListEntries(dirPath, cs[1..])
  }

  /** Every child whose stat succeeds is listed, and every listed record is
      built from such a child. */
  lemma ListEntriesMembers(dirPath: string, cs: seq<Node>)
    ensures forall i :: 0 <= i < |cs| && cs[i].statOk ==> ListingEntry(dirPath, cs[i]) in ListEntries(dirPath, cs)
    ensures forall e :: e in ListEntries(dirPath, cs) ==>
      exists j :: 0 <= j < |cs| && cs[j].statOk && e == ListingEntry(dirPath, cs[j])
  {
    forall i | 0 <= i < |cs| && cs[i].statOk
      ensures ListingEntry(dirPath, cs[i]) in ListEntries(dirPath, cs)
    {
      ListEntriesHas(dirPath, cs, i);
    }
    forall e | e in ListEntries(dirPath, cs)
      ensures exists j :: 0 <= j < |cs| && cs[j].statOk && e == ListingEntry(dirPath, cs[j])
    {
      ListEntriesFrom(dirPath, cs, e);
    }
  }

  lemma {:induction false} ListEntriesHas(dirPath: string, cs: seq<Node>, i: nat)
    requires i < |cs| && cs[i].statOk
    ensures ListingEntry(dirPath, cs[i]) in ListEntries(dirPath, cs)
    decreases i
  {
    var rest := ListEntries(dirPath, cs[1..]);
    var head := if cs[0].statOk then [ListingEntry(dirPath, cs[0])] else [];
    assert ListEntries(dirPath, cs) == head + rest;
    if i > 0 {
      assert cs[i] == cs[1..][i - 1];
      ListEntriesHas(dirPath, cs[1..], i - 1);
    }
  }

  lemma {:induction false} ListEntriesFrom(dirPath: string, cs: seq<Node>, e: Entry)
    requires e in ListEntries(dirPath, cs)
    ensures exists j :: 0 <= j < |cs| && cs[j].statOk && e == ListingEntry(dirPath, cs[j])
    decreases |cs|
  {
    var rest := ListEntries(dirPath, cs[1..]);
    var head := if cs[0].statOk then [ListingEntry(dirPath, cs[0])] else [];
    assert ListEntries(dirPath, cs) == head + rest;
    if e in head {
      assert cs[0].statOk && e == ListingEntry(dirPath, cs[0]);
    } else {
      ListEntriesFrom(dirPath, cs[1..], e);
      var j :| 0 <= j < |cs[1..]| && cs[1..][j].statOk && e == ListingEntry(dirPath, cs[1..][j]);
      assert cs[j + 1] == cs[1..][j];
    }
  }

  /** `read-directory`: `target` is what exists at `dirPath` (None when
      `fs.access` fails). A missing path, a file, or an unreadable directory
      lists as []; otherwise every child whose stat succeeds is listed, in
      order, and the others are dropped. */
  function ReadDirectory(dirPath: string, target: Option<Node>): (r: seq<Entry>)
    ensures !(target.Some? && Listable(target.value)) ==> r == []
    ensures target.Some? && Listable(target.value) ==>
      |r| + Unreadable(target.value.children) == |target.value.children|
    ensures forall i :: 0 <= i < |r| ==> (r[i].isDirectory <==> r[i].extension.None?)
    ensures forall i :: 0 <= i < |r| ==> r[i].path == JoinPath(dirPath, r[i].name)
  {
    if target.Some? && Listable(target.value) then ListEntries(dirPath, target.value.children)
    else []
  }
}

=== FILE: listview.dfy ===
/** The renderer's file list (app.js): its icon and filter tables (which
    deliberately differ from the main process's `getFileType`), the
    directories-first sort, the type filter, keyboard focus movement,
    range selection and the column-sort toggle. */
module ListView {
  import opened Wrappers
  import opened Text
  import opened Seqs
  import opened FsTree

  // ----- getFileIcon -----

  /** `FILE_ICONS`: the icon of each class. */
  function FileIcon(kind: string): string {
    if kind == "folder" then "📁"
    else if kind == "document" then "📄"
    else if kind == "image" then "🖼️"
    else if kind == "video" then "🎬"
    else if kind == "audio" then "🎵"
    else if kind == "code" then "💻"
    else if kind == "archive" then "📦"
    else "📃"
  }

  const IconImageExts: seq<string> := [".jpg", ".jpeg", ".png", ".gif", ".bmp", ".svg", ".webp"]
  const IconVideoExts: seq<string> := [".mp4", ".avi", ".mkv", ".mov", ".wmv", ".flv"]
  const IconAudioExts: seq<string> := [".mp3", ".wav", ".flac", ".aac", ".ogg", ".wma"]
  const IconCodeExts: seq<string> := [".js", ".ts", ".py", ".java", ".cpp", ".c", ".cs", ".html", ".css"]
  const IconArchiveExts: seq<string> := [".zip", ".rar", ".7z", ".tar", ".gz"]
  const IconDocExts: seq<string> := [".txt", ".doc", ".docx", ".pdf", ".rtf"]

  /** The icon class `getFileIcon` picks for a file extension. */
  function IconKind(ext: Option<string>): string {
    var e := ext.GetOr("");
    if e in IconImageExts then "image"
    else if e in IconVideoExts then "video"
    else if e in IconAudioExts then "audio"
    else if e in IconCodeExts then "code"
    else if e in IconArchiveExts then "archive"
    else if e in IconDocExts then "document"
    else "file"
  }

  /** `getFileIcon(item)`. */
  function GetFileIcon(item: Entry): (icon: string)
    ensures item.isDirectory ==> icon == "📁"
    ensures !item.isDirectory && item.extension.None? ==> icon == "📃"
  {
    FileIcon(if item.isDirectory then "folder" else IconKind(item.extension))
  }

  /** The extensions the icon tables lack compared with `getFileType`. */
  const IconTableGaps: set<string> := {".ico", ".webm", ".m4a", ".json", ".xml", ".bz2", ".odt"}

  /** Outside those gaps, the icon class of a file is its main-process type. */
  lemma IconKindAgreesWithFileType(ext: string)
    requires ext !in IconTableGaps
    ensures IconKind(Some(ext)) == GetFileType(false, ext)
  {
  }

  /** A JSON file is `code` to the main process but gets the plain file icon. */
  lemma JsonIconDiffers()
    ensures GetFileType(false, ".json") == "code"
    ensures GetFileIcon(Entry("a.json", "a.json", false, 0, 0, Some(".json"))) == "📃"
  {
    assert ".json" in CodeExts;
    assert ".json" !in IconImageExts && ".json" !in IconVideoExts && ".json" !in IconAudioExts;
    assert ".json" !in IconCodeExts && ".json" !in IconArchiveExts && ".json" !in IconDocExts;
  }

  // ----- sortItems -----

  /** `localeCompare`, modelled as code-point lexicographic order. */
  function LexCompare(a: string, b: string): (c: int)
    ensures -1 <= c <= 1
    ensures c == 0 <==> a == b
    decreases |a|
  {
    if a == [] && b == [] then 0
    else if a == [] then -1
    else if b == [] then 1
    else if a[0] < b[0] then -1
    else if a[0] > b[0] then 1
    else
      var c := LexCompare(a[1..], b[1..]);
      assert c == 0 ==> a == [a[0]] + a[1..] && b == [b[0]] + b[1..];
      c
  }

  lemma {:induction false} LexAntisymmetric(a: string, b: string)
    ensures LexCompare(a, b) == -LexCompare(b, a)
    decreases |a|
  {
    if a != [] && b != [] && a[0] == b[0] {
      LexAntisymmetric(a[1..], b[1..]);
    }
  }

  /** The comparator of `sortItems`: directories before files, then by the
      sort column; an unknown column compares everything equal. */
  function Compare(sortBy: string, a: Entry, b: Entry): int {
    if a.isDirectory && !b.isDirectory then -1
    else if !a.isDirectory && b.isDirectory then 1
    else if sortBy == "name" then LexCompare(a.name, b.name)
    else if sortBy == "date" then b.modified - a.modified
    else if sortBy == "size" then b.size - a.size
    else if sortBy == "type" then LexCompare(a.extension.GetOr(""), b.extension.GetOr(""))
    else 0
  }

  /** The comparator is consistent: swapping the arguments flips the sign. */
  lemma CompareAntisymmetric(sortBy: string, a: Entry, b: Entry)
    ensures Compare(sortBy, a, b) == -Compare(sortBy, b, a)
  {
    LexAntisymmetric(a.name, b.name);
    LexAntisymmetric(a.extension.GetOr(""), b.extension.GetOr(""));
  }

  lemma {:induction false} LexTransitive(a: string, b: string, c: string)
    requires LexCompare(a, b) <= 0 && LexCompare(b, c) <= 0
    ensures LexCompare(a, c) <= 0
    decreases |a|
  {
    if a != [] && b != [] && c != [] && a[0] == b[0] && b[0] == c[0] {
      LexTransitive(a[1..], b[1..], c[1..]);
    }
  }

  /** The comparator's "not after" relation is transitive. */
  lemma CompareTransitive(sortBy: string, a: Entry, b: Entry, c: Entry)
    requires Compare(sortBy, a, b) <= 0 && Compare(sortBy, b, c) <= 0
    ensures Compare(sortBy, a, c) <= 0
  {
    if a.isDirectory == b.isDirectory && b.isDirectory == c.isDirectory {
      if sortBy == "name" {
        LexTransitive(a.name, b.name, c.name);
      } else if sortBy == "type" {
        LexTransitive(a.extension.GetOr(""), b.extension.GetOr(""), c.extension.GetOr(""));
      }
    }
  }

  /** Inserting after every element that does not compare greater keeps the
      sort stable. */
  function Insert(sortBy: string, x: Entry, s: seq<Entry>): (r: seq<Entry>)
    ensures multiset(r) == multiset(s) + multiset{x}
    decreases |s|
  {
    if s == [] then [x]
    else if Compare(sortBy, x, s[0]) < 0 then [x] + s
    else
      var rest := Insert(sortBy, x, s[1..]);
      assert s == [s[0]] + s[1..];
      [s[0]] + rest
  }

  /** `sortItems(items)`: a stable sort under the comparator. */
  function SortItems(sortBy: string, items: seq<Entry>): (r: seq<Entry>)
    ensures multiset(r) == multiset(items)
    decreases |items|
  {
    if items == [] then []
    else
      var init := items[..|items| - 1];
      assert items == init + [items[|items| - 1]];
      Insert(sortBy, items[|items| - 1], SortItems(sortBy, init))
  }

  /** Neighbours are in comparator order. */
  predicate Sorted(sortBy: string, s: seq<Entry>) {
    forall i :: 0 <= i < |s| - 1 ==> Compare(sortBy, s[i], s[i + 1]) <= 0
  }

  lemma {:induction false} InsertSorted(sortBy: string, x: Entry, s: seq<Entry>)
    requires Sorted(sortBy, s)
    ensures Sorted(sortBy, Insert(sortBy, x, s))
    ensures |Insert(sortBy, x, s)| == |s| + 1
    ensures s != [] ==> Insert(sortBy, x, s)[0] == (if Compare(sortBy, x, s[0]) < 0 then x else s[0])
    decreases |s|
  {
    if s != [] && Compare(sortBy, x, s[0]) >= 0 {
      InsertSorted(sortBy, x, s[1..]);
      CompareAntisymmetric(sortBy, x, s[0]);
      var rest := Insert(sortBy, x, s[1..]);
      assert Insert(sortBy, x, s) == [s[0]] + rest;
      if s[1..] != [] { assert s[1..][0] == s[1]; }
    }
  }

  lemma {:induction false} SortItemsSorted(sortBy: string, items: seq<Entry>)
    ensures Sorted(sortBy, SortItems(sortBy, items))
    decreases |items|
  {
    if items != [] {
      var init := items[..|items| - 1];
      SortItemsSorted(sortBy, init);
      InsertSorted(sortBy, items[|items| - 1], SortItems(sortBy, init));
    }
  }

  /** Every directory comes before every file. */
  predicate DirectoriesFirst(s: seq<Entry>) {
    forall i, j :: 0 <= i < j < |s| && s[j].isDirectory ==> s[i].isDirectory
  }

  lemma {:induction false} SortedDirectoriesFirst(sortBy: string, s: seq<Entry>)
    requires Sorted(sortBy, s)
    ensures DirectoriesFirst(s)
    decreases |s|
  {
    if |s| > 1 {
      SortedDirectoriesFirst(sortBy, s[1..]);
      forall i, j | 0 <= i < j < |s| && s[j].isDirectory ensures s[i].isDirectory {
        if i == 0 {
          assert s[1].isDirectory by {
            if j > 1 { assert s[1..][0] == s[1] && s[1..][j - 1] == s[j]; }
          }
          assert Compare(sortBy, s[0], s[1]) <= 0;
        } else {
          assert s[1..][i - 1] == s[i] && s[1..][j - 1] == s[j];
        }
      }
    }
  }

  /** `sortItems` returns a permutation of its input in comparator order, with
      the directories first. */
  lemma SortItemsCorrect(sortBy: string, items: seq<Entry>)
    ensures multiset(SortItems(sortBy, items)) == multiset(items)
    ensures Sorted(sortBy, SortItems(sortBy, items))
    ensures DirectoriesFirst(SortItems(sortBy, items))
  {
    SortItemsSorted(sortBy, items);
    SortedDirectoriesFirst(sortBy, SortItems(sortBy, items));
  }

  // ----- filterItems -----

  /** The extension lists of `filterItems` by filter type; None for a type
      it does not filter by extension. */
  function FilterExts(filterType: string): Option<seq<string>> {
    if filterType == "document" then Some([".txt", ".doc", ".docx", ".pdf", ".rtf", ".odt"])
    else if filterType == "image" then Some([".jpg", ".jpeg", ".png", ".gif", ".bmp", ".svg", ".webp"])
    else if filterType == "video" then Some([".mp4", ".avi", ".mkv", ".mov", ".wmv", ".flv", ".webm"])
    else if filterType == "audio" then Some([".mp3", ".wav", ".flac", ".aac", ".ogg", ".wma", ".m4a"])
    else if filterType == "code" then Some([".js", ".ts", ".py", ".java", ".cpp", ".c", ".cs", ".html", ".css", ".json"])
    else if filterType == "archive" then Some([".zip", ".rar", ".7z", ".tar", ".gz", ".bz2"])
    else None
  }

  /** The per-item test; an item without extension fails every list. */
  predicate Keeps(filterType: string, item: Entry) {
    if filterType == "folder" then item.isDirectory
    else match FilterExts(filterType)
      case None => true
      case Some(exts) => item.extension.Some? && item.extension.value in exts
  }

  /** `filterItems(items)`. */
  function FilterItems(filterType: string, items: seq<Entry>): (r: seq<Entry>)
    ensures filterType == "all" ==> r == items
    ensures multiset(r) <= multiset(items)
    ensures forall i :: 0 <= i < |r| ==> Keeps(filterType, r[i])
  {
    if filterType == "all" then items
    else Filter(items, (item: Entry) => Keeps(filterType, item))
  }

  /** `filterItems` returns its input for 'all' and for types it does not
      know. */
  lemma FilterItemsKeepsAll(filterType: string, items: seq<Entry>)
    requires filterType != "folder" && FilterExts(filterType).None?
    ensures FilterItems(filterType, items) == items
  {
    if filterType != "all" {
      FilterKeepsAll(items, (item: Entry) => Keeps(filterType, item));
    }
  }

  /** `filterItems` keeps exactly the items passing the test, in their
      original order. */
  lemma FilterItemsExact(filterType: string, items: seq<Entry>)
    ensures IsSubsequence(FilterItems(filterType, items), items)
    ensures forall i :: 0 <= i < |items| ==>
      (items[i] in FilterItems(filterType, items) <==> Keeps(filterType, items[i]))
  {
    var p := (item: Entry) => Keeps(filterType, item);
    if filterType == "all" {
      forall i | 0 <= i < |items| ensures p(items[i]) {
        KeepsAll(items[i]);
      }
      FilterKeepsAll(items, p);
    } else {
      FilterMembersIff(items, p);
    }
    FilterIsSubsequence(items, p);
  }

  lemma KeepsAll(item: Entry)
    ensures Keeps("all", item)
  {
    assert FilterExts("all").None?;
  }

  /** For 'folder', exactly the directories are kept. */
  lemma FilterFolders(items: seq<Entry>)
    ensures forall i :: 0 <= i < |items| ==>
      (items[i] in FilterItems("folder", items) <==> items[i].isDirectory)
  {
    FilterItemsExact("folder", items);
  }

  // ----- keyboard focus -----

  datatype Key = ArrowUp | ArrowDown | ArrowLeft | ArrowRight | Home | End | PageUp | PageDown | OtherKey

  function Max(a: int, b: int): int { if a < b then b else a }
  function Min(a: int, b: int): int { if a < b then a else b }

  /** `handleArrowKeys`: the index passed to `focusItem`, or None when the
      key is ignored or the index would not change. Left and right move
      only in the grid view. */
  function ArrowTarget(key: Key, grid: bool, len: nat, focused: int): (r: Option<int>)
    ensures r.Some? ==> r.value != focused
    ensures len > 0 && -1 <= focused < len && r.Some? ==> 0 <= r.value < len
    ensures len == 0 ==> r.None?
    ensures len > 0 && key == Home && focused != 0 ==> r == Some(0)
    ensures len > 0 && key == End && focused != len - 1 ==> r == Some(len - 1)
  {
    if len == 0 then None
    else
      var next :=
        match key
        case ArrowUp => Max(0, focused - 1)
        case ArrowDown => Min(len - 1, focused + 1)
        case ArrowLeft => if grid then Max(0, focused - 1) else focused
        case ArrowRight => if grid then Min(len - 1, focused + 1) else focused
        case Home => 0
        case End => len - 1
        case PageUp => Max(0, focused - 10)
        case PageDown => Min(len - 1, focused + 10)
        case OtherKey => focused;
      if next != focused then Some(next) else None
  }

  /** The page keys move ten places, clamped to the list. */
  lemma PageKeysMoveTen(len: nat, focused: int)
    requires len > 0 && 0 <= focused < len
    ensures focused >= 10 ==> ArrowTarget(PageUp, true, len, focused) == Some(focused - 10)
    ensures 0 < focused < 10 ==> ArrowTarget(PageUp, true, len, focused) == Some(0)
    ensures focused + 10 < len ==> ArrowTarget(PageDown, true, len, focused) == Some(focused + 10)
    ensures focused < len - 1 <= focused + 10 ==> ArrowTarget(PageDown, true, len, focused) == Some(len - 1)
  {
  }

  /** Focus and selection of the list. */
  datatype Focus = Focus(focused: int, lastSelected: int, selection: set<string>)

  predicate FocusValid(f: Focus, len: nat) {
    -1 <= f.focused < len && -1 <= f.lastSelected < len
  }

  /** `selectRange(a, b)`: the paths of the items between the two indices,
      both included, that exist. */
  method SelectRange(items: seq<Entry>, a: int, b: int) returns (sel: set<string>)
    ensures sel == set i | Min(a, b) <= i <= Max(a, b) && 0 <= i < |items| :: items[i].path
  {
    var start := Min(a, b);
    var end := Max(a, b);
    sel := {};
    var i := start;
    while i <= end
      invariant start <= i <= Max(end + 1, start)
      invariant sel == set k | start <= k < i && 0 <= k < |items| :: items[k].path
    {
      if 0 <= i < |items| {
        sel := sel + {items[i].path};
      }
      i := i + 1;
    }
  }

  /** `focusItem(index, extend)`: an index outside the list is ignored; a
      shift-extension selects the range from the anchor, a plain move
      selects only the item and makes it the anchor. */
  method FocusItem(f: Focus, items: seq<Entry>, index: int, extend: bool) returns (r: Focus)
    ensures !(0 <= index < |items|) ==> r == f
    ensures 0 <= index < |items| ==> r.focused == index
    ensures 0 <= index < |items| && !extend ==> r.selection == {items[index].path} && r.lastSelected == index
    ensures FocusValid(f, |items|) && 0 <= index < |items| && extend && f.lastSelected != -1 ==>
      r.lastSelected == f.lastSelected && items[index].path in r.selection && items[f.lastSelected].path in r.selection
    ensures 0 <= index < |items| && extend && f.lastSelected != -1 ==>
      r.selection == set i | Min(f.lastSelected, index) <= i <= Max(f.lastSelected, index) && 0 <= i < |items| :: items[i].path
    ensures 0 <= index < |items| && extend && f.lastSelected == -1 ==>
      r.selection == f.selection && r.lastSelected == -1
    ensures FocusValid(f, |items|) ==> FocusValid(r, |items|)
  {
    if !(0 <= index < |items|) {
      return f;
    }
    if extend && f.lastSelected != -1 {
      var sel := SelectRange(items, f.lastSelected, index);
      assert Min(f.lastSelected, index) <= index <= Max(f.lastSelected, index);
      assert items[index].path in sel;
      if 0 <= f.lastSelected < |items| {
        assert items[f.lastSelected].path in sel;
      }
      r := Focus(index, f.lastSelected, sel);
    } else if !extend {
      r := Focus(index, index, {items[index].path});
    } else {
      r := Focus(index, f.lastSelected, f.selection);
    }
  }

  // ----- handleColumnSort -----

  datatype Direction = Asc | Desc

  datatype SortState = SortState(sortBy: string, direction: Direction)

  /** `handleColumnSort(column)`: the same column flips the direction, a
      new column sorts ascending. The direction is never read by
      `SortItems`. */
  function HandleColumnSort(s: SortState, column: string): (r: SortState)
    ensures r.sortBy == column
    ensures s.sortBy != column ==> r.direction == Asc
    ensures s.sortBy == column ==> r.direction != s.direction
  {
    if s.sortBy == column then SortState(column, if s.direction == Asc then Desc else Asc)
    else SortState(column, Asc)
  }

  /** Clicking the same header twice restores the sort state. */
  lemma ColumnSortTwice(s: SortState)
    ensures HandleColumnSort(HandleColumnSort(s, s.sortBy), s.sortBy) == s
  {
  }
}

=== FILE: navigation.dfy ===
/** Folder navigation of the renderer (app.js): the history list with its
    cursor, back and forward, going up one level, the state of the three
    navigation buttons and the breadcrumb. Whether the directory read an
    operation triggers succeeds is a parameter; the listing itself and all
    rendering are outside this module. */
module Navigation {
  import opened Text
  import opened Seqs
  import opened FsTree

  /** The navigation part of the application state. */
  datatype NavState = NavState(currentPath: string, history: seq<string>, index: int)

  const Init: NavState := NavState("", [], -1)

  /** The cursor is -1 exactly on an empty history and otherwise points into it. */
  predicate Valid(s: NavState) {
    -1 <= s.index < |s.history| && (s.index == -1 <==> s.history == [])
  }

  /** The shown folder is the one the cursor points at. */
  predicate Synced(s: NavState) {
    0 <= s.index < |s.history| && s.currentPath == s.history[s.index]
  }

  /** `navigateTo`: when the read resolves, entries after the cursor are
      dropped, the path is appended and becomes current; when it fails
      nothing changes. */
  function NavigateTo(s: NavState, path: string, readOk: bool): (r: NavState)
    ensures !readOk ==> r == s
    ensures readOk ==> Synced(r) && r.currentPath == path && r.index == |r.history| - 1
    ensures readOk && Valid(s) ==> r.history[..r.index] == s.history[..s.index + 1]
    ensures readOk || Valid(s) ==> Valid(r)
  {
    if !readOk then s
    else
      var kept := if s.index < |s.history| - 1 then SliceTo(s.history, s.index + 1) else s.history;
      var h := kept + [path];
      assert Valid(s) ==> kept == s.history[..s.index + 1];
      NavState(path, h, |h| - 1)
  }

  /** `navigateBack`: the cursor moves even when the load fails; the shown
      folder changes only when it succeeds. */
  function Back(s: NavState, loadOk: bool): (r: NavState)
    requires Valid(s)
    ensures Valid(r) && r.history == s.history
    ensures s.index > 0 ==> r.index == s.index - 1
    ensures s.index > 0 && loadOk ==> Synced(r)
    ensures s.index <= 0 ==> r == s
  {
    if s.index > 0 then
      var i := s.index - 1;
      NavState(if loadOk then s.history[i] else s.currentPath, s.history, i)
    else s
  }

  /** `navigateForward`, symmetric to `Back`. */
  function Forward(s: NavState, loadOk: bool): (r: NavState)
    requires Valid(s)
    ensures Valid(r) && r.history == s.history
    ensures s.index < |s.history| - 1 ==> r.index == s.index + 1
    ensures s.index < |s.history| - 1 && loadOk ==> Synced(r)
    ensures s.index >= |s.history| - 1 ==> r == s
  {
    if s.index < |s.history| - 1 then
      var i := s.index + 1;
      NavState(if loadOk then s.history[i] else s.currentPath, s.history, i)
    else s
  }

  /** `split('\\').slice(0, -1).join('\\')`: everything before the last
      separator, or "" when there is none. */
  function ParentPath(path: string): (p: string)
    ensures Sep in path ==> p == path[..LastIndexOf(path, Sep)]
    ensures Sep !in path ==> p == ""
  {
    ParentIsBeforeLastSep(path);
    Join(SliceTo(Split(path, Sep), -1), Sep)
  }

  lemma ParentIsBeforeLastSep(path: string)
    ensures var p := Join(SliceTo(Split(path, Sep), -1), Sep);
      (Sep in path ==> p == path[..LastIndexOf(path, Sep)]) && (Sep !in path ==> p == "")
  {
    var parts := Split(path, Sep);
    var n := |parts|;
    assert SliceTo(parts, -1) == parts[..n - 1];
    SplitCount(path, Sep);
    if Sep in path {
      ParentJoin(path, parts);
      LastPieceAfterLastSep(path, Sep);
      PrefixOfKnownLength(path, Join(parts[..n - 1], Sep), parts[n - 1], LastIndexOf(path, Sep));
    }
  }

  lemma ParentJoin(path: string, parts: seq<string>)
    requires parts == Split(path, Sep) && |parts| > 1
    ensures path == Join(parts[..|parts| - 1], Sep) + [Sep] + parts[|parts| - 1]
  {
    var n := |parts|;
    JoinSplit(path, Sep);
    assert parts == parts[..n - 1] + [parts[n - 1]];
    JoinSnoc(parts[..n - 1], parts[n - 1], Sep);
  }

  /** A prefix followed by a separator and the text after position `i` is
      the text before position `i`. */
  lemma PrefixOfKnownLength(s: string, p: string, last: string, i: int)
    requires s == p + [Sep] + last && 0 <= i < |s| && last == s[i + 1..]
    ensures p == s[..i]
  {
    assert |p| == i;
    assert s[..i] == (p + [Sep] + last)[..|p|];
  }

  /** `navigateUp`: nothing without a current folder or when the parent
      is the empty string; otherwise `navigateTo(parent)`. */
  function NavigateUp(s: NavState, readOk: bool): (r: NavState)
    ensures s.currentPath == "" || Sep !in s.currentPath ==> r == s
    ensures r != s ==> r.currentPath + [Sep] + s.currentPath[LastIndexOf(s.currentPath, Sep) + 1..] == s.currentPath
    ensures LastIndexOf(s.currentPath, Sep) <= 0 ==> r == s
    ensures LastIndexOf(s.currentPath, Sep) > 0 ==>
      r == NavigateTo(s, s.currentPath[..LastIndexOf(s.currentPath, Sep)], readOk)
  {
    if s.currentPath == "" then s
    else
      var parent := ParentPath(s.currentPath);
      if parent != "" then NavigateTo(s, parent, readOk) else s
  }

  /** The disabled flags of the back, forward and up buttons. */
  datatype Buttons = Buttons(backDisabled: bool, forwardDisabled: bool, upDisabled: bool)

  function NavButtons(s: NavState): Buttons {
    Buttons(s.index <= 0, s.index >= |s.history| - 1,
            s.currentPath == "" || |Split(s.currentPath, Sep)| <= 1)
  }

  /** Each button is enabled exactly when pressing it moves the cursor or
      can change the folder. */
  lemma ButtonsMeanMoves(s: NavState)
    requires Valid(s)
    ensures !NavButtons(s).backDisabled <==> Back(s, true).index != s.index
    ensures !NavButtons(s).forwardDisabled <==> Forward(s, true).index != s.index
    ensures NavButtons(s).upDisabled <==> s.currentPath == "" || Sep !in s.currentPath
    ensures NavButtons(s).upDisabled ==> NavigateUp(s, true) == s
  {
    SplitCount(s.currentPath, Sep);
  }

  /** The up button is enabled but does nothing in a folder whose only
      separator leads the path, such as `\x`. */
  lemma UpEnabledButInert()
    ensures var s := NavState("\\x", ["\\x"], 0);
      !NavButtons(s).upDisabled && NavigateUp(s, true) == s
  {
    var s := NavState("\\x", ["\\x"], 0);
    assert Sep in s.currentPath by { assert s.currentPath[0] == Sep; }
    SplitCount(s.currentPath, Sep);
    LastIndexIsLast(s.currentPath, Sep, 0);
  }

  lemma InitValid()
    ensures Valid(Init) && NavButtons(Init) == Buttons(true, true, true)
  {
  }

  /** After a successful `navigateTo` there is nothing to go forward to. */
  lemma NavigateToEndsHistory(s: NavState, path: string)
    ensures NavButtons(NavigateTo(s, path, true)).forwardDisabled
  {
  }

  /** Back then forward returns to the same state. */
  lemma BackThenForward(s: NavState)
    requires Valid(s) && Synced(s) && s.index > 0
    ensures Forward(Back(s, true), true) == s
  {
  }

  /** Going back after `navigateTo` shows the folder that was shown before. */
  lemma NavigateThenBack(s: NavState, path: string)
    requires Valid(s) && Synced(s)
    ensures var b := Back(NavigateTo(s, path, true), true);
      b.currentPath == s.currentPath && b.index == s.index
  {
    var r := NavigateTo(s, path, true);
    assert r.history[..r.index] == s.history[..s.index + 1];
    assert r.history[s.index] == r.history[..r.index][s.index];
  }

  /** Going up and then back shows the folder the up button was pressed in,
      at the same history position. */
  lemma UpThenBack(s: NavState)
    requires Valid(s) && Synced(s)
    requires LastIndexOf(s.currentPath, Sep) > 0
    ensures var b := Back(NavigateUp(s, true), true);
      b.currentPath == s.currentPath && b.index == s.index
    ensures NavigateUp(s, true).currentPath != ""
  {
    NavigateThenBack(s, s.currentPath[..LastIndexOf(s.currentPath, Sep)]);
  }

  /** Going up lands on a folder whose path is the current one with its last
      piece dropped: pieces, rejoined with the separator. */
  lemma UpDropsLastPiece(s: NavState)
    requires LastIndexOf(s.currentPath, Sep) > 0
    ensures var parts := Split(s.currentPath, Sep);
      NavigateUp(s, true).currentPath == Join(parts[..|parts| - 1], Sep)
  {
    var parts := Split(s.currentPath, Sep);
    ParentIsBeforeLastSep(s.currentPath);
    assert SliceTo(parts, -1) == parts[..|parts| - 1];
  }

  // ----- breadcrumb -----

  /** One breadcrumb segment: its label, the path a click navigates to,
      and whether it is the highlighted last segment. */
  datatype Crumb = Crumb(text: string, target: string, active: bool)

  predicate NonEmpty(p: string) { p != "" }

  /** The non-empty pieces of a path. */
  function Parts(path: string): (parts: seq<string>)
    ensures forall i :: 0 <= i < |parts| ==> parts[i] != "" && Sep !in parts[i]
  {
    var all := Split(path, Sep);
    var r := Filter(all, NonEmpty);
    FilterMembers(all, NonEmpty);
    r
  }

  /** `updateBreadcrumb`: segment i is labelled with the i-th non-empty
      piece and leads to the join of the first i+1 pieces. */
  function Breadcrumb(path: string): (cs: seq<Crumb>)
    ensures |cs| == |Parts(path)|
    ensures forall i :: 0 <= i < |cs| ==> cs[i].text == Parts(path)[i] && (cs[i].active <==> i == |cs| - 1)
  {
    var parts := Parts(path);
    seq(|parts|, i requires 0 <= i < |parts| => Crumb(parts[i], Join(parts[..i + 1], Sep), i == |parts| - 1))
  }

  /** Each segment's target extends the previous one by one separator and
      its own label. */
  lemma CrumbsChain(path: string, i: nat)
    requires 0 < i < |Breadcrumb(path)|
    ensures Breadcrumb(path)[i].target ==
      Breadcrumb(path)[i - 1].target + [Sep] + Breadcrumb(path)[i].text
  {
    var parts := Parts(path);
    assert parts[..i + 1] == parts[..i] + [parts[i]];
    JoinSnoc(parts[..i], parts[i], Sep);
  }

  /** Clicking segment i leads to a folder whose breadcrumb is the first
      i+1 segments. */
  lemma CrumbTargetParts(path: string, i: nat)
    requires i < |Breadcrumb(path)|
    ensures Parts(Breadcrumb(path)[i].target) == Parts(path)[..i + 1]
  {
    var all := Parts(path);
    var parts := all[..i + 1];
    CrumbTarget(path, i);
    forall k | 0 <= k < |parts| ensures parts[k] != "" && Sep !in parts[k] {
      assert parts[k] == all[k];
    }
    PartsOfJoin(parts);
  }

  lemma CrumbTarget(path: string, i: nat)
    requires i < |Breadcrumb(path)|
    ensures Breadcrumb(path)[i].target == Join(Parts(path)[..i + 1], Sep)
  {
  }

  /** Joining non-empty separator-free pieces and splitting again gives
      the pieces back. */
  lemma PartsOfJoin(parts: seq<string>)
    requires |parts| >= 1
    requires forall k :: 0 <= k < |parts| ==> parts[k] != "" && Sep !in parts[k]
    ensures Parts(Join(parts, Sep)) == parts
  {
    SplitJoin(parts, Sep);
    forall k | 0 <= k < |parts| ensures NonEmpty(parts[k]) { }
    FilterKeepsAll(parts, NonEmpty);
  }

  /** A path without empty pieces (no leading, trailing or doubled
      separator) is the target of its own last segment. */
  lemma LastCrumbIsPath(path: string)
    requires forall i :: 0 <= i < |Split(path, Sep)| ==> Split(path, Sep)[i] != ""
    ensures |Breadcrumb(path)| >= 1
    ensures Breadcrumb(path)[|Breadcrumb(path)| - 1].target == path
  {
    PartsOfCleanPath(path);
    LastCrumbTarget(path);
    JoinSplit(path, Sep);
  }

  lemma PartsOfCleanPath(path: string)
    requires forall i :: 0 <= i < |Split(path, Sep)| ==> Split(path, Sep)[i] != ""
    ensures Parts(path) == Split(path, Sep)
  {
    FilterKeepsAll(Split(path, Sep), NonEmpty);
  }

  lemma LastCrumbTarget(path: string)
    requires |Parts(path)| >= 1
    ensures Breadcrumb(path)[|Breadcrumb(path)| - 1].target == Join(Parts(path), Sep)
  {
    var parts := Parts(path);
    CrumbTarget(path, |parts| - 1);
    assert parts[..|parts| - 1 + 1] == parts;
  }
}

=== FILE: quicklook.dfy ===
/** The Quick Look preview (js/QuickLook.js): how a file's extension is
    taken from its name, the preview class of each extension, the icon in
    the title bar, the choice of preview, and the Space/Escape keys. The
    content read for text previews and the dialog state are parameters. */
module QuickLook {
  import opened Wrappers
  import opened Text
  import opened FsTree

  /** `name.split('.').pop().toLowerCase()`: the lower-cased text after the
      last dot, or the whole lower-cased name when there is no dot. */
  function PreviewExt(name: string): (ext: string)
    ensures '.' !in ext
  {
    Lower(LastPiece(name, '.'))
  }

  /** The preview extension is the text after the last dot. */
  lemma PreviewExtIsAfterLastDot(name: string)
    ensures PreviewExt(name) == Lower(name[LastIndexOf(name, '.') + 1..])
  {
    LastPieceIsAfterLastSep(name, '.');
  }

  /** A name without a dot is its own preview extension, lower-cased. */
  lemma PreviewExtNoDot(name: string)
    requires '.' !in name
    ensures PreviewExt(name) == Lower(name)
  {
    PreviewExtIsAfterLastDot(name);
    assert name[0..] == name;
  }

  /** For a name with a dot after its first character, the preview
      extension is Node's `extname` without its dot, both lower-cased. */
  lemma PreviewExtAgreesWithExtName(name: string)
    requires LastIndexOf(name, '.') > 0 && name != ".."
    ensures Lower(ExtName(name)) == "." + PreviewExt(name)
  {
    var d := LastIndexOf(name, '.');
    assert ExtName(name) == name[d..];
    PreviewExtIsAfterLastDot(name);
    LowerAfterDot(name[d..]);
  }

  lemma LowerAfterDot(t: string)
    requires |t| > 0 && t[0] == '.'
    ensures Lower(t) == "." + Lower(t[1..])
  {
  }

  /** The keys of `getFileType`'s object literal, grouped by class. */
  const ImageKeys: seq<string> := ["png", "jpg", "jpeg", "gif", "webp", "svg", "bmp"]
  const VideoKeys: seq<string> := ["mp4", "webm", "mkv", "avi", "mov"]
  const AudioKeys: seq<string> := ["mp3", "wav", "ogg"]
  const TextKeys: seq<string> := ["txt", "md"]
  const CodeKeys: seq<string> := ["json", "js", "css", "html", "xml", "py", "ts"]

  /** `getFileType(ext)`: the class listed for the extension, else "unknown". */
  function PreviewType(ext: string): (t: string)
    ensures t in {"image", "video", "audio", "text", "code", "unknown"}
  {
    if ext in ImageKeys then "image"
    else if ext in VideoKeys then "video"
    else if ext in AudioKeys then "audio"
    else if ext in TextKeys then "text"
    else if ext in CodeKeys then "code"
    else "unknown"
  }

  /** The literal has 24 keys, none listed twice, and an extension is
      "unknown" exactly when it is not one of them. */
  lemma PreviewTypeUnknownIff(ext: string)
    ensures var keys := ImageKeys + VideoKeys + AudioKeys + TextKeys + CodeKeys;
      |keys| == 24 && (PreviewType(ext) == "unknown" <==> ext !in keys)
  {
  }

  /** `getFileIcon`'s object literal for a lower-cased extension, with the
      page icon as the fallback. */
  function IconOf(ext: string): (icon: string)
    ensures icon != "📁"
  {
    if ext == "pdf" then "📕"
    else if ext == "doc" || ext == "docx" then "📘"
    else if ext == "xls" || ext == "xlsx" then "📗"
    else if ext == "ppt" || ext == "pptx" then "📙"
    else if ext == "zip" || ext == "rar" || ext == "7z" then "📦"
    else if ext == "exe" then "💿"
    else if ext == "md" then "📝"
    else if ext == "js" then "📜"
    else if ext == "html" then "🌐"
    else if ext == "css" then "🎨"
    else if ext == "mp3" || ext == "wav" then "🎵"
    else if ext == "mp4" || ext == "mkv" then "🎬"
    else if ext == "jpg" || ext == "png" || ext == "gif" then "🖼️"
    else "📄"
  }

  /** `getFileIcon(filename)`: the page for an empty name, the table's icon
      for a dotted name, and a folder otherwise. */
  function GetFileIcon(filename: string): (icon: string)
    ensures filename == "" ==> icon == "📄"
    ensures filename != "" && '.' !in filename ==> icon == "📁"
    ensures '.' in filename ==> icon == IconOf(PreviewExt(filename))
  {
    if filename == "" then "📄"
    else if '.' in filename then IconOf(PreviewExt(filename))
    else "📁"
  }

  /** The folder icon is shown exactly for non-empty names without a dot. */
  lemma FolderIconIffNoDot(filename: string)
    ensures GetFileIcon(filename) == "📁" <==> filename != "" && '.' !in filename
  {
  }

  /** What the preview pane shows. */
  datatype Preview =
    | FolderNotice(path: string)
    | ImageView(url: string)
    | VideoView(url: string)
    | AudioView(url: string)
    | TextView(content: string)
    | Unavailable(ext: string)
    | PreviewError

  /** `path.replace(/\\/g, '/')`. */
  function Slashes(path: string): (r: string)
    ensures |r| == |path| && Sep !in r
    ensures forall i :: 0 <= i < |path| ==> r[i] == (if path[i] == Sep then '/' else path[i])
  {
    seq(|path|, i requires 0 <= i < |path| => if path[i] == Sep then '/' else path[i])
  }

  /** The `file:///` address of a media preview. */
  function FileUrl(path: string): string {
    "file:///" + Slashes(path)
  }

  /** `renderContent(item)` with the error handler of `open`: `read` is what
      `read-file-content` returns for text and code (None on failure). */
  function RenderContent(item: Entry, read: Option<string>): (p: Preview)
    ensures item.isDirectory <==> p.FolderNotice?
    ensures p.TextView? ==> read == Some(p.content)
    ensures p.PreviewError? ==> read.None?
    ensures p.ImageView? || p.VideoView? || p.AudioView? ==> p.url == FileUrl(item.path)
  {
    if item.isDirectory then FolderNotice(item.path)
    else
      var ext := PreviewExt(item.name);
      var t := PreviewType(ext);
      if t == "image" then ImageView(FileUrl(item.path))
      else if t == "video" then VideoView(FileUrl(item.path))
      else if t == "audio" then AudioView(FileUrl(item.path))
      else if t == "code" || t == "text" then
        (match read case Some(c) => TextView(c) case None => PreviewError)
      else Unavailable(ext)
  }

  /** The file is read only for text and code, and a file whose extension
      the table does not list is never previewed. */
  lemma RenderContentByType(item: Entry, read: Option<string>)
    requires !item.isDirectory
    ensures var t := PreviewType(PreviewExt(item.name));
      (RenderContent(item, read).TextView? || RenderContent(item, read).PreviewError?) <==> t == "text" || t == "code"
    ensures PreviewType(PreviewExt(item.name)) == "unknown" ==>
      RenderContent(item, read) == Unavailable(PreviewExt(item.name))
  {
  }

  /** The key handler's view of the page: whether the event comes from a
      text field, whether it comes from inside an open dialog, whether any
      dialog is open at all, and the item currently selected. */
  datatype KeyContext = KeyContext(inTextField: bool, targetInDialog: bool, anyDialogOpen: bool, selection: Option<Entry>)

  /** Whether the preview is shown, and the item it shows. */
  datatype Viewer = Viewer(visible: bool, item: Option<Entry>)

  /** The `keydown` listener: ignored when typed into a text field or inside
      an open dialog; Space closes a shown preview, or opens the selected
      item when no dialog is open anywhere; Escape closes. */
  function OnKeyDown(v: Viewer, code: string, k: KeyContext): (r: Viewer)
    ensures k.inTextField || k.targetInDialog ==> r == v
    ensures r.visible && !v.visible ==>
      code == "Space" && k.selection.Some? && !k.anyDialogOpen && r.item == k.selection
    ensures !v.visible && code == "Space" && k.selection.Some? && !k.inTextField && !k.targetInDialog && !k.anyDialogOpen ==>
      r == Viewer(true, k.selection)
    ensures v.visible && (code == "Space" || code == "Escape") && !k.inTextField && !k.targetInDialog ==>
      r == v.(visible := false)
    ensures code != "Space" && code != "Escape" ==> r == v
  {
    if k.inTextField || k.targetInDialog then v
    else if code == "Space" then
      if v.visible then v.(visible := false)
      else if k.selection.Some? && !k.anyDialogOpen then Viewer(true, k.selection)
      else v
    else if code == "Escape" && v.visible then v.(visible := false)
    else v
  }

  /** Space toggles: outside text fields and dialogs, pressing it twice on a
      hidden preview with a selection opens that item and closes it again. */
  lemma SpaceTwice(v: Viewer, k: KeyContext)
    requires !v.visible && k.selection.Some?
    requires !k.inTextField && !k.targetInDialog && !k.anyDialogOpen
    ensures OnKeyDown(v, "Space", k) == Viewer(true, k.selection)
    ensures OnKeyDown(OnKeyDown(v, "Space", k), "Space", k) == Viewer(false, k.selection)
  {
  }

  /** With a dialog open but the focus outside it, Space and Escape still
      close a shown preview, while Space never opens one. */
  lemma DialogElsewhere(v: Viewer, code: string, k: KeyContext)
    requires !k.inTextField && !k.targetInDialog && k.anyDialogOpen
    requires code == "Space" || code == "Escape"
    ensures !OnKeyDown(v, code, k).visible
  {
  }
}

=== FILE: search.dfy ===
/** The `search-files` handler (main.js): a breadth-first walk driven by a
    queue of directories, reporting every entry whose lower-cased name
    contains the lower-cased query and whose type passes the filter,
    skipping system junk names, and stopping once 500 results are held.
    The walk is modelled sequentially: one directory listing at a time, no
    in-flight counter and no timer. */
module Search {
  import opened Wrappers
  import opened Text
  import opened FsTree
  import opened Seqs

  const MaxResults: nat := 500

  /** The normalised filters: lower-cased query, and the type filter with a
      missing value read as 'all'. */
  datatype Filters = Filters(name: string, typeFilter: string)

  function MakeFilters(query: string, fileType: string): Filters {
    Filters(Lower(query), if fileType == "" then "all" else fileType)
  }

  /** Names the walk skips entirely: a leading `$`, or the system volume
      folder in any letter case. */
  predicate IsJunk(name: string) {
    IsPrefix("$", name) || Lower(name) == "system volume information"
  }

  /** The match test applied to a listing entry before it is statted. */
  predicate NameTypeMatch(f: Filters, c: Node) {
    && Contains(Lower(c.name), f.name)
    && (f.typeFilter == "all" || GetFileType(c.Dir?, Lower(ExtName(c.name))) == f.typeFilter)
  }

  /** An entry is reported when it is not junk, matches, and its stat succeeds. */
  predicate Reported(f: Filters, c: Node) {
    !IsJunk(c.name) && NameTypeMatch(f, c) && c.statOk
  }

  /** The result record; unlike `read-directory` it carries `extname` even
      for a directory. */
  function HitOf(path: string, c: Node): Entry {
    Entry(c.name, JoinPath(path, c.name), c.Dir?, c.size, c.mtime, Some(Lower(ExtName(c.name))))
  }

  /** What a result record itself says about the filters it passed. */
  predicate EntryMatches(f: Filters, e: Entry) {
    && !IsJunk(e.name)
    && Contains(Lower(e.name), f.name)
    && (f.typeFilter == "all" || GetFileType(e.isDirectory, e.extension.GetOr("")) == f.typeFilter)
  }

  /** A queued directory: its full path and the node found there. */
  datatype Job = Job(path: string, dir: Node)

  function JobsSize(q: seq<Job>): nat {
    if q == [] then 0 else Size(q[0].dir) + JobsSize(q[1..])
  }

  lemma {:induction false} JobsSizeConcat(a: seq<Job>, b: seq<Job>)
    ensures JobsSize(a + b) == JobsSize(a) + JobsSize(b)
    decreases |a|
  {
    if a != [] {
      assert (a + b)[1..] == a[1..] + b;
      JobsSizeConcat(a[1..], b);
    } else {
      assert a + b == b;
    }
  }

  /** The result one listing entry contributes: its record when reported. */
  function Hit(f: Filters, path: string, c: Node): (r: seq<Entry>)
    ensures |r| <= 1
  {
    if Reported(f, c) then [HitOf(path, c)] else []
  }

  /** The job one listing entry contributes: a non-junk directory is queued. */
  function Sub(path: string, c: Node): seq<Job>
  {
    if !IsJunk(c.name) && c.Dir? then [Job(JoinPath(path, c.name), c)] else []
  }

  /** The results one directory listing contributes, in listing order. */
  function Hits(f: Filters, path: string, cs: seq<Node>): (r: seq<Entry>)
    ensures |r| <= |cs|
    decreases |cs|
  {
    if cs == [] then [] else Hit(f, path, cs[0]) + Hits(f, path, cs[1..])
  }

  /** A reported entry's record passes the filters by itself. */
  lemma ReportedMatches(f: Filters, path: string, c: Node)
    requires Reported(f, c)
    ensures EntryMatches(f, HitOf(path, c))
  {
  }

  /** Every record of a listing's hits passes the filters. */
  lemma HitsMatch(f: Filters, path: string, cs: seq<Node>)
    ensures forall e :: e in Hits(f, path, cs) ==> EntryMatches(f, e)
  {
    forall e | e in Hits(f, path, cs) ensures EntryMatches(f, e) {
      var k := HitsFrom(f, path, cs, e);
      ReportedMatches(f, path, cs[k]);
    }
  }

  /** The directories one listing enqueues: every non-junk directory,
      whether or not it matched. */
  function SubDirs(path: string, cs: seq<Node>): (r: seq<Job>)
    ensures JobsSize(r) <= SizeSeq(cs)
    ensures forall i :: 0 <= i < |r| ==> r[i].dir.Dir?
    decreases |cs|
  {
    if cs == [] then []
    else
      var head := Sub(path, cs[0]);
      var rest := SubDirs(path, cs[1..]);
      JobsSizeConcat(head, rest);
      head + rest
  }

  lemma {:induction false} HitsConcat(f: Filters, path: string, a: seq<Node>, b: seq<Node>)
    ensures Hits(f, path, a + b) == Hits(f, path, a) + Hits(f, path, b)
    decreases |a|
  {
    if a != [] {
      assert (a + b)[0] == a[0] && (a + b)[1..] == a[1..] + b;
      HitsConcat(f, path, a[1..], b);
      AppendAssoc(Hit(f, path, a[0]), Hits(f, path, a[1..]), Hits(f, path, b));
    } else {
      assert a + b == b;
    }
  }

  lemma {:induction false} SubDirsConcat(path: string, a: seq<Node>, b: seq<Node>)
    ensures SubDirs(path, a + b) == SubDirs(path, a) + SubDirs(path, b)
    decreases |a|
  {
    if a != [] {
      assert (a + b)[0] == a[0] && (a + b)[1..] == a[1..] + b;
      SubDirsConcat(path, a[1..], b);
      AppendAssoc(Sub(path, a[0]), SubDirs(path, a[1..]), SubDirs(path, b));
    } else {
      assert a + b == b;
    }
  }

  /** The recursive reference: everything the walk reports below one
      directory, ignoring the result cap, listing by listing. */
  function Found(f: Filters, path: string, n: Node): (r: seq<Entry>)
    decreases Size(n), 0
  {
    if Listable(n) then Hits(f, path, n.children) + FoundAll(f, SubDirs(path, n.children))
    else []
  }

  function FoundAll(f: Filters, q: seq<Job>): (r: seq<Entry>)
    decreases JobsSize(q), 1
  {
    if q == [] then [] else Found(f, q[0].path, q[0].dir) + FoundAll(f, q[1..])
  }

  /** Soundness of the reference: everything below a directory passes the
      filters. */
  lemma {:induction false} FoundMatches(f: Filters, path: string, n: Node)
    ensures forall e :: e in Found(f, path, n) ==> EntryMatches(f, e)
    decreases Size(n), 0
  {
    if Listable(n) {
      var h := Hits(f, path, n.children);
      var q := SubDirs(path, n.children);
      HitsMatch(f, path, n.children);
      FoundAllMatches(f, q);
      assert Found(f, path, n) == h + FoundAll(f, q);
    }
  }

  lemma {:induction false} FoundAllMatches(f: Filters, q: seq<Job>)
    ensures forall e :: e in FoundAll(f, q) ==> EntryMatches(f, e)
    decreases JobsSize(q), 1
  {
    if q != [] {
      FoundMatches(f, q[0].path, q[0].dir);
      FoundAllMatches(f, q[1..]);
      assert FoundAll(f, q) == Found(f, q[0].path, q[0].dir) + FoundAll(f, q[1..]);
    }
  }

  lemma {:induction false} FoundAllConcat(f: Filters, a: seq<Job>, b: seq<Job>)
    ensures FoundAll(f, a + b) == FoundAll(f, a) + FoundAll(f, b)
    decreases |a|
  {
    if a != [] {
      assert (a + b)[0] == a[0] && (a + b)[1..] == a[1..] + b;
      FoundAllConcat(f, a[1..], b);
      AppendAssoc(Found(f, a[0].path, a[0].dir), FoundAll(f, a[1..]), FoundAll(f, b));
    } else {
      assert a + b == b;
    }
  }

  /** What an uncapped search of `root` at `searchPath` reports. */
  function Reference(searchPath: string, query: string, fileType: string, root: Option<Node>): seq<Entry> {
    if root.Some? then Found(MakeFilters(query, fileType), searchPath, root.value) else []
  }

  /** One step of the listing loop extends the hits and the queue by the
      contribution of one entry. */
  lemma ListingStep(f: Filters, path: string, cs: seq<Node>, i: nat)
    requires i < |cs|
    ensures Hits(f, path, cs[..i + 1]) == Hits(f, path, cs[..i]) + Hit(f, path, cs[i])
    ensures SubDirs(path, cs[..i + 1]) == SubDirs(path, cs[..i]) + Sub(path, cs[i])
  {
    TakeOneMore(cs, i);
    HitsConcat(f, path, cs[..i], [cs[i]]);
    SubDirsConcat(path, cs[..i], [cs[i]]);
    HitsSingle(f, path, cs[i]);
    SubDirsSingle(path, cs[i]);
  }

  lemma HitsSingle(f: Filters, path: string, c: Node)
    ensures Hits(f, path, [c]) == Hit(f, path, c)
  {
    assert [c][1..] == [];
  }

  lemma SubDirsSingle(path: string, c: Node)
    ensures SubDirs(path, [c]) == Sub(path, c)
  {
    assert [c][1..] == [];
  }

  lemma ScanStep(f: Filters, path: string, cs: seq<Node>, i: nat, r0: seq<Entry>, q0: seq<Job>)
    requires i < |cs|
    ensures r0 + Hits(f, path, cs[..i + 1]) == (r0 + Hits(f, path, cs[..i])) + Hit(f, path, cs[i])
    ensures q0 + SubDirs(path, cs[..i + 1]) == (q0 + SubDirs(path, cs[..i])) + Sub(path, cs[i])
  {
    ListingStep(f, path, cs, i);
    AppendAssoc(r0, Hits(f, path, cs[..i]), Hit(f, path, cs[i]));
    AppendAssoc(q0, SubDirs(path, cs[..i]), Sub(path, cs[i]));
  }

  /** After a whole listing was scanned, results plus pending work still
      account for exactly the reference. */
  lemma ListingDone(f: Filters, job: Job, q0: seq<Job>, r0: seq<Entry>)
    requires Listable(job.dir)
    ensures multiset(r0 + Hits(f, job.path, job.dir.children)) +
            multiset(FoundAll(f, q0 + SubDirs(job.path, job.dir.children)))
         == multiset(r0) + multiset(FoundAll(f, [job] + q0))
  {
    var cs := job.dir.children;
    FoundAllConcat(f, q0, SubDirs(job.path, cs));
    assert ([job] + q0)[1..] == q0;
  }

  /** After a listing was cut short by the cap, the results are still part
      of the reference. */
  lemma ListingCut(f: Filters, job: Job, q0: seq<Job>, r0: seq<Entry>, i: nat)
    requires Listable(job.dir) && i <= |job.dir.children|
    ensures multiset(r0 + Hits(f, job.path, job.dir.children[..i])) <=
            multiset(r0) + multiset(FoundAll(f, [job] + q0))
    ensures JobsSize(q0 + SubDirs(job.path, job.dir.children[..i])) < JobsSize([job] + q0)
  {
    var cs := job.dir.children;
    assert cs == cs[..i] + cs[i..];
    HitsConcat(f, job.path, cs[..i], cs[i..]);
    assert ([job] + q0)[1..] == q0;
    SizeSeqConcat(cs[..i], cs[i..]);
    JobsSizeConcat(q0, SubDirs(job.path, cs[..i]));
  }

  /** Scanning one directory listing: each non-junk entry is checked and,
      if a directory, queued; the scan stops early once the cap is reached. */
  method ScanListing(f: Filters, path: string, cs: seq<Node>, q0: seq<Job>, r0: seq<Entry>)
    returns (results: seq<Entry>, queue: seq<Job>, i: nat)
    requires |r0| < MaxResults
    ensures i <= |cs|
    ensures |results| <= MaxResults
    ensures results == r0 + Hits(f, path, cs[..i])
    ensures queue == q0 + SubDirs(path, cs[..i])
    ensures i < |cs| ==> |results| == MaxResults
  {
    results, queue, i := r0, q0, 0;
    assert cs[..0] == [];
    while i < |cs| && |results| < MaxResults
      invariant 0 <= i <= |cs|
      invariant |results| <= MaxResults
      invariant results == r0 + Hits(f, path, cs[..i])
      invariant queue == q0 + SubDirs(path, cs[..i])
    {
      var c := cs[i];
      var hit, sub := Hit(f, path, c), Sub(path, c);
      ScanStep(f, path, cs, i, r0, q0);
      results := results + hit;
      queue := queue + sub;
      i := i + 1;
    }
  }

  /** The loop invariant of the walk is kept by processing one queued job. */
  lemma JobDone(f: Filters, job: Job, q0: seq<Job>, r0: seq<Entry>, results: seq<Entry>,
                queue: seq<Job>, i: nat, all: multiset<Entry>)
    requires multiset(r0) + multiset(FoundAll(f, [job] + q0)) == all
    requires Listable(job.dir) && i <= |job.dir.children|
    requires results == r0 + Hits(f, job.path, job.dir.children[..i])
    requires queue == q0 + SubDirs(job.path, job.dir.children[..i])
    requires i < |job.dir.children| ==> |results| == MaxResults
    ensures multiset(results) <= all
    ensures |results| < MaxResults ==> multiset(results) + multiset(FoundAll(f, queue)) == all
    ensures JobsSize(queue) < JobsSize([job] + q0)
  {
    ListingCut(f, job, q0, r0, i);
    if i == |job.dir.children| {
      assert job.dir.children[..i] == job.dir.children;
      ListingDone(f, job, q0, r0);
    }
  }

  /** One turn of the walk: take the first queued directory and, when it
      can be listed, scan its listing. Results plus pending work keep
      accounting for the reference until the cap is reached. */
  method ProcessJob(f: Filters, queue: seq<Job>, results: seq<Entry>, ghost all: multiset<Entry>)
    returns (queue': seq<Job>, results': seq<Entry>)
    requires |queue| > 0 && |results| < MaxResults
    requires multiset(results) + multiset(FoundAll(f, queue)) == all
    ensures |results'| <= MaxResults
    ensures multiset(results') <= all
    ensures |results'| < MaxResults ==> multiset(results') + multiset(FoundAll(f, queue')) == all
    ensures JobsSize(queue') < JobsSize(queue)
  {
    var job := queue[0];
    var q0 := queue[1..];
    assert queue == [job] + q0;
    if Listable(job.dir) {
      var i;
      results', queue', i := ScanListing(f, job.path, job.dir.children, q0, results);
      JobDone(f, job, q0, results, results', queue', i, all);
    } else {
      SkipUnlistable(f, job, q0);
      queue', results' := q0, results;
    }
  }

  lemma SkipUnlistable(f: Filters, job: Job, q0: seq<Job>)
    requires !Listable(job.dir)
    ensures FoundAll(f, [job] + q0) == FoundAll(f, q0)
    ensures JobsSize(q0) < JobsSize([job] + q0)
  {
    assert ([job] + q0)[1..] == q0;
  }

  /** `search-files` over the tree `root` found at `searchPath` (None when
      the path does not exist). `viaTimeout` is set when the cap was reached
      while directories were still queued: the program then never resolves
      through its completion branch and answers only when its 30-second
      safety timer fires, with the same results. */
  method SearchFiles(searchPath: string, query: string, fileType: string, root: Option<Node>)
    returns (results: seq<Entry>, viaTimeout: bool)
    ensures |results| <= MaxResults
    ensures multiset(results) <= multiset(Reference(searchPath, query, fileType, root))
    ensures |results| < MaxResults ==>
      multiset(results) == multiset(Reference(searchPath, query, fileType, root))
    ensures |results| == if |Reference(searchPath, query, fileType, root)| < MaxResults
                         then |Reference(searchPath, query, fileType, root)| else MaxResults
    ensures forall i :: 0 <= i < |results| ==> EntryMatches(MakeFilters(query, fileType), results[i])
    ensures viaTimeout ==> |results| == MaxResults
  {
    var f := MakeFilters(query, fileType);
    var queue: seq<Job> := if root.Some? then [Job(searchPath, root.value)] else [];
    ghost var reference := Reference(searchPath, query, fileType, root);
    ghost var all := multiset(reference);
    StartAccounts(searchPath, query, fileType, root);
    results := [];
    while |queue| > 0 && |results| < MaxResults
      invariant |results| <= MaxResults
      invariant multiset(results) <= all
      invariant |results| < MaxResults ==> multiset(results) + multiset(FoundAll(f, queue)) == all
      decreases JobsSize(queue)
    {
      queue, results := ProcessJob(f, queue, results, all);
    }
    ResultCount(results, reference);
    if root.Some? { FoundMatches(f, searchPath, root.value); }
    SubBagMatches(f, results, reference);
    viaTimeout := |queue| > 0;
  }

  /** The walk starts with the root alone in the queue. */
  lemma StartAccounts(searchPath: string, query: string, fileType: string, root: Option<Node>)
    ensures var queue := if root.Some? then [Job(searchPath, root.value)] else [];
      FoundAll(MakeFilters(query, fileType), queue) == Reference(searchPath, query, fileType, root)
  {
    if root.Some? {
      var job := Job(searchPath, root.value);
      assert [job][1..] == [];
    }
  }

  /** Everything drawn from the reference passes the filters. */
  lemma SubBagMatches(f: Filters, results: seq<Entry>, reference: seq<Entry>)
    requires multiset(results) <= multiset(reference)
    requires forall e :: e in reference ==> EntryMatches(f, e)
    ensures forall i :: 0 <= i < |results| ==> EntryMatches(f, results[i])
  {
    forall i | 0 <= i < |results|
      ensures EntryMatches(f, results[i])
    {
      assert results[i] in multiset(results);
      assert results[i] in reference;
    }
  }

  /** The size of the answer: everything, or exactly the cap. */
  lemma ResultCount(results: seq<Entry>, reference: seq<Entry>)
    requires |results| <= MaxResults
    requires multiset(results) <= multiset(reference)
    requires |results| < MaxResults ==> multiset(results) == multiset(reference)
    ensures |results| == if |reference| < MaxResults then |reference| else MaxResults
  {
    assert |multiset(results)| <= |multiset(reference)| by {
      assert multiset(reference) == multiset(results) + (multiset(reference) - multiset(results));
    }
  }

  /** Within one listing, an entry is reported if and only if it is not
      junk, matches the filters and can be statted. */
  lemma HitsMembers(f: Filters, path: string, cs: seq<Node>)
    ensures forall k :: 0 <= k < |cs| && Reported(f, cs[k]) ==> HitOf(path, cs[k]) in Hits(f, path, cs)
    ensures forall e :: e in Hits(f, path, cs) ==> exists k :: 0 <= k < |cs| && Reported(f, cs[k]) && e == HitOf(path, cs[k])
  {
    forall k | 0 <= k < |cs| && Reported(f, cs[k]) ensures HitOf(path, cs[k]) in Hits(f, path, cs) {
      HitsHas(f, path, cs, k);
      assert HitOf(path, cs[k]) in Hit(f, path, cs[k]);
    }
    forall e | e in Hits(f, path, cs)
      ensures exists k :: 0 <= k < |cs| && Reported(f, cs[k]) && e == HitOf(path, cs[k])
    {
      var k := HitsFrom(f, path, cs, e);
    }
  }

  /** Each entry's own contribution appears among the listing's hits. */
  lemma {:induction false} HitsHas(f: Filters, path: string, cs: seq<Node>, k: nat)
    requires k < |cs|
    ensures forall e :: e in Hit(f, path, cs[k]) ==> e in Hits(f, path, cs)
    decreases k
  {
    assert Hits(f, path, cs) == Hit(f, path, cs[0]) + Hits(f, path, cs[1..]);
    if k > 0 {
      assert cs[k] == cs[1..][k - 1];
      HitsHas(f, path, cs[1..], k - 1);
    }
  }

  /** The listing entry a reported record comes from. */
  lemma {:induction false} HitsFrom(f: Filters, path: string, cs: seq<Node>, e: Entry) returns (k: nat)
    requires e in Hits(f, path, cs)
    ensures k < |cs| && Reported(f, cs[k]) && e == HitOf(path, cs[k])
    decreases |cs|
  {
    var h := Hit(f, path, cs[0]);
    assert Hits(f, path, cs) == h + Hits(f, path, cs[1..]);
    if e in h {
      k := 0;
    } else {
      var j := HitsFrom(f, path, cs[1..], e);
      assert cs[j + 1] == cs[1..][j];
      k := j + 1;
    }
  }

  /** Every non-junk directory of a listing is queued, matched or not. */
  lemma {:induction false} SubDirsMembers(path: string, cs: seq<Node>, k: nat)
    requires k < |cs| && !IsJunk(cs[k].name) && cs[k].Dir?
    ensures Job(JoinPath(path, cs[k].name), cs[k]) in SubDirs(path, cs)
    decreases |cs|
  {
    if k > 0 {
      assert cs[k] == cs[1..][k - 1];
      SubDirsMembers(path, cs[1..], k - 1);
    }
  }

  lemma {:induction false} FoundAllHas(f: Filters, q: seq<Job>, j: nat)
    requires j < |q|
    ensures multiset(Found(f, q[j].path, q[j].dir)) <= multiset(FoundAll(f, q))
    decreases |q|
  {
    FoundAllCons(f, q);
    if j > 0 {
      assert q[j] == q[1..][j - 1];
      FoundAllHas(f, q[1..], j - 1);
    }
  }

  lemma FoundAllCons(f: Filters, q: seq<Job>)
    requires q != []
    ensures multiset(FoundAll(f, q)) == multiset(Found(f, q[0].path, q[0].dir)) + multiset(FoundAll(f, q[1..]))
  {
    assert FoundAll(f, q) == Found(f, q[0].path, q[0].dir) + FoundAll(f, q[1..]);
  }

  /** The walk descends into every non-junk subdirectory, whether or not the
      subdirectory itself matched: all of its results are results of the
      parent. */
  lemma Descends(f: Filters, path: string, n: Node, k: nat)
    requires Listable(n) && k < |n.children|
    requires !IsJunk(n.children[k].name) && n.children[k].Dir?
    ensures multiset(Found(f, JoinPath(path, n.children[k].name), n.children[k])) <= multiset(Found(f, path, n))
  {
    var c := n.children[k];
    var q := SubDirs(path, n.children);
    SubDirsMembers(path, n.children, k);
    var j :| 0 <= j < |q| && q[j] == Job(JoinPath(path, c.name), c);
    FoundAllHas(f, q, j);
  }
}

=== FILE: seqs.dfy ===
/** Generic sequence helpers: the order-preserving filter that every
    `Array.prototype.filter` of the program is modelled by, and JavaScript's
    `slice(0, k)`. */
module Seqs {

  /** `a` can be obtained from `b` by deleting elements, keeping the order. */
  ghost predicate IsSubsequence<T>(a: seq<T>, b: seq<T>)
    decreases |b|
  {
    |a| == 0 || (|b| > 0 && ((a[0] == b[0] && IsSubsequence(a[1..], b[1..])) || IsSubsequence(a, b[1..])))
  }

  /** `s.filter(p)`: the elements satisfying `p`, in their original order. */
  function Filter<T(==)>(s: seq<T>, p: T -> bool): (r: seq<T>)
    ensures |r| <= |s|
    ensures forall i :: 0 <= i < |r| ==> p(r[i])
    ensures multiset(r) <= multiset(s)
    decreases |s|
  {
    if |s| == 0 then []
    else
      var rest := Filter(s[1..], p);
      assert s == [s[0]] + s[1..];
      if p(s[0]) then [s[0]] + rest else rest
  }

  /** Every element the filter keeps comes from the input, and every input
      element satisfying the predicate is kept. */
  lemma FilterMembers<T>(s: seq<T>, p: T -> bool)
    ensures forall i :: 0 <= i < |Filter(s, p)| ==> Filter(s, p)[i] in s
    ensures forall i :: 0 <= i < |s| && p(s[i]) ==> s[i] in Filter(s, p)
  {
    var r := Filter(s, p);
    forall i | 0 <= i < |r| ensures r[i] in s {
      assert r[i] in multiset(r);
    }
    forall i | 0 <= i < |s| && p(s[i]) ensures s[i] in r {
      FilterCount(s, p, s[i]);
      assert multiset(r)[s[i]] == multiset(s)[s[i]] > 0;
    }
  }

  /** An element of the input is in the output exactly when it satisfies
      the predicate. */
  lemma FilterMembersIff<T>(s: seq<T>, p: T -> bool)
    ensures forall i :: 0 <= i < |s| ==> (s[i] in Filter(s, p) <==> p(s[i]))
  {
    FilterMembers(s, p);
    var r := Filter(s, p);
    forall i | 0 <= i < |s| && s[i] in r ensures p(s[i]) {
      var k :| 0 <= k < |r| && r[k] == s[i];
    }
  }

  /** The filter keeps every copy of an element that satisfies the predicate. */
  lemma {:induction false} FilterCount<T>(s: seq<T>, p: T -> bool, x: T)
    requires p(x)
    ensures multiset(Filter(s, p))[x] == multiset(s)[x]
    decreases |s|
  {
    if |s| > 0 {
      FilterCount(s[1..], p, x);
      var rest := Filter(s[1..], p);
      assert Filter(s, p) == if p(s[0]) then [s[0]] + rest else rest;
      assert s == [s[0]] + s[1..];
      assert multiset(s) == multiset{s[0]} + multiset(s[1..]);
    }
  }

  /** The filter keeps the relative order of the elements it keeps. */
  lemma {:induction false} FilterIsSubsequence<T>(s: seq<T>, p: T -> bool)
    ensures IsSubsequence(Filter(s, p), s)
    decreases |s|
  {
    if |s| > 0 {
      FilterIsSubsequence(s[1..], p);
      var rest := Filter(s[1..], p);
      if !p(s[0]) {
        SubsequenceOfTail(rest, s);
      }
    }
  }

  lemma SubsequenceOfTail<T>(a: seq<T>, b: seq<T>)
    requires |b| > 0 && IsSubsequence(a, b[1..])
    ensures IsSubsequence(a, b)
  {
  }

  /** A filter that keeps every element returns its input. */
  lemma {:induction false} FilterKeepsAll<T>(s: seq<T>, p: T -> bool)
    requires forall i :: 0 <= i < |s| ==> p(s[i])
    ensures Filter(s, p) == s
    decreases |s|
  {
    if |s| > 0 {
      FilterKeepsAll(s[1..], p);
    }
  }

  /** Concatenation regroups freely. */
  lemma AppendAssoc<T>(a: seq<T>, b: seq<T>, c: seq<T>)
    ensures (a + b) + c == a + (b + c)
  {
  }

  /** The prefix one longer is the prefix followed by the next element. */
  lemma TakeOneMore<T>(s: seq<T>, i: nat)
    requires i < |s|
    ensures s[..i + 1] == s[..i] + [s[i]]
  {
  }

  /** A filter that keeps no element returns the empty sequence. */
  lemma {:induction false} FilterKeepsNone<T>(s: seq<T>, p: T -> bool)
    requires forall i :: 0 <= i < |s| ==> !p(s[i])
    ensures Filter(s, p) == []
    decreases |s|
  {
    if |s| > 0 {
      FilterKeepsNone(s[1..], p);
    }
  }

  /** Filtering distributes over concatenation. */
  lemma {:induction false} FilterAppend<T>(a: seq<T>, b: seq<T>, p: T -> bool)
    ensures Filter(a + b, p) == Filter(a, p) + Filter(b, p)
    decreases |a|
  {
    if a == [] {
      assert a + b == b;
    } else {
      assert (a + b)[1..] == a[1..] + b;
      FilterAppend(a[1..], b, p);
    }
  }

  /** Filtering two arrangements of the same elements keeps the same elements. */
  lemma FilterSameBag<T>(a: seq<T>, b: seq<T>, p: T -> bool)
    requires multiset(a) == multiset(b)
    ensures multiset(Filter(a, p)) == multiset(Filter(b, p))
  {
    forall x ensures multiset(Filter(a, p))[x] == multiset(Filter(b, p))[x] {
      if p(x) {
        FilterCount(a, p, x);
        FilterCount(b, p, x);
      } else {
        FilterMembers(a, p);
        FilterMembers(b, p);
        assert x !in Filter(a, p);
        assert x !in Filter(b, p);
      }
    }
  }

  /** `s.slice(0, k)`: a negative `k` counts from the end, a large one is clamped. */
  function SliceTo<T>(s: seq<T>, k: int): (r: seq<T>)
    ensures |r| <= |s|
    ensures forall i :: 0 <= i < |r| ==> r[i] == s[i]
    ensures 0 <= k <= |s| ==> |r| == k
  {
    if k < 0 then (if |s| + k < 0 then [] else s[..|s| + k])
    else if k > |s| then s
    else s[..k]
  }
}

=== FILE: sidetree.dfy ===
/** The sidebar tree (js/SideTree.js): the favorites list and its add, edit
    and remove operations, the set of expanded paths, the indentation of a
    row and the level read back from it, and the folder-only child listing.
    The lists live in `localStorage` in the program; here they are values. */
module SideTree {
  import opened Wrappers
  import opened Text
  import opened Seqs
  import opened FsTree
  import opened ListView

  // ----- favorites -----

  datatype Favorite = Favorite(name: string, path: string, icon: string)

  /** Position of the first favorite with the given path, or -1 (`findIndex`). */
  function FindPath(favs: seq<Favorite>, path: string): (i: int)
    ensures -1 <= i < |favs|
    ensures i == -1 <==> forall k :: 0 <= k < |favs| ==> favs[k].path != path
    ensures i >= 0 ==> favs[i].path == path && forall k :: 0 <= k < i ==> favs[k].path != path
    decreases |favs|
  {
    if favs == [] then -1
    else if favs[0].path == path then 0
    else
      var j := FindPath(favs[1..], path);
      if j == -1 then -1 else j + 1
  }

  /** What `saveFavorites` does: store a new list, or refuse a duplicate add. */
  datatype SaveResult = Saved(favorites: seq<Favorite>) | AlreadyPresent

  /** `saveFavorites(newFav, oldFav)`. With `oldFav` it edits: the first
      favorite with the old path is replaced and the list is saved even when
      none matches. Without it, a new path is appended and a path already
      present is refused. */
  function SaveFavorites(favs: seq<Favorite>, newFav: Favorite, oldFav: Option<Favorite>): (r: SaveResult)
    ensures oldFav.Some? ==> r.Saved? && |r.favorites| == |favs|
    ensures oldFav.None? ==> (r.AlreadyPresent? <==> exists k :: 0 <= k < |favs| && favs[k].path == newFav.path)
    ensures oldFav.None? && r.Saved? ==> r.favorites == favs + [newFav]
  {
    match oldFav
    case Some(prev) =>
      var idx := FindPath(favs, prev.path);
      if idx != -1 then Saved(favs[idx := newFav]) else Saved(favs)
    case None =>
      if FindPath(favs, newFav.path) != -1 then AlreadyPresent
      else Saved(favs + [newFav])
  }

  /** An edit replaces exactly the first favorite carrying the old path and
      leaves every other position alone; with no such favorite nothing
      changes. */
  lemma EditReplacesFirstMatch(favs: seq<Favorite>, newFav: Favorite, prev: Favorite)
    ensures var r := SaveFavorites(favs, newFav, Some(prev)).favorites;
      (forall k :: 0 <= k < |favs| ==> favs[k].path != prev.path) ==> r == favs
    ensures var r := SaveFavorites(favs, newFav, Some(prev)).favorites;
      forall i :: 0 <= i < |favs| && favs[i].path == prev.path && (forall k :: 0 <= k < i ==> favs[k].path != prev.path) ==>
        r[i] == newFav && forall k :: 0 <= k < |favs| && k != i ==> r[k] == favs[k]
  {
  }

  /** Adding the same favorite twice stores it once. */
  lemma AddTwiceRefused(favs: seq<Favorite>, fav: Favorite)
    requires SaveFavorites(favs, fav, None).Saved?
    ensures SaveFavorites(SaveFavorites(favs, fav, None).favorites, fav, None).AlreadyPresent?
  {
    var r := favs + [fav];
    assert r[|favs|].path == fav.path;
  }

  /** `removeFavorite(fav)` after the confirmation prompt: when confirmed,
      keep the favorites whose path or name differs; otherwise keep all. */
  function RemoveFavorite(favs: seq<Favorite>, fav: Favorite, confirmed: bool): (r: seq<Favorite>)
    ensures !confirmed ==> r == favs
    ensures multiset(r) <= multiset(favs)
    ensures confirmed ==> forall i :: 0 <= i < |r| ==> r[i].path != fav.path || r[i].name != fav.name
  {
    if !confirmed then favs
    else Filter(favs, (f: Favorite) => f.path != fav.path || f.name != fav.name)
  }

  /** A confirmed removal keeps, in order, exactly the favorites that differ
      from the removed one in path or name. */
  lemma RemoveFavoriteExact(favs: seq<Favorite>, fav: Favorite)
    ensures forall i :: 0 <= i < |favs| ==>
      (favs[i] in RemoveFavorite(favs, fav, true) <==> favs[i].path != fav.path || favs[i].name != fav.name)
    ensures IsSubsequence(RemoveFavorite(favs, fav, true), favs)
  {
    FilterMembersIff(favs, (f: Favorite) => f.path != fav.path || f.name != fav.name);
    FilterIsSubsequence(favs, (f: Favorite) => f.path != fav.path || f.name != fav.name);
  }

  /** Removing a favorite right after adding it gives back the old list. */
  lemma AddThenRemove(favs: seq<Favorite>, fav: Favorite)
    requires forall k :: 0 <= k < |favs| ==> favs[k].path != fav.path
    ensures SaveFavorites(favs, fav, None).Saved?
    ensures RemoveFavorite(SaveFavorites(favs, fav, None).favorites, fav, true) == favs
  {
    var p := (f: Favorite) => f.path != fav.path || f.name != fav.name;
    FilterKeepsAll(favs, p);
    FilterAppend(favs, [fav], p);
  }

  /** The favorite the dialog's Save button builds: an empty name becomes
      "Untitled" and an empty icon the star. */
  function DialogFavorite(nameInput: string, pathInput: string, iconInput: string): (f: Favorite)
    ensures f.path == pathInput
    ensures f.name != "" && f.icon != ""
    ensures nameInput != "" ==> f.name == nameInput
    ensures iconInput != "" ==> f.icon == iconInput
  {
    Favorite(if nameInput == "" then "Untitled" else nameInput,
             pathInput,
             if iconInput == "" then "⭐" else iconInput)
  }

  // ----- expansion -----

  /** `toggleExpand(path)` on the set of expanded paths. `rowExpanded` is
      whether the row is drawn expanded, which decides the direction. */
  function ToggleExpand(expanded: set<string>, rowExpanded: bool, path: string): (r: set<string>)
    ensures rowExpanded ==> path !in r
    ensures !rowExpanded ==> path in r
    ensures forall q :: q != path ==> (q in r <==> q in expanded)
  {
    if rowExpanded then expanded - {path} else expanded + {path}
  }

  /** When the set agrees with the drawing, collapsing and expanding again
      (or the reverse) restores the set. */
  lemma ToggleTwiceRestores(expanded: set<string>, rowExpanded: bool, path: string)
    requires rowExpanded <==> path in expanded
    ensures ToggleExpand(ToggleExpand(expanded, rowExpanded, path), !rowExpanded, path) == expanded
  {
  }

  // ----- indentation -----

  /** The `padding-left` style of a row at a nesting level. */
  function Padding(level: nat): (style: string)
    ensures EndsWith(style, "px")
  {
    NatToString(12 + level * 20) + "px"
  }

  /** `Math.round((parseInt(style || '12') - 12) / 20)`: None stands for NaN.
      Rounding half up of x/20 is the floor of (2x + 20) / 40. */
  function LevelOf(style: string): (level: Option<int>)
  {
    var s := if style == "" then "12" else style;
    match ParseLeadingNat(s)
    case None => None
    case Some(p) => Some(RoundLevel(p))
  }

  /** The level nearest to a padding of `p` pixels, halves rounded up. */
  function RoundLevel(p: int): int {
    (2 * (p - 12) + 20) / 40
  }

  lemma RoundLevelOfPadding(level: nat)
    ensures RoundLevel(12 + level * 20) == level
  {
    var x := 2 * (12 + level * 20 - 12) + 20;
    assert x == 40 * level + 20;
    assert 40 * level <= x < 40 * (level + 1);
  }

  /** A row with no padding style reads as level 0. */
  lemma LevelOfEmpty()
    ensures LevelOf("") == Some(0)
  {
    ParseRendered(12, "");
    assert NatToString(12) + "" == "12";
  }

  /** The level read back from a row's padding is the level it was drawn at. */
  lemma LevelOfPadding(level: nat)
    ensures LevelOf(Padding(level)) == Some(level)
  {
    var n := 12 + level * 20;
    ParseRendered(n, "px");
    assert Padding(level) != "" by { assert |Padding(level)| >= 2; }
    RoundLevelOfPadding(level);
  }

  // ----- loadChildren -----

  /** A child row: the entry, its nesting level and whether it is expanded
      as soon as it is drawn. */
  datatype Row = Row(entry: Entry, level: nat, autoExpand: bool)

  /** The directories of a listing. */
  function Folders(items: seq<Entry>): seq<Entry> {
    Filter(items, (e: Entry) => e.isDirectory)
  }

  function Rows(folders: seq<Entry>, level: nat, expanded: set<string>): (r: seq<Row>)
    ensures |r| == |folders|
    ensures forall i :: 0 <= i < |r| ==> r[i].entry == folders[i] && r[i].level == level
    ensures forall i :: 0 <= i < |r| ==> (r[i].autoExpand <==> folders[i].path in expanded)
  {
    seq(|folders|, i requires 0 <= i < |folders| => Row(folders[i], level, folders[i].path in expanded))
  }

  /** `loadChildren(path, container, level)`: sort the listing directories
      first and by name, keep only the directories, and draw each at
      `level`, expanding those whose path is in the expanded set. An empty
      result draws the "(Empty)" placeholder instead. */
  function LoadChildren(items: seq<Entry>, level: nat, expanded: set<string>): (r: seq<Row>)
    ensures forall i :: 0 <= i < |r| ==> r[i].entry.isDirectory && r[i].level == level
  {
    Rows(Folders(SortItems("name", items)), level, expanded)
  }

  /** The rows are exactly the directories of the listing, each once, in
      name order. */
  lemma LoadChildrenCorrect(items: seq<Entry>, level: nat, expanded: set<string>)
    ensures var r := LoadChildren(items, level, expanded);
      multiset(seq(|r|, i requires 0 <= i < |r| => r[i].entry)) == multiset(Folders(items))
    ensures var r := LoadChildren(items, level, expanded);
      forall i :: 0 <= i < |r| - 1 ==> LexCompare(r[i].entry.name, r[i + 1].entry.name) <= 0
  {
    var sorted := SortItems("name", items);
    var f := Folders(sorted);
    var r := LoadChildren(items, level, expanded);
    assert seq(|r|, i requires 0 <= i < |r| => r[i].entry) == f;
    FilterSameBag(sorted, items, (e: Entry) => e.isDirectory);
    SortItemsCorrect("name", items);
    FoldersArePrefix(sorted);
    forall i | 0 <= i < |f| - 1 ensures LexCompare(f[i].name, f[i + 1].name) <= 0 {
      assert f[i] == sorted[i] && f[i + 1] == sorted[i + 1];
      assert f[i].isDirectory && f[i + 1].isDirectory;
    }
  }

  /** In a directories-first list the directories are a prefix. */
  lemma {:induction false} FoldersArePrefix(s: seq<Entry>)
    requires DirectoriesFirst(s)
    ensures |Folders(s)| <= |s| && s[..|Folders(s)|] == Folders(s)
    decreases |s|
  {
    if s != [] {
      assert DirectoriesFirst(s[1..]) by {
        forall i, j | 0 <= i < j < |s[1..]| && s[1..][j].isDirectory ensures s[1..][i].isDirectory {
          assert s[1..][j] == s[j + 1] && s[1..][i] == s[i + 1];
        }
      }
      FoldersArePrefix(s[1..]);
      if !s[0].isDirectory {
        NoFolders(s);
      }
    }
  }

  lemma NoFolders(s: seq<Entry>)
    requires |s| > 0 && !s[0].isDirectory && DirectoriesFirst(s)
    ensures Folders(s) == []
  {
    assert forall j :: 0 <= j < |s| ==> !s[j].isDirectory;
    FilterKeepsNone(s, (e: Entry) => e.isDirectory);
  }
}

=== FILE: tables.dfy ===
/** Extension tables. The program classifies names with chains of
    `if (list.includes(ext)) return kind;` and with object literals used as
    maps; both are modelled here as tables searched front to back. */
module Tables {

  /** A classification table: rows of (kind, extensions), tried in order. */
  type ClassTable = seq<(string, seq<string>)>

  /** The kind of the first row whose extension list holds `key`, else `default`. */
  function FirstHit(table: ClassTable, key: string, default: string): (r: string)
    ensures (forall i :: 0 <= i < |table| ==> key !in table[i].1) ==> r == default
    ensures (exists i :: 0 <= i < |table| && key in table[i].1) ==>
      exists i :: 0 <= i < |table| && key in table[i].1 && r == table[i].0 &&
        forall j :: 0 <= j < i ==> key !in table[j].1
    decreases |table|
  {
    if |table| == 0 then default
    else if key in table[0].1 then table[0].0
    else FirstHit(table[1..], key, default)
  }

  /** The first row listing the key decides. */
  lemma {:induction false} FirstHitAt(table: ClassTable, key: string, default: string, i: nat)
    requires i < |table| && key in table[i].1
    requires forall j :: 0 <= j < i ==> key !in table[j].1
    ensures FirstHit(table, key, default) == table[i].0
    decreases i
  {
    if i > 0 {
      assert table[1..][i - 1] == table[i];
      FirstHitAt(table[1..], key, default, i - 1);
    }
  }

  /** An object literal `{ key: value, ... }` written without repeated keys. */
  type PairTable = seq<(string, string)>

  /** `map[key] || default` for an object literal. */
  function Lookup(table: PairTable, key: string, default: string): (r: string)
    ensures (forall i :: 0 <= i < |table| ==> table[i].0 != key) ==> r == default
    ensures (exists i :: 0 <= i < |table| && table[i].0 == key) ==>
      exists i :: 0 <= i < |table| && table[i].0 == key && r == table[i].1 &&
        forall j :: 0 <= j < i ==> table[j].0 != key
    decreases |table|
  {
    if |table| == 0 then default
    else if table[0].0 == key then table[0].1
    else Lookup(table[1..], key, default)
  }
}

=== FILE: tabs.dfy ===
/** The tab strip (js/TabManager.js): tabs with their own folder history,
    created with fresh ids, closed with the neighbour taking over, switched,
    and updated as the user navigates. Scroll positions, the per-tab view
    mode, the DOM and the switch callback are not modelled. */
module Tabs {
  import opened Wrappers
  import opened Text
  import opened FsTree

  datatype Tab = Tab(id: string, path: string, history: seq<string>, historyIndex: int, name: string)

  datatype TabsState = TabsState(tabs: seq<Tab>, activeTabId: Option<string>, tabCounter: nat)

  const Init: TabsState := TabsState([], None, 0)

  /** The id of the tab created as number `k`. */
  function TabId(k: nat): string {
    "tab-" + NatToString(k)
  }

  lemma TabIdInjective(a: nat, b: nat)
    ensures TabId(a) == TabId(b) ==> a == b
  {
    if TabId(a) == TabId(b) {
      assert NatToString(a) == TabId(a)[4..] && NatToString(b) == TabId(b)[4..];
      NatToStringInjective(a, b);
    }
  }

  // ----- getNameFromPath -----

  /** The text after the last separator of a path. */
  function LastSegment(path: string): string {
    path[LastIndexOf(path, Sep) + 1..]
  }

  /** `getNameFromPath`: 'New Tab' for no path, the drive letter and colon
      for a drive root, else the last piece of the split on the separator,
      or the whole path when that piece is empty. */
  function GetNameFromPath(path: string): (name: string)
    ensures path == "" ==> name == "New Tab"
    ensures path != "" && (EndsWith(path, ":") || EndsWith(path, ":\\")) ==>
      name == path[..if |path| < 2 then |path| else 2]
  {
    if path == "" then "New Tab"
    else if EndsWith(path, ":") || EndsWith(path, ":\\") then path[..if |path| < 2 then |path| else 2]
    else
      var last := LastPiece(path, Sep);
      if last != "" then last else path
  }

  /** Below a drive root the tab is named after the text following the last
      separator, or the whole path when the path ends in a separator. */
  lemma NameIsLastSegment(path: string)
    requires path != "" && !EndsWith(path, ":") && !EndsWith(path, ":\\")
    ensures GetNameFromPath(path) == (if LastSegment(path) != "" then LastSegment(path) else path)
  {
    LastPieceIsAfterLastSep(path, Sep);
  }

  /** A tab named after a folder below a drive shows no separator. */
  lemma TabNameHasNoSeparator(path: string)
    requires path != "" && !EndsWith(path, ":") && !EndsWith(path, ":\\")
    requires LastSegment(path) != ""
    ensures Sep !in GetNameFromPath(path)
  {
    NameIsLastSegment(path);
  }

  // ----- invariants -----

  /** A tab's cursor points into its history at its current folder, and the
      history never holds the same folder twice in a row. */
  predicate TabOk(t: Tab) {
    && 0 <= t.historyIndex < |t.history|
    && t.history[t.historyIndex] == t.path
    && (forall i :: 0 <= i < |t.history| - 1 ==> t.history[i] != t.history[i + 1])
    && t.name == GetNameFromPath(t.path)
  }

  predicate HasId(tabs: seq<Tab>, id: string) {
    exists i :: 0 <= i < |tabs| && tabs[i].id == id
  }

  /** Every tab is well-formed, ids are distinct, and no tab holds an id
      the counter has yet to issue. */
  ghost predicate TabsOk(tabs: seq<Tab>, counter: nat) {
    && (forall i :: 0 <= i < |tabs| ==> TabOk(tabs[i]))
    && (forall i, j :: 0 <= i < j < |tabs| ==> tabs[i].id != tabs[j].id)
    && (forall i, k: nat :: 0 <= i < |tabs| && counter <= k ==> tabs[i].id != TabId(k))
  }

  /** Some tab is active while any exist. */
  predicate ActiveOk(s: TabsState) {
    s.tabs != [] ==> s.activeTabId.Some? && HasId(s.tabs, s.activeTabId.value)
  }

  ghost predicate Valid(s: TabsState) {
    TabsOk(s.tabs, s.tabCounter) && ActiveOk(s)
  }

  /** Position of the first tab with the id, or -1 (`findIndex`). */
  function FindIndex(tabs: seq<Tab>, id: string): (i: int)
    ensures -1 <= i < |tabs|
    ensures i == -1 <==> !HasId(tabs, id)
    ensures i >= 0 ==> tabs[i].id == id && forall j :: 0 <= j < i ==> tabs[j].id != id
    decreases |tabs|
  {
    if tabs == [] then -1
    else if tabs[0].id == id then 0
    else
      var j := FindIndex(tabs[1..], id);
      assert HasId(tabs, id) ==> HasId(tabs[1..], id) by {
        if HasId(tabs, id) {
          var k :| 0 <= k < |tabs| && tabs[k].id == id;
          assert tabs[1..][k - 1].id == id;
        }
      }
      assert j >= 0 ==> tabs[j + 1] == tabs[1..][j];
      if j == -1 then -1 else j + 1
  }

  // ----- operations -----

  /** `switchTab(id)`: the id becomes active, whether or not a tab has it. */
  function SwitchTab(s: TabsState, id: string): (r: TabsState)
    ensures r.activeTabId == Some(id) && r.tabs == s.tabs && r.tabCounter == s.tabCounter
    ensures Valid(s) && HasId(s.tabs, id) ==> Valid(r)
  {
    s.(activeTabId := Some(id))
  }

  /** The folder a new tab opens when none is given: the documents folder
      when known, else the C drive. */
  function DefaultPath(documents: string): string {
    if documents != "" then documents else "C:\\"
  }

  /** `createTab(path)`; "" stands for no path. */
  function CreateTab(s: TabsState, path: string, documents: string): (r: TabsState)
    ensures var p := if path != "" then path else DefaultPath(documents);
      && r.tabs == s.tabs + [Tab(TabId(s.tabCounter), p, [p], 0, GetNameFromPath(p))]
      && r.activeTabId == Some(TabId(s.tabCounter))
      && r.tabCounter == s.tabCounter + 1
    ensures Valid(s) ==> Valid(r)
  {
    var p := if path != "" then path else DefaultPath(documents);
    var id := TabId(s.tabCounter);
    var t := Tab(id, p, [p], 0, GetNameFromPath(p));
    var tabs := s.tabs + [t];
    CreateKeepsValid(s, t);
    SwitchTab(TabsState(tabs, s.activeTabId, s.tabCounter + 1), id)
  }

  lemma CreateKeepsValid(s: TabsState, t: Tab)
    requires t.id == TabId(s.tabCounter) && TabOk(t)
    ensures Valid(s) ==> Valid(TabsState(s.tabs + [t], Some(t.id), s.tabCounter + 1))
  {
    if Valid(s) {
      AppendKeepsTabsOk(s.tabs, s.tabCounter, t);
      assert (s.tabs + [t])[|s.tabs|].id == t.id;
    }
  }

  lemma AppendKeepsTabsOk(tabs: seq<Tab>, counter: nat, t: Tab)
    requires TabsOk(tabs, counter) && t.id == TabId(counter) && TabOk(t)
    ensures TabsOk(tabs + [t], counter + 1)
  {
    var r := tabs + [t];
    var n := |tabs|;
    forall i | 0 <= i < |r| ensures TabOk(r[i]) {
      if i < n { assert r[i] == tabs[i]; }
    }
    forall i, j | 0 <= i < j < |r| ensures r[i].id != r[j].id {
      assert r[i] == tabs[i];
      if j == n {
        assert tabs[i].id != TabId(counter);
      } else {
        assert r[j] == tabs[j];
      }
    }
    forall i, k: nat | 0 <= i < |r| && counter + 1 <= k ensures r[i].id != TabId(k) {
      if i == n {
        TabIdInjective(counter, k);
      } else {
        assert r[i] == tabs[i];
      }
    }
  }

  /** `closeTab(id)`: never closes the last tab or an unknown id; the
      active tab's left neighbour (or the new first tab) takes over. */
  function CloseTab(s: TabsState, id: string): (r: TabsState)
    ensures |s.tabs| <= 1 || !HasId(s.tabs, id) ==> r == s
    ensures |s.tabs| > 1 && HasId(s.tabs, id) ==>
      var i := FindIndex(s.tabs, id);
      && r.tabs == s.tabs[..i] + s.tabs[i + 1..]
      && r.tabCounter == s.tabCounter
      && (s.activeTabId == Some(id) ==> r.activeTabId == Some(r.tabs[if i == 0 then 0 else i - 1].id))
      && (s.activeTabId != Some(id) ==> r.activeTabId == s.activeTabId)
  {
    if |s.tabs| <= 1 then s
    else
      var i := FindIndex(s.tabs, id);
      if i == -1 then s
      else
        var tabs := s.tabs[..i] + s.tabs[i + 1..];
        var closed := s.(tabs := tabs);
        if s.activeTabId == Some(id) then SwitchTab(closed, tabs[if i == 0 then 0 else i - 1].id)
        else closed
  }

  /** Position in the original strip of position `k` once tab `i` is gone. */
  function Skip(k: nat, i: nat): nat {
    if k < i then k else k + 1
  }

  lemma RemovedAt(tabs: seq<Tab>, i: nat)
    requires i < |tabs|
    ensures var r := tabs[..i] + tabs[i + 1..];
      |r| == |tabs| - 1 && forall k :: 0 <= k < |r| ==> r[k] == tabs[Skip(k, i)]
  {
  }

  /** Removing one tab keeps the others well-formed, distinct and fresh. */
  lemma RemoveKeepsTabsOk(tabs: seq<Tab>, counter: nat, i: nat)
    requires TabsOk(tabs, counter) && i < |tabs|
    ensures TabsOk(tabs[..i] + tabs[i + 1..], counter)
    ensures !HasId(tabs[..i] + tabs[i + 1..], tabs[i].id)
  {
    var r := tabs[..i] + tabs[i + 1..];
    RemovedAt(tabs, i);
    forall k | 0 <= k < |r| ensures TabOk(r[k]) && r[k].id != tabs[i].id {
      assert r[k] == tabs[Skip(k, i)];
    }
    forall a, b | 0 <= a < b < |r| ensures r[a].id != r[b].id {
      assert r[a] == tabs[Skip(a, i)] && r[b] == tabs[Skip(b, i)];
    }
    forall a, k: nat | 0 <= a < |r| && counter <= k ensures r[a].id != TabId(k) {
      assert r[a] == tabs[Skip(a, i)];
    }
  }

  /** Closing keeps the invariant and removes the id. */
  lemma CloseKeepsValid(s: TabsState, id: string)
    requires Valid(s)
    ensures Valid(CloseTab(s, id))
    ensures |s.tabs| > 1 ==> !HasId(CloseTab(s, id).tabs, id)
  {
    var r := CloseTab(s, id);
    if |s.tabs| > 1 && HasId(s.tabs, id) {
      var i := FindIndex(s.tabs, id);
      assert r.tabs == s.tabs[..i] + s.tabs[i + 1..] && r.tabCounter == s.tabCounter;
      RemoveKeepsTabsOk(s.tabs, s.tabCounter, i);
      assert TabsOk(r.tabs, r.tabCounter);
      CloseKeepsActive(s, id, i);
    } else {
      assert r == s;
    }
  }

  lemma CloseKeepsActive(s: TabsState, id: string, i: nat)
    requires ActiveOk(s) && |s.tabs| > 1 && i < |s.tabs| && i == FindIndex(s.tabs, id)
    ensures ActiveOk(CloseTab(s, id))
  {
    var tabs := s.tabs[..i] + s.tabs[i + 1..];
    var r := CloseTab(s, id);
    RemovedAt(s.tabs, i);
    if s.activeTabId == Some(id) {
      var n := if i == 0 then 0 else i - 1;
      assert r.activeTabId == Some(tabs[n].id);
    } else {
      var a := s.activeTabId.value;
      var j :| 0 <= j < |s.tabs| && s.tabs[j].id == a;
      assert j != i;
      var j' := if j < i then j else j - 1;
      assert tabs[j'] == s.tabs[j];
    }
  }

  /** A tab's history after visiting `path`: the entries after the cursor
      are dropped, and the path is appended unless it is already last. */
  function Visit(t: Tab, path: string): (r: Tab)
    requires 0 <= t.historyIndex < |t.history|
    ensures r.id == t.id && r.path == path && r.name == GetNameFromPath(path)
    ensures 0 <= r.historyIndex == |r.history| - 1 && r.history[r.historyIndex] == path
    ensures r.history[..r.historyIndex] == t.history[..t.historyIndex + 1] ||
            (r.history == t.history[..t.historyIndex + 1] && t.history[t.historyIndex] == path)
  {
    var h := if t.historyIndex < |t.history| - 1 then t.history[..t.historyIndex + 1] else t.history;
    assert h == t.history[..t.historyIndex + 1];
    if h[|h| - 1] != path then
      Tab(t.id, path, h + [path], |h|, GetNameFromPath(path))
    else
      Tab(t.id, path, h, t.historyIndex, GetNameFromPath(path))
  }

  /** Visiting keeps a tab well-formed: in particular it never puts the same
      folder twice in a row. */
  lemma VisitKeepsTabOk(t: Tab, path: string)
    requires TabOk(t)
    ensures TabOk(Visit(t, path))
  {
    var r := Visit(t, path);
    var h := t.history[..t.historyIndex + 1];
    forall i | 0 <= i < |r.history| - 1 ensures r.history[i] != r.history[i + 1] {
      assert r.history[i] == t.history[i];
      if i + 1 < |h| {
        assert r.history[i + 1] == t.history[i + 1];
      }
    }
  }

  /** Every tab's cursor points into its history. */
  predicate Cursors(tabs: seq<Tab>) {
    forall i :: 0 <= i < |tabs| ==> 0 <= tabs[i].historyIndex < |tabs[i].history|
  }

  /** `updateCurrentTab(path)`: the active tab visits the path; nothing
      happens when no tab is active. */
  function UpdateCurrentTab(s: TabsState, path: string): (r: TabsState)
    requires Cursors(s.tabs)
    ensures s.activeTabId.None? || !HasId(s.tabs, s.activeTabId.value) ==> r == s
    ensures r.activeTabId == s.activeTabId && r.tabCounter == s.tabCounter && |r.tabs| == |s.tabs|
    ensures s.activeTabId.Some? && HasId(s.tabs, s.activeTabId.value) ==>
      var i := FindIndex(s.tabs, s.activeTabId.value);
      && r.tabs == s.tabs[i := Visit(s.tabs[i], path)]
      && r.tabs[i].history[r.tabs[i].historyIndex] == path
  {
    if s.activeTabId.None? then s
    else
      var i := FindIndex(s.tabs, s.activeTabId.value);
      if i == -1 then s
      else s.(tabs := s.tabs[i := Visit(s.tabs[i], path)])
  }

  /** Updating the active tab keeps the invariant. */
  lemma UpdateKeepsValid(s: TabsState, path: string)
    requires Valid(s)
    ensures Cursors(s.tabs) && Valid(UpdateCurrentTab(s, path))
  {
    var r := UpdateCurrentTab(s, path);
    if s.activeTabId.Some? && HasId(s.tabs, s.activeTabId.value) {
      var i := FindIndex(s.tabs, s.activeTabId.value);
      var t := Visit(s.tabs[i], path);
      VisitKeepsTabOk(s.tabs[i], path);
      assert r.tabs == s.tabs[i := t];
      forall k | 0 <= k < |r.tabs| ensures TabOk(r.tabs[k]) {
      }
      forall a, b | 0 <= a < b < |r.tabs| ensures r.tabs[a].id != r.tabs[b].id {
      }
      forall a, k: nat | 0 <= a < |r.tabs| && s.tabCounter <= k ensures r.tabs[a].id != TabId(k) {
        assert r.tabs[a].id == s.tabs[a].id;
      }
      var j :| 0 <= j < |s.tabs| && s.tabs[j].id == s.activeTabId.value;
      assert r.tabs[j].id == s.activeTabId.value;
    }
  }

  /** Visiting the folder already shown leaves the history alone when the
      cursor is at its end. */
  lemma VisitSameIsNoop(t: Tab)
    requires TabOk(t) && t.historyIndex == |t.history| - 1
    ensures Visit(t, t.path).history == t.history && Visit(t, t.path).historyIndex == t.historyIndex
  {
    assert t.history[..t.historyIndex + 1] == t.history;
  }

  lemma InitValid()
    ensures Valid(Init)
  {
  }
}

=== FILE: tagcache.dfy ===
/** The renderer's copy of the tag store (js/TagSystem.js): the seven
    colour tags, the cached path-to-tags map, and the add and remove calls
    that replace the cache with the main process's reply. A rejected IPC
    call is `None`; the `onTagsChanged` callback is reported as a flag. */
module TagCache {
  import opened Wrappers
  import opened TagStore

  datatype TagInfo = TagInfo(id: string, color: string, labelText: string)

  /** `availableTags`. */
  const AvailableTags: seq<TagInfo> := [
    TagInfo("red", "#ff453a", "Important"),
    TagInfo("orange", "#ff9f0a", "Work"),
    TagInfo("yellow", "#ffd60a", "Personal"),
    TagInfo("green", "#32d74b", "Done"),
    TagInfo("blue", "#0a84ff", "To Do"),
    TagInfo("purple", "#bf5af2", "Later"),
    TagInfo("gray", "#8e8e93", "Archive")]

  /** The seven tag ids are distinct. */
  lemma AvailableIdsDistinct()
    ensures |AvailableTags| == 7
    ensures forall i, j :: 0 <= i < j < |AvailableTags| ==> AvailableTags[i].id != AvailableTags[j].id
  {
  }

  /** `getTagInfo(tagId)`: the first available tag with that id. */
  function GetTagInfo(tagId: string): (r: Option<TagInfo>)
    ensures r.Some? ==> r.value.id == tagId && r.value in AvailableTags
    ensures r.None? <==> forall i :: 0 <= i < |AvailableTags| ==> AvailableTags[i].id != tagId
  {
    FindTag(AvailableTags, tagId)
  }

  function FindTag(tags: seq<TagInfo>, tagId: string): (r: Option<TagInfo>)
    ensures r.Some? ==> r.value.id == tagId && r.value in tags
    ensures r.None? <==> forall i :: 0 <= i < |tags| ==> tags[i].id != tagId
    decreases |tags|
  {
    if tags == [] then None
    else if tags[0].id == tagId then Some(tags[0])
    else FindTag(tags[1..], tagId)
  }

  /** Since the ids are distinct, looking up an available tag's id finds
      that very tag. */
  lemma GetTagInfoFindsEach(i: int)
    requires 0 <= i < |AvailableTags|
    ensures GetTagInfo(AvailableTags[i].id) == Some(AvailableTags[i])
  {
    AvailableIdsDistinct();
    var r := GetTagInfo(AvailableTags[i].id);
    var k :| 0 <= k < |AvailableTags| && AvailableTags[k] == r.value;
    assert k == i;
  }

  /** The renderer-side state: the cached map and whether `onTagsChanged`
      has fired since the last look. */
  datatype Cache = Cache(fileTags: TagMap, notified: bool)

  /** `getTagsForFile(filePath)`: the cached list, [] when the path has
      none. A stored empty list is returned as it is. */
  function GetTagsForFile(c: Cache, filePath: string): (r: seq<string>)
    ensures filePath in c.fileTags ==> r == c.fileTags[filePath]
    ensures filePath !in c.fileTags ==> r == []
  {
    Current(c.fileTags, filePath)
  }

  /** `loadTags()`: a resolved `getAllTags` replaces the cache and fires the
      callback; a rejected one changes nothing. */
  function LoadTags(c: Cache, reply: Option<TagMap>): (r: Cache)
    ensures reply.Some? ==> r == Cache(reply.value, true)
    ensures reply.None? ==> r == c
  {
    match reply
    case Some(m) => Cache(m, true)
    case None => c
  }

  /** The common tail of `addTag` and `removeTag`: a successful reply
      replaces the cache, fires the callback and yields true; a failure or a
      rejected call leaves the cache and yields false. */
  function ApplyReply(c: Cache, reply: Option<Reply>): (r: (Cache, bool))
    ensures r.1 <==> reply.Some? && reply.value.Success?
    ensures r.1 ==> r.0 == Cache(reply.value.tags, true)
    ensures !r.1 ==> r.0 == c
  {
    if reply.Some? && reply.value.Success? then (Cache(reply.value.tags, true), true)
    else (c, false)
  }

  /** `addTag(filePath, tagId)` against the `add-file-tag` handler, whose
      file holds `stored`; `delivered` is false when the call rejects. */
  function AddTag(c: Cache, filePath: string, tagId: string, stored: TagFile, writeOk: bool, delivered: bool): (r: (Cache, bool))
    ensures r.1 ==> r.0.fileTags == Contents(AddFileTag(stored, filePath, tagId, writeOk).stored)
    ensures !r.1 ==> r.0 == c
  {
    ApplyReply(c, if delivered then Some(AddFileTag(stored, filePath, tagId, writeOk).reply) else None)
  }

  /** `removeTag(filePath, tagId)` against the `remove-file-tag` handler. */
  function RemoveTag(c: Cache, filePath: string, tagId: string, stored: TagFile, writeOk: bool, delivered: bool): (r: (Cache, bool))
    ensures r.1 ==> r.0.fileTags == Contents(RemoveFileTag(stored, filePath, tagId, writeOk).stored)
    ensures !r.1 ==> r.0 == c
  {
    ApplyReply(c, if delivered then Some(RemoveFileTag(stored, filePath, tagId, writeOk).reply) else None)
  }

  /** After a successful add the cache lists the tag for the file, and every
      other file keeps the tags the store had for it. */
  lemma AddTagShowsTag(c: Cache, filePath: string, tagId: string, stored: TagFile, writeOk: bool, delivered: bool)
    requires AddTag(c, filePath, tagId, stored, writeOk, delivered).1
    ensures tagId in GetTagsForFile(AddTag(c, filePath, tagId, stored, writeOk, delivered).0, filePath)
    ensures forall p :: p != filePath ==>
      GetTagsForFile(AddTag(c, filePath, tagId, stored, writeOk, delivered).0, p) == Current(Contents(stored), p)
  {
    var o := AddFileTag(stored, filePath, tagId, writeOk);
    assert o.reply.Success?;
  }

  /** Adding succeeds whenever the call is delivered and either the tag is
      already there or the write succeeds. */
  lemma AddTagSucceeds(c: Cache, filePath: string, tagId: string, stored: TagFile, writeOk: bool, delivered: bool)
    ensures AddTag(c, filePath, tagId, stored, writeOk, delivered).1 <==>
      delivered && (writeOk || (!stored.Missing? && tagId in Current(Contents(stored), filePath)))
  {
  }
}

=== FILE: tagstore.dfy ===
/** The tag store of the main process (main.js): a JSON object from file
    path to a list of tag ids, read whole, edited and written back by the
    `get-all-tags`, `update-file-tags`, `add-file-tag` and `remove-file-tag`
    handlers. The file is a value, and `writeOk` says whether writing to it
    succeeds, both for the creation of a missing file and for writing the
    edited object back. */
module TagStore {
  import opened Wrappers

  type TagMap = map<string, seq<string>>

  /** A handler's reply; the failure carries no modelled message. */
  datatype Reply = Success(tags: TagMap) | Failure

  /** The tags file: absent, present but not valid JSON, or an object. */
  datatype TagFile = Missing | Unparsable | Parsed(m: TagMap)

  /** A reply together with the file as it is afterwards. */
  datatype Outcome = Outcome(reply: Reply, stored: TagFile)

  /** The object a present file reads as; an unparsable one reads as `{}`. */
  function Contents(f: TagFile): TagMap {
    if f.Parsed? then f.m else map[]
  }

  /** `ensureTagsFile`: a missing file is created holding `{}`, when the
      write succeeds. */
  function Ensured(f: TagFile, writeOk: bool): TagFile {
    if f.Missing? && writeOk then Parsed(map[]) else f
  }

  /** Creating a missing file does not change what the file reads as. */
  lemma EnsuredKeepsContents(f: TagFile, writeOk: bool)
    ensures Contents(Ensured(f, writeOk)) == Contents(f)
    ensures Ensured(f, writeOk).Missing? <==> f.Missing? && !writeOk
  {
  }

  /** `readTags`: fails exactly when a missing file cannot be created, since
      that write sits outside the parse's `try`; otherwise the contents. */
  function ReadTags(f: TagFile, writeOk: bool): Option<TagMap>
  {
    if f.Missing? && !writeOk then None else Some(Contents(f))
  }

  /** `get-all-tags`: the contents, or a rejection when the file is missing
      and cannot be created. */
  function GetAllTags(f: TagFile, writeOk: bool): (o: Outcome)
    ensures o.reply.Failure? <==> f.Missing? && !writeOk
    ensures o.reply.Failure? ==> o.stored == f
    ensures o.reply.Success? ==> o.reply.tags == Contents(f) && Contents(o.stored) == Contents(f)
    ensures o.stored.Missing? <==> f.Missing? && !writeOk
  {
    match ReadTags(f, writeOk)
    case None => Outcome(Failure, f)
    case Some(all) => Outcome(Success(all), Ensured(f, writeOk))
  }

  /** Writing `next` back: on failure the file keeps `before`. */
  function Write(before: TagFile, next: TagMap, writeOk: bool): Outcome
  {
    if writeOk then Outcome(Success(next), Parsed(next)) else Outcome(Failure, before)
  }

  /** `allTags[filePath] || []`. */
  function Current(m: TagMap, filePath: string): seq<string> {
    if filePath in m then m[filePath] else []
  }

  /** `update-file-tags`: an empty list deletes the entry, any other list
      replaces it. */
  function UpdateFileTags(file: TagFile, filePath: string, tags: seq<string>, writeOk: bool): (o: Outcome)
    ensures writeOk <==> o.reply.Success?
    ensures !writeOk ==> o.stored == file
    ensures o.reply.Success? ==> o.stored == Parsed(o.reply.tags)
    ensures writeOk && tags == [] ==> filePath !in Contents(o.stored)
    ensures writeOk && tags != [] ==> filePath in Contents(o.stored) && Contents(o.stored)[filePath] == tags
    ensures writeOk ==> forall p :: p in Contents(file) && p != filePath ==>
      p in Contents(o.stored) && Contents(o.stored)[p] == Contents(file)[p]
    ensures writeOk ==> forall p :: p in Contents(o.stored) && p != filePath ==> p in Contents(file)
  {
    match ReadTags(file, writeOk)
    case None => Outcome(Failure, file)
    case Some(all) =>
      var next := if tags == [] then all - {filePath} else all[filePath := tags];
      Write(Ensured(file, writeOk), next, writeOk)
  }

  /** `add-file-tag`: appends the tag unless the file already has it, and
      writes only when it appended. */
  function AddFileTag(file: TagFile, filePath: string, tag: string, writeOk: bool): (o: Outcome)
    ensures file.Missing? && !writeOk ==> o == Outcome(Failure, file)
    ensures !file.Missing? && tag in Current(Contents(file), filePath) ==> o == Outcome(Success(Contents(file)), file)
    ensures o.reply.Failure? ==> o.stored == file
    ensures o.reply.Success? ==> filePath in Contents(o.stored) && tag in Contents(o.stored)[filePath]
    ensures o.reply.Success? ==> forall p :: p != filePath ==>
      (p in Contents(o.stored) <==> p in Contents(file)) &&
      (p in Contents(o.stored) ==> Contents(o.stored)[p] == Contents(file)[p])
    ensures o.reply.Success? ==> o.reply.tags == Contents(o.stored)
  {
    match ReadTags(file, writeOk)
    case None => Outcome(Failure, file)
    case Some(all) =>
      var cur := Current(all, filePath);
      if tag in cur then Outcome(Success(all), Ensured(file, writeOk))
      else Write(Ensured(file, writeOk), all[filePath := cur + [tag]], writeOk)
  }

  /** First position of `x` in `s`, or -1 (`indexOf`). */
  function IndexOf(s: seq<string>, x: string): (i: int)
    ensures -1 <= i < |s|
    ensures i == -1 <==> x !in s
    ensures i >= 0 ==> s[i] == x && x !in s[..i]
  {
    if s == [] then -1
    else if s[0] == x then 0
    else
      var j := IndexOf(s[1..], x);
      if j == -1 then -1
      else
        assert s[..j + 1] == [s[0]] + s[1..][..j];
        j + 1
  }

  /** `splice(indexOf(x), 1)` when `x` occurs. */
  function RemoveFirst(s: seq<string>, x: string): (r: seq<string>)
    requires x in s
    ensures |r| + 1 == |s|
    ensures multiset(r) + multiset{x} == multiset(s)
  {
    var i := IndexOf(s, x);
    assert s == s[..i] + [s[i]] + s[i + 1..];
    s[..i] + s[i + 1..]
  }

  /** `remove-file-tag`: drops the first occurrence of the tag, deleting the
      entry when no tag is left, and writes only when it found the tag. */
  function RemoveFileTag(file: TagFile, filePath: string, tag: string, writeOk: bool): (o: Outcome)
    ensures file.Missing? && !writeOk ==> o == Outcome(Failure, file)
    ensures file.Missing? && writeOk ==> o == Outcome(Success(map[]), Parsed(map[]))
    ensures !file.Missing? && tag !in Current(Contents(file), filePath) ==> o == Outcome(Success(Contents(file)), file)
    ensures o.reply.Failure? ==> o.stored == file
    ensures o.reply.Success? ==> forall p :: p != filePath ==>
      (p in Contents(o.stored) <==> p in Contents(file)) &&
      (p in Contents(o.stored) ==> Contents(o.stored)[p] == Contents(file)[p])
    ensures o.reply.Success? && tag in Current(Contents(file), filePath) && filePath in Contents(o.stored) ==>
      Contents(o.stored)[filePath] != [] && |Contents(o.stored)[filePath]| + 1 == |Contents(file)[filePath]|
    ensures o.reply.Success? && tag in Current(Contents(file), filePath) ==>
      var rest := RemoveFirst(Current(Contents(file), filePath), tag);
      && (rest == [] ==> filePath !in Contents(o.stored))
      && (rest != [] ==> filePath in Contents(o.stored) && Contents(o.stored)[filePath] == rest)
    ensures o.reply.Success? ==> o.reply.tags == Contents(o.stored)
  {
    match ReadTags(file, writeOk)
    case None => Outcome(Failure, file)
    case Some(all) =>
      var cur := Current(all, filePath);
      if tag !in cur then Outcome(Success(all), Ensured(file, writeOk))
      else
        var rest := RemoveFirst(cur, tag);
        Write(Ensured(file, writeOk), if rest == [] then all - {filePath} else all[filePath := rest], writeOk)
  }

  // ----- invariants and round trips -----

  /** After any successful handler the file exists, and `get-all-tags`
      returns exactly the map that handler replied with, whether or not a
      later write would succeed. */
  lemma ReadAfterSuccess(file: TagFile, filePath: string, tag: string, tags: seq<string>, writeOk: bool, laterOk: bool)
    ensures var o := AddFileTag(file, filePath, tag, writeOk);
      o.reply.Success? ==> GetAllTags(o.stored, laterOk).reply == o.reply
    ensures var o := RemoveFileTag(file, filePath, tag, writeOk);
      o.reply.Success? ==> GetAllTags(o.stored, laterOk).reply == o.reply
    ensures var o := UpdateFileTags(file, filePath, tags, writeOk);
      o.reply.Success? ==> GetAllTags(o.stored, laterOk).reply == o.reply
  {
  }

  predicate NoDup(s: seq<string>) {
    forall i, j :: 0 <= i < j < |s| ==> s[i] != s[j]
  }

  /** The shape the single-tag handlers keep: no empty lists, no repeats. */
  predicate WellFormed(m: TagMap) {
    forall p :: p in m ==> m[p] != [] && NoDup(m[p])
  }

  lemma NoDupRemoveFirst(s: seq<string>, x: string)
    requires x in s && NoDup(s)
    ensures NoDup(RemoveFirst(s, x))
    ensures x !in RemoveFirst(s, x)
  {
    var i := IndexOf(s, x);
    var r := s[..i] + s[i + 1..];
    assert RemoveFirst(s, x) == r;
    forall a, b | 0 <= a < b < |r| ensures r[a] != r[b] {
      DropAt(s, i, a);
      DropAt(s, i, b);
    }
    forall k | 0 <= k < |r| ensures r[k] != x {
      DropAt(s, i, k);
    }
  }

  /** Position `k` of the list without its element `i`. */
  lemma DropAt(s: seq<string>, i: nat, k: nat)
    requires i < |s| && k < |s| - 1
    ensures (s[..i] + s[i + 1..])[k] == s[if k < i then k else k + 1]
  {
  }

  /** The single-tag handlers keep a well-formed store well-formed. */
  lemma AddKeepsWellFormed(file: TagFile, filePath: string, tag: string, writeOk: bool)
    requires WellFormed(Contents(file))
    ensures WellFormed(Contents(AddFileTag(file, filePath, tag, writeOk).stored))
  {
    var cur := Current(Contents(file), filePath);
    var ext := cur + [tag];
    if tag !in cur {
      forall i, j | 0 <= i < j < |ext| ensures ext[i] != ext[j] {
        if j == |cur| { assert ext[i] == cur[i]; } else { assert ext[i] == cur[i] && ext[j] == cur[j]; }
      }
    }
  }

  lemma RemoveKeepsWellFormed(file: TagFile, filePath: string, tag: string, writeOk: bool)
    requires WellFormed(Contents(file))
    ensures WellFormed(Contents(RemoveFileTag(file, filePath, tag, writeOk).stored))
  {
    var cur := Current(Contents(file), filePath);
    if tag in cur {
      NoDupRemoveFirst(cur, tag);
    }
  }

  /** After `remove-file-tag` succeeds on a well-formed store, the file no
      longer has the tag. */
  lemma RemoveRemoves(file: TagFile, filePath: string, tag: string, writeOk: bool)
    requires WellFormed(Contents(file))
    ensures var o := RemoveFileTag(file, filePath, tag, writeOk);
      o.reply.Success? ==> tag !in Current(Contents(o.stored), filePath)
  {
    var cur := Current(Contents(file), filePath);
    if tag in cur {
      NoDupRemoveFirst(cur, tag);
    }
  }

  /** Adding a tag twice is adding it once. */
  lemma AddIdempotent(m: TagMap, filePath: string, tag: string)
    ensures var once := AddFileTag(Parsed(m), filePath, tag, true);
      AddFileTag(once.stored, filePath, tag, true) == once
  {
  }

  /** Removing a freshly added tag restores a well-formed store exactly. */
  lemma AddThenRemove(m: TagMap, filePath: string, tag: string)
    requires WellFormed(m)
    requires tag !in Current(m, filePath)
    ensures RemoveFileTag(AddFileTag(Parsed(m), filePath, tag, true).stored, filePath, tag, true).stored == Parsed(m)
  {
    assert filePath in m ==> m[filePath] != [];
    AddThenRemoveCore(m, filePath, tag);
  }

  lemma AddThenRemoveCore(m: TagMap, filePath: string, tag: string)
    requires filePath in m ==> m[filePath] != []
    requires tag !in Current(m, filePath)
    ensures RemoveFileTag(AddFileTag(Parsed(m), filePath, tag, true).stored, filePath, tag, true).stored == Parsed(m)
  {
    var cur := Current(m, filePath);
    var a := m[filePath := cur + [tag]];
    AddAppends(m, filePath, tag);
    RemoveAfterAppend(a, filePath, tag, cur);
    if filePath in m {
      UpdateTwice(m, filePath, cur + [tag], cur);
      UpdateSame(m, filePath, cur);
    } else {
      UpdateThenRemove(m, filePath, cur + [tag]);
    }
  }

  lemma UpdateTwice<K, V>(m: map<K, V>, k: K, v: V, w: V)
    ensures m[k := v][k := w] == m[k := w]
  {
  }

  lemma AddAppends(m: TagMap, filePath: string, tag: string)
    requires tag !in Current(m, filePath)
    ensures AddFileTag(Parsed(m), filePath, tag, true).stored == Parsed(m[filePath := Current(m, filePath) + [tag]])
  {
  }

  lemma UpdateSame<K, V>(m: map<K, V>, k: K, v: V)
    requires k in m && m[k] == v
    ensures m[k := v] == m
  {
  }

  lemma UpdateThenRemove<K, V>(m: map<K, V>, k: K, v: V)
    requires k !in m
    ensures m[k := v] - {k} == m
  {
  }

  lemma RemoveAfterAppend(a: TagMap, filePath: string, tag: string, cur: seq<string>)
    requires filePath in a && a[filePath] == cur + [tag] && tag !in cur
    ensures RemoveFileTag(Parsed(a), filePath, tag, true).stored ==
      Parsed(if cur == [] then a - {filePath} else a[filePath := cur])
  {
    RemoveAppended(cur, tag);
  }

  /** Removing a tag that was just appended to a list without it gives back
      the list. */
  lemma RemoveAppended(cur: seq<string>, tag: string)
    requires tag !in cur
    ensures RemoveFirst(cur + [tag], tag) == cur
  {
    var added := cur + [tag];
    assert added[..|cur|] == cur;
    assert IndexOf(added, tag) == |cur|;
  }
}

=== FILE: text.dfy ===
/** String helpers shared by the main process and the renderer: ASCII case
    folding, substring search, splitting on a separator character, joining,
    and decimal conversion of natural numbers. Strings are `seq<char>`. */
module Text {
  import opened Wrappers

  /** JavaScript's `toLowerCase`, restricted to the ASCII letters. */
  function LowerChar(c: char): char {
    if 'A' <= c <= 'Z' then (c as int + 32) as char else c
  }

  function Lower(s: string): (r: string)
    ensures |r| == |s|
    ensures forall i :: 0 <= i < |s| ==> r[i] == LowerChar(s[i])
  {
    seq(|s|, i requires 0 <= i < |s| => LowerChar(s[i]))
  }

  predicate IsPrefix(p: string, s: string) {
    |p| <= |s| && s[..|p|] == p
  }

  predicate EndsWith(s: string, p: string) {
    |p| <= |s| && s[|s| - |p|..] == p
  }

  /** `s.includes(sub)`: `sub` occurs somewhere in `s`. */
  predicate Contains(s: string, sub: string)
    decreases |s|
  {
    IsPrefix(sub, s) || (|s| > 0 && Contains(s[1..], sub))
  }

  lemma {:induction false} ContainsAt(s: string, sub: string, i: nat)
    requires i + |sub| <= |s| && s[i..i + |sub|] == sub
    ensures Contains(s, sub)
    decreases i
  {
    if i > 0 {
      assert s[1..][i - 1..i - 1 + |sub|] == s[i..i + |sub|];
      ContainsAt(s[1..], sub, i - 1);
    }
  }

  /** Index of the last occurrence of `c` in `s`, or -1 (`lastIndexOf`). */
  function LastIndexOf(s: string, c: char): (i: int)
    ensures -1 <= i < |s|
    ensures i == -1 ==> c !in s
    ensures i >= 0 ==> s[i] == c && c !in s[i + 1..]
    decreases |s|
  {
    if |s| == 0 then -1
    else if s[|s| - 1] == c then |s| - 1
    else
      var init := s[..|s| - 1];
      var i := LastIndexOf(init, c);
      assert s == init + [s[|s| - 1]];
      assert i >= 0 ==> s[i + 1..] == init[i + 1..] + [s[|s| - 1]];
      i
  }

  /** `s.split(sep)`: the maximal separator-free pieces, always at least one. */
  function Split(s: string, sep: char): (parts: seq<string>)
    ensures |parts| >= 1
    ensures forall i :: 0 <= i < |parts| ==> sep !in parts[i]
    decreases |s|
  {
    if |s| == 0 then [""]
    else
      var rest := Split(s[1..], sep);
      if s[0] == sep then [""] + rest
      else [[s[0]] + rest[0]] + rest[1..]
  }

  /** `parts.join(sep)`. */
  function Join(parts: seq<string>, sep: char): string
    decreases |parts|
  {
    if |parts| == 0 then ""
    else if |parts| == 1 then parts[0]
    else parts[0] + [sep] + Join(parts[1..], sep)
  }

  /** Joining one more piece appends a separator and the piece. */
  lemma {:induction false} JoinSnoc(parts: seq<string>, x: string, sep: char)
    requires |parts| >= 1
    ensures Join(parts + [x], sep) == Join(parts, sep) + [sep] + x
    decreases |parts|
  {
    if |parts| == 1 {
      assert parts + [x] == [parts[0], x];
      assert [x][1..] == [];
    } else {
      assert (parts + [x])[1..] == parts[1..] + [x];
      JoinSnoc(parts[1..], x, sep);
    }
  }

  /** A string has more than one piece exactly when it holds the separator. */
  lemma SplitCount(s: string, sep: char)
    ensures |Split(s, sep)| > 1 <==> sep in s
  {
    if sep in s { SplitHasTwoPieces(s, sep); } else { SplitNoSep(s, sep); }
  }

  /** Joining the pieces of a split gives back the original string. */
  lemma {:induction false} JoinSplit(s: string, sep: char)
    ensures Join(Split(s, sep), sep) == s
    decreases |s|
  {
    if |s| > 0 {
      var rest := Split(s[1..], sep);
      JoinSplit(s[1..], sep);
      if s[0] == sep {
        assert Split(s, sep) == [""] + rest;
        assert Join([""] + rest, sep) == "" + [sep] + Join(rest, sep);
      } else {
        var parts := [[s[0]] + rest[0]] + rest[1..];
        assert Split(s, sep) == parts;
        if |rest| == 1 {
          assert Join(parts, sep) == [s[0]] + rest[0];
        } else {
          assert parts[1..] == rest[1..];
          assert Join(parts, sep) == [s[0]] + rest[0] + [sep] + Join(rest[1..], sep);
          assert Join(rest, sep) == rest[0] + [sep] + Join(rest[1..], sep);
        }
      }
    }
  }

  /** Splitting the join of separator-free pieces gives back the pieces. */
  lemma {:induction false} SplitJoin(parts: seq<string>, sep: char)
    requires |parts| >= 1
    requires forall i :: 0 <= i < |parts| ==> sep !in parts[i]
    ensures Split(Join(parts, sep), sep) == parts
    decreases |parts|, |parts[0]|
  {
    if |parts[0]| > 0 {
      var p0 := parts[0];
      var tail := [p0[1..]] + parts[1..];
      assert forall i :: 0 <= i < |tail| ==> sep !in tail[i] by {
        forall i | 0 <= i < |tail| ensures sep !in tail[i] {
          if i == 0 { assert forall k :: 0 <= k < |p0[1..]| ==> p0[1..][k] == p0[k + 1]; }
          else { assert tail[i] == parts[i]; }
        }
      }
      SplitJoin(tail, sep);
      var s := Join(parts, sep);
      assert tail[1..] == parts[1..];
      if |parts| == 1 {
        assert s == p0;
        assert s[1..] == Join(tail, sep);
      } else {
        assert s == p0 + [sep] + Join(parts[1..], sep);
        assert Join(tail, sep) == p0[1..] + [sep] + Join(parts[1..], sep);
        assert s[1..] == Join(tail, sep);
      }
      assert s[0] == p0[0] && s[0] != sep;
      assert [s[0]] + p0[1..] == p0;
    } else if |parts| > 1 {
      SplitJoin(parts[1..], sep);
      var s := Join(parts, sep);
      assert s == [sep] + Join(parts[1..], sep);
      assert s[1..] == Join(parts[1..], sep);
      assert [""] + parts[1..] == parts;
    }
  }

  /** The last piece of a split is the text after the last separator. */
  lemma {:induction false} LastPieceAfterLastSep(s: string, sep: char)
    ensures var parts := Split(s, sep);
      parts[|parts| - 1] == s[LastIndexOf(s, sep) + 1..]
    decreases |s|
  {
    if |s| > 0 {
      var j := LastIndexOf(s[1..], sep);
      if j >= 0 || s[0] == sep {
        LastPieceOfTail(s, sep);
        if j >= 0 {
          LastPieceAfterLastSep(s[1..], sep);
          assert s[1..][j + 1..] == s[j + 2..];
          LastIndexIsLast(s, sep, j + 1);
        } else {
          LastIndexIsLast(s, sep, 0);
          SplitNoSep(s[1..], sep);
        }
      } else {
        assert sep !in s by { assert forall k :: 1 <= k < |s| ==> s[k] == s[1..][k - 1]; }
        SplitNoSep(s, sep);
      }
    }
  }

  /** `s.split(sep).pop()`: the last piece of the split. */
  function LastPiece(s: string, sep: char): (p: string)
    ensures sep !in p
  {
    var parts := Split(s, sep);
    parts[|parts| - 1]
  }

  lemma LastPieceIsAfterLastSep(s: string, sep: char)
    ensures LastPiece(s, sep) == s[LastIndexOf(s, sep) + 1..]
  {
    LastPieceAfterLastSep(s, sep);
  }

  /** When the text after the first character still holds a separator, or the
      first character is one, the last piece comes from the tail's split. */
  lemma LastPieceOfTail(s: string, sep: char)
    requires |s| > 0 && (s[0] == sep || sep in s[1..])
    ensures var parts := Split(s, sep); var rest := Split(s[1..], sep);
      parts[|parts| - 1] == rest[|rest| - 1]
  {
    if s[0] != sep {
      SplitHasTwoPieces(s[1..], sep);
    }
  }

  lemma {:induction false} SplitNoSep(s: string, sep: char)
    requires sep !in s
    ensures Split(s, sep) == [s]
    decreases |s|
  {
    if |s| > 0 {
      assert sep !in s[1..];
      SplitNoSep(s[1..], sep);
      assert [s[0]] + s[1..] == s;
    }
  }

  lemma {:induction false} SplitHasTwoPieces(s: string, sep: char)
    requires sep in s
    ensures |Split(s, sep)| >= 2
    decreases |s|
  {
    if s[0] != sep {
      assert sep in s[1..] by { var k :| 0 <= k < |s| && s[k] == sep; assert s[1..][k - 1] == sep; }
      SplitHasTwoPieces(s[1..], sep);
    }
  }

  lemma LastIndexIsLast(s: string, c: char, k: nat)
    requires k < |s| && s[k] == c && c !in s[k + 1..]
    ensures LastIndexOf(s, c) == k
    decreases |s|
  {
    if |s| - 1 != k {
      assert s[|s| - 1] in s[k + 1..];
      assert s[..|s| - 1][k + 1..] == s[k + 1..|s| - 1];
      LastIndexIsLast(s[..|s| - 1], c, k);
    }
  }

  // ----- decimal numbers -----

  predicate IsDigit(c: char) {
    '0' <= c <= '9'
  }

  function DigitChar(d: nat): char
    requires d < 10
  {
    (('0' as int) + d) as char
  }

  function DigitValue(c: char): nat
    requires IsDigit(c)
  {
    (c as int) - ('0' as int)
  }

  predicate AllDigits(s: string) {
    forall i :: 0 <= i < |s| ==> IsDigit(s[i])
  }

  /** Decimal rendering of a natural number, as a template literal produces it. */
  function NatToString(n: nat): (s: string)
    ensures |s| >= 1 && AllDigits(s)
    decreases n
  {
    if n < 10 then [DigitChar(n)] else NatToString(n / 10) + [DigitChar(n % 10)]
  }

  /** The value of a non-empty run of decimal digits. */
  function DigitsValue(s: string): nat
    requires AllDigits(s)
    decreases |s|
  {
    if |s| == 0 then 0 else DigitsValue(s[..|s| - 1]) * 10 + DigitValue(s[|s| - 1])
  }

  /** The longest prefix of `s` made of decimal digits. */
  function LeadingDigits(s: string): (d: string)
    ensures AllDigits(d) && IsPrefix(d, s)
    decreases |s|
  {
    if |s| == 0 || !IsDigit(s[0]) then "" else [s[0]] + LeadingDigits(s[1..])
  }

  /** `parseInt(s)` for inputs that start with a digit; None stands for NaN. */
  function ParseLeadingNat(s: string): Option<nat> {
    var d := LeadingDigits(s);
    if d == "" then None else Some(DigitsValue(d))
  }

  lemma {:induction false} DigitsValueOfNatToString(n: nat)
    ensures DigitsValue(NatToString(n)) == n
    decreases n
  {
    if n >= 10 {
      DigitsValueOfNatToString(n / 10);
      var s := NatToString(n / 10) + [DigitChar(n % 10)];
      assert s[..|s| - 1] == NatToString(n / 10);
    }
  }

  lemma {:induction false} LeadingDigitsOfDigitsThen(d: string, rest: string)
    requires AllDigits(d)
    requires |rest| == 0 || !IsDigit(rest[0])
    ensures LeadingDigits(d + rest) == d
    decreases |d|
  {
    if |d| > 0 {
      assert (d + rest)[1..] == d[1..] + rest;
      LeadingDigitsOfDigitsThen(d[1..], rest);
      assert [d[0]] + d[1..] == d;
    } else {
      assert d + rest == rest;
    }
  }

  /** `parseInt` reads back a rendered number followed by a non-digit suffix. */
  lemma ParseRendered(n: nat, suffix: string)
    requires |suffix| == 0 || !IsDigit(suffix[0])
    ensures ParseLeadingNat(NatToString(n) + suffix) == Some(n)
  {
    LeadingDigitsOfDigitsThen(NatToString(n), suffix);
    DigitsValueOfNatToString(n);
  }

  /** Different numbers render differently. */
  lemma NatToStringInjective(a: nat, b: nat)
    requires NatToString(a) == NatToString(b)
    ensures a == b
  {
    DigitsValueOfNatToString(a);
    DigitsValueOfNatToString(b);
  }
}

=== FILE: utils.dfy ===
/** `escapeHTML` (js/Utils.js): every `&`, `<`, `>`, `"` and `'` is
    replaced by its entity and every other character is copied. Its
    partner is the matching decoder, which undoes it. */
module Html {
  import opened Text

  predicate Special(c: char) {
    c == '&' || c == '<' || c == '>' || c == '"' || c == '\''
  }

  /** The replacement of one character. */
  function EntityOf(c: char): (e: string)
    ensures !Special(c) ==> e == [c]
    ensures Special(c) ==> |e| >= 4 && e[0] == '&' && e[|e| - 1] == ';'
  {
    if c == '&' then "&amp;"
    else if c == '<' then "&lt;"
    else if c == '>' then "&gt;"
    else if c == '"' then "&quot;"
    else if c == '\'' then "&#39;"
    else [c]
  }

  /** `escapeHTML(str)`; a falsy argument and the empty string both give "". */
  function Escape(s: string): (r: string)
    ensures |r| >= |s|
    ensures s == [] ==> r == []
    decreases |s|
  {
    if s == [] then [] else EntityOf(s[0]) + Escape(s[1..])
  }

  /** Escaping works character by character. */
  lemma {:induction false} EscapeConcat(a: string, b: string)
    ensures Escape(a + b) == Escape(a) + Escape(b)
    decreases |a|
  {
    if a == [] {
      assert a + b == b;
    } else {
      assert (a + b)[1..] == a[1..] + b;
      EscapeConcat(a[1..], b);
    }
  }

  /** The output holds none of the four characters that could open a tag or
      end an attribute value. */
  lemma {:induction false} EscapeIsSafe(s: string)
    ensures '<' !in Escape(s) && '>' !in Escape(s) && '"' !in Escape(s) && '\'' !in Escape(s)
    decreases |s|
  {
    if s != [] {
      EscapeIsSafe(s[1..]);
      EntityIsSafe(s[0]);
    }
  }

  lemma EntityIsSafe(c: char)
    ensures var e := EntityOf(c); '<' !in e && '>' !in e && '"' !in e && '\'' !in e
  {
    if !Special(c) {
      assert EntityOf(c) == [c];
    } else if c == '&' {
      assert EntityOf(c) == ['&', 'a', 'm', 'p', ';'];
    } else if c == '<' {
      assert EntityOf(c) == ['&', 'l', 't', ';'];
    } else if c == '>' {
      assert EntityOf(c) == ['&', 'g', 't', ';'];
    } else if c == '"' {
      assert EntityOf(c) == ['&', 'q', 'u', 'o', 't', ';'];
    } else {
      assert EntityOf(c) == ['&', '#', '3', '9', ';'];
    }
  }

  /** A string without special characters is returned unchanged. */
  lemma {:induction false} EscapePlain(s: string)
    requires forall i :: 0 <= i < |s| ==> !Special(s[i])
    ensures Escape(s) == s
    decreases |s|
  {
    if s != [] {
      EscapePlain(s[1..]);
      assert [s[0]] + s[1..] == s;
    }
  }

  /** The decoder for exactly these five entities. */
  function Unescape(t: string): (s: string)
    decreases |t|
  {
    if t == [] then []
    else if IsPrefix("&amp;", t) then "&" + Unescape(t[5..])
    else if IsPrefix("&lt;", t) then "<" + Unescape(t[4..])
    else if IsPrefix("&gt;", t) then ">" + Unescape(t[4..])
    else if IsPrefix("&quot;", t) then "\"" + Unescape(t[6..])
    else if IsPrefix("&#39;", t) then "'" + Unescape(t[5..])
    else [t[0]] + Unescape(t[1..])
  }

  /** Decoding one escaped character in front of any text. */
  lemma UnescapeStep(c: char, rest: string)
    ensures Unescape(EntityOf(c) + rest) == [c] + Unescape(rest)
  {
    if Special(c) {
      UnescapeEntity(c, rest);
    } else {
      UnescapePlainChar(c, rest);
    }
  }

  lemma UnescapePlainChar(c: char, rest: string)
    requires !Special(c)
    ensures Unescape([c] + rest) == [c] + Unescape(rest)
  {
    var t := [c] + rest;
    assert t[0] == c && t[1..] == rest;
    assert !IsPrefix("&amp;", t) && !IsPrefix("&lt;", t) && !IsPrefix("&gt;", t);
    assert !IsPrefix("&quot;", t) && !IsPrefix("&#39;", t);
  }

  lemma UnescapeEntity(c: char, rest: string)
    requires Special(c)
    ensures Unescape(EntityOf(c) + rest) == [c] + Unescape(rest)
  {
    var t := EntityOf(c) + rest;
    if c == '&' {
      assert t[..5] == "&amp;" && t[5..] == rest;
    } else if c == '<' {
      assert t[..4] == "&lt;" && t[4..] == rest;
      assert t[1] == 'l';
      assert !IsPrefix("&amp;", t);
    } else if c == '>' {
      assert t[..4] == "&gt;" && t[4..] == rest;
      assert t[1] == 'g';
      assert !IsPrefix("&amp;", t) && !IsPrefix("&lt;", t);
    } else if c == '"' {
      assert t[..6] == "&quot;" && t[6..] == rest;
      assert t[1] == 'q';
      assert !IsPrefix("&amp;", t) && !IsPrefix("&lt;", t) && !IsPrefix("&gt;", t);
    } else {
      assert t[..5] == "&#39;" && t[5..] == rest;
      assert t[1] == '#';
      assert !IsPrefix("&amp;", t) && !IsPrefix("&lt;", t) && !IsPrefix("&gt;", t);
      assert !IsPrefix("&quot;", t);
    }
  }

  /** Decoding gives back exactly the escaped text. */
  lemma {:induction false} UnescapeEscape(s: string)
    ensures Unescape(Escape(s)) == s
    decreases |s|
  {
    if s != [] {
      UnescapeStep(s[0], Escape(s[1..]));
      UnescapeEscape(s[1..]);
      assert [s[0]] + s[1..] == s;
    }
  }

  /** Escaping is one-to-one: different texts never escape alike. */
  lemma EscapeInjective(a: string, b: string)
    requires Escape(a) == Escape(b)
    ensures a == b
  {
    UnescapeEscape(a);
    UnescapeEscape(b);
  }

  /** Escaping twice is not escaping once: the ampersand of an entity is
      itself escaped. */
  lemma EscapeNotIdempotent()
    ensures Escape(Escape("&")) == "&amp;amp;"
  {
    assert Escape("&") == "&amp;";
    EscapeConcat("&", "amp;");
    EscapePlain("amp;");
  }
}

=== FILE: wrappers.dfy ===
/** The optional-value datatype used wherever the program has `null`,
    `undefined` or "no such entry". */
module Wrappers {

  datatype Option<+T> = None | Some(value: T) {

    /** Returns the value held in Some, or a default when None. */
    function GetOr(default: T): T {
      match this
      case Some(v) => v
      case None => default
    }
  }
}
